=== FILE: README.md ===
# ask: the document-native chat engine, modelled in Dafny

`ask` keeps a conversation with a language model in a Markdown file. Turns
are headed `## [N] Human` and `## [N] AI`. Before a Human turn is sent, every
`[[path]]` token in it is replaced by the file's contents, and every
`[[dir/]]` or `[[dir/**/]]` token by the contents of the matching files of a
directory tree. Each file becomes a numbered, fenced section. Go sources can
first be stripped of licence headers and comments. The model's answer is
streamed back into the file as a new AI turn, followed by the heading of the
next Human turn.

This project models the pure logic of that engine as immutable data and
total functions, and proves what the program promises about it:

- **FileTree**, **Paths**, **Selection**, **Walker**, **Rendering**,
  **References**: reference expansion. `ExpandReferences`, `expandFile`,
  `expandDirectoryWithOptions`, `shouldIncludeFile`, `isExcludedDirectory`
  and `isBinary` run over a file tree. The tree is a datatype with
  unreadable files and unlistable directories. The walk is proved equal to
  the numbered rendering of an independent description of the files it
  takes (`Walker.Collect`).
- **MarkdownContext**: the nearest heading above a reference, and
  `formatSection`.
- **Languages**: the table-driven `getLanguageHint` and
  `normalizeLanguageHint`.
- **Filter**: `FilterContent`, Go header stripping, and comment stripping.
  The three regular expressions are written as explicit scanners.
- **Session**, **Parser**, **RoundTrip**: replacing the last Human turn,
  appending an AI turn, and finding the last Human turn. RoundTrip proves
  that the parser reads back what the writer wrote.
- **Stream**: the stream writer's flags over an append-only output.
  `StreamResponse` has the stream's chunks and outcome as parameters.
- **Configuration**, **Models**, **Profiles**, **ProfileCache**: default
  filling of a decoded configuration, model-id parsing and selection,
  capability and profile-name classification, system-profile selection,
  and the 30-day profile cache.
- **Text**, **Wrappers**: the Go `strings` and `strconv` functions the
  program relies on, plus `Option` and `Result`.

`Configuration.Uses1MContext` is a predicate: it holds exactly when the
context setting is `"1m"`. The defaults do not ask for it, and
default-filling never changes it (`Configuration.ContextChoiceKept`).

Three facts about the code shape the model:

- The header stripper looks only at the first `HeaderLines` lines. It drops
  a leading comment block once a comment line in it mentions one of
  `HeaderKeywords`, and never looks past the first line of code.
- `expandFile` and the walker write their own `## [turn.section]` headings.
  They do not call `formatSection`, which is modelled on its own.
- The session functions and the parser look for `## [` headings. The stream
  writer writes `# [` headings.

## Model

| member | source | states |
|---|---|---|
| FileTree.IsBinary | internal/expand/expand.go:382-389 | a file is binary exactly when a zero byte occurs in it |
| FileTree.ReadFile | internal/expand/expand.go:95-101 | reading succeeds exactly on a regular file, giving its bytes; "not exist" is reported exactly when the path is absent |
| FileTree.SortByName | internal/expand/expand.go:183-184 | the result is a permutation of the entries, sorted by name in byte order |
| Paths.JoinedEntry | internal/expand/expand.go:167 | joining a directory and an entry name gives back that name as base and the name's extension |
| Selection.IsExcludedDirectory | internal/expand/expand.go:256-263 | true exactly when the name is one of the excluded directories |
| Selection.ShouldIncludeFile | internal/expand/expand.go:266-311 | true exactly when no path element is an excluded directory, no exclude pattern matches the path or base name, and the non-empty extension equals an included one ignoring case or an include pattern matches the base name |
| Selection.AnyElementExcluded | internal/expand/expand.go:271-279 | the loop finds an excluded directory exactly when some path element is one |
| Selection.AnyPatternExcludes | internal/expand/expand.go:282-291 | the loop finds an exclude match exactly when a pattern matches the path or the base name |
| Selection.AnyExtensionMatches | internal/expand/expand.go:294-301 | the loop finds a match exactly when an included extension equals the file's ignoring ASCII case |
| Selection.AnyPatternIncludes | internal/expand/expand.go:304-310 | the loop finds a match exactly when an include pattern matches the base name |
| Selection.ExcludedDirectoryWins | internal/expand/expand.go:271-279 | a file with an excluded directory among its path elements is rejected, whatever its extension or name |
| Walker.ExpandFile | internal/expand/expand.go:93-127 | a missing file names the referencing turn; other read failures are wrapped with the file name; a binary file gives empty text and no error; otherwise the section is the heading, the hint-tagged fence and the filtered text, with a quarter of the filtered length as tokens |
| Walker.ListingSelects | internal/expand/expand.go:162-184 | a listed directory yields exactly its included files and its non-excluded subdirectories, each as a joined path, both lists sorted |
| Walker.SortedPathsOf | internal/expand/expand.go:165-184 | the sorted paths are in byte order and are exactly the joined paths of the entries |
| Walker.ReadFiltered | internal/expand/expand.go:197-210 | a file is skipped exactly when it cannot be read or is binary; otherwise it gives its filtered text |
| Walker.Walk | internal/expand/expand.go:130-253 | nothing and no error at or beyond the depth limit; a listing error is returned; with a listing, the only error is "no matching files" and only at depth 0 |
| Walker.ExpandDirectory | internal/expand/expand.go:130-253 | the depth limit gives empty output; an absent path and a file path give their errors; a listable directory fails only at depth 0 with "no matching files" |
| Walker.WalkRendersCollect | internal/expand/expand.go:130-253 | a successful walk's text and statistics are the collected files, each level's sorted files before its sorted subdirectories' files, numbered consecutively from the start; a failed walk collects nothing |
| Walker.LevelRender | internal/expand/expand.go:197-245 | one level shows its own files first, then, only when recursive, each subdirectory's files, numbered on |
| Walker.SubdirSectionsRender | internal/expand/expand.go:228-245 | the subdirectory loop shows the files of each subdirectory in turn; failed or empty walks add nothing |
| Walker.KeptRenders | internal/expand/expand.go:233-243 | keeping a subdirectory's walk only when it succeeds with text adds exactly its files to what follows |
| Walker.FileSectionsRender | internal/expand/expand.go:197-225 | the file loop gives one section and one statistic per readable, non-binary file, in order, numbered from the start |
| Walker.ExpandDirectoryRenders | internal/expand/expand.go:130-253 | on a file tree, a successful directory expansion is the numbered rendering of the collected files, and a failed one collects none |
| Rendering.StatOf | internal/expand/expand.go:221-222 | a file's token count is its filtered length divided by four, rounded down |
| Rendering.RendersAppend | internal/expand/expand.go:252 | sections joined by blank lines for two file lists, the second numbered on from the first, show the concatenated list |
| Rendering.SectionsAppend | internal/expand/expand.go:224 | numbering a concatenation continues the second list from the end of the first; statistics concatenate |
| Rendering.RenderedEmpty | internal/expand/expand.go:247-252 | the joined text is empty exactly when no file is taken, and there is one statistic per file |
| References.MatchAtComplete | internal/expand/expand.go:32-33 | every `[[p]]` with a non-empty `p` free of `]` is recognised at its position, with `p` as the path |
| References.FindRefsLeftmost | internal/expand/expand.go:32-33 | the tokens found are the leftmost-first, non-overlapping matches of the pattern, and they are the only such list |
| References.FindRefs | internal/expand/expand.go:32-33 | the references found are the leftmost-first, non-overlapping tokens of the text, each found at its start with its path |
| References.NoTokenNoRefs | internal/expand/expand.go:32-37 | text with no token at any position yields no references |
| References.Classify | internal/expand/expand.go:47-56 | a path ending in "/**/" is a directory with recursion forced; one ending in "/" is a directory; any other is a file |
| References.ClassifyWritten | internal/expand/expand.go:47-56 | writing a classified path back gives the original path |
| References.StepDirectory | internal/expand/expand.go:55-70 | a directory step only appends statistics, advances the section number by their count, and wraps a walker error with the directory name |
| References.StepFile | internal/expand/expand.go:71-86 | a file step only appends statistics and advances the section number by their count; a missing file fails with "cannot find '<file>' referenced in turn <n>", and any read error is passed on unchanged |
| References.Step | internal/expand/expand.go:43-86 | a step only appends statistics and keeps the section number one past their count |
| References.Run | internal/expand/expand.go:43-87 | the loop only appends statistics and keeps the section number one past their count |
| References.RunStopsAtError | internal/expand/expand.go:43-76 | when the references before one all succeed and its step fails, that error is the loop's result, whatever references follow |
| References.RunFirstFails | internal/expand/expand.go:64-75 | a failing first step is the loop's result |
| References.MissingFirstFileFails | internal/expand/expand.go:72-76 | a turn whose first reference names a missing file fails with "cannot find '<file>' referenced in turn <n>" |
| References.FailedFirstDirectoryFails | internal/expand/expand.go:58-66 | a turn whose first directory reference cannot be walked fails with an error starting "failed to expand directory '<dir>': " |
| References.ExpandReferences | internal/expand/expand.go:35-37 | content with no token is returned unchanged with no statistics |
| References.NoTokensUnchanged | internal/expand/expand.go:35-37 | content with no token at any position is returned unchanged with no statistics and no error |
| References.BinaryRefRemoved | internal/expand/expand.go:82-85 | a binary file's token is replaced by empty text, with no statistic, no number used and no error |
| References.FileRefExpanded | internal/expand/expand.go:78-81 | a readable text file's token is replaced by its section at the current number, adding its statistic and advancing the number by one |
| References.StepFileShown | internal/expand/expand.go:78-81 | a file step with a non-empty section replaces the first occurrence of the token by it and records its statistic |
| References.DirRefShowsCollected | internal/expand/expand.go:55-70 | a successful directory step replaces the token by the rendering of the collected files, numbered from the current section, recursing when configured or forced |
| References.WalkShowsCollected | internal/expand/expand.go:61-63 | a successful top-level walk is the rendering of the files collected from the directory |
| References.ForcedRecursion | internal/expand/expand.go:47-59 | a "/**/" reference walks the directory recursively whatever the configuration says, and adds the statistics of every collected file |
| References.ExpansionNumbered | internal/expand/expand.go:39-89 | when the loop succeeds, its text and statistics are the result, with sections numbered from 1, one per statistic |
| MarkdownContext.NearestHeading | internal/expand/context.go:25-32 | the index found is the last line before the bound whose trimmed text starts with `#`, or -1 if there is none |
| MarkdownContext.DetectMarkdownContext | internal/expand/context.go:17-35 | an out-of-range position gives the default; otherwise the context comes from the nearest heading line in the text before the position, the default if there is none; the level is always 2 to 6 |
| MarkdownContext.LeadingHashes | internal/expand/context.go:42-49 | the count is the length of the run of `#` at the start of the line |
| MarkdownContext.ParseHeading | internal/expand/context.go:38-66 | 1 to 6 hashes give one level deeper, capped at 6; otherwise the level is 2; the prefix is the first bracketed run of digits and dots, and is empty exactly when there is none |
| MarkdownContext.MatchAtIff | internal/expand/context.go:60-63 | the scanner recognises `[p]` at a position exactly when `p` is a non-empty run of digits and dots there |
| MarkdownContext.FirstMatch | internal/expand/context.go:61 | the position found is the first at which a bracketed number starts, or -1 |
| MarkdownContext.FormatSection | internal/expand/context.go:69-84 | the section starts with exactly the level's `#` characters and a space, then the heading line, and ends with the content fenced between "```" + hint + "\n" and "\n```" |
| MarkdownContext.FormattedHeadingNests | internal/expand/context.go:38-80 | reading back a formatted heading gives one level deeper and the section's own `[prefix.section]` number |
| MarkdownContext.ParseFormatted | internal/expand/context.go:38-66 | a heading of 1 to 6 hashes and a bracketed number is read as the next level and that number |
| Languages.GetLanguageHint | internal/expand/languages.go:107-127 | an exact base-name hit wins; otherwise the lower-cased extension's entry; otherwise the lower-cased extension without its dot; "text" without an extension |
| Languages.HintOfLastElement | internal/expand/languages.go:108-116 | the hint depends only on the final path element |
| Languages.NormalizeLanguageHint | internal/expand/expand.go:337-379 | the result has no upper-case letter, space, `+` or `#`; a name already free of them and not in the table is kept |
| Languages.FenceTag | internal/expand/expand.go:342-371 | every tag in the fixed table is free of upper-case letters, spaces, `+` and `#` |
| Languages.TagPipeline | internal/expand/expand.go:338-378 | lower-casing and the three replacements leave a valid tag, and change nothing in a name that is one already |
| Filter.FilterContent | internal/filter/filter.go:12-27 | content is unchanged when filtering is off or the lower-cased extension is not ".go"; a Go file goes through the Go filter, and its result is trimmed with no triple newline under comment stripping and a suffix of the content otherwise |
| Filter.FilterGoContent | internal/filter/filter.go:30-40 | the header is stripped before comments: header stripping alone gives StripGoHeader of the content, comment stripping is applied to the header-stripped text (or the content when headers are kept), and with neither the content is unchanged; under comment stripping the result is trimmed with no triple newline |
| Filter.CheckLines | internal/filter/filter.go:52-55 | the scan inspects at most the configured number of lines and at most all the lines |
| Filter.StepEnd | internal/filter/filter.go:66-85 | a keyword comment line becomes the header end; a line without one before any header leaves the end unset |
| Filter.ScanLine | internal/filter/filter.go:57-97 | the scan goes on exactly past a non-code line; a code line before any header ends the scan with no header unless it is the package clause |
| Filter.ScanFindsKeyword | internal/filter/filter.go:57-98 | a header found by the scan has a keyword comment line, reached before any code line, at or before its end |
| Filter.ScanReachesKeyword | internal/filter/filter.go:57-98 | a keyword comment line reached before any code line always gives a header end |
| Filter.ScanKeepsFound | internal/filter/filter.go:82-95 | once a header end is set, a code line stops the scan with it instead of the early return |
| Filter.SkipBlank | internal/filter/filter.go:103-106 | the skip stops at the first line that is not blank once trimmed |
| Filter.HeaderEnd | internal/filter/filter.go:50-98 | the header end is -1 or one of the inspected lines |
| Filter.HeaderEndIffKeyword | internal/filter/filter.go:57-98 | a header end is found exactly when a keyword comment line lies among the inspected lines before the first code line |
| Filter.HeaderStart | internal/filter/filter.go:100-111 | the kept lines start at the first non-blank line after the header end; nothing is dropped exactly when there is no header end or only blank lines follow it |
| Filter.HeaderNeedsKeyword | internal/filter/filter.go:57-111 | lines are dropped only if a keyword comment line, with no code line before it, occurs among the inspected lines above the kept part |
| Filter.StripGoHeader | internal/filter/filter.go:43-114 | the result is a suffix of the content, and a proper one exactly when a line to keep from is found |
| Filter.StripsHeader | internal/filter/filter.go:100-111 | for every content: with a header end and a non-blank line after it, the result is the lines from the first such line on, joined by newlines; otherwise the content unchanged |
| Filter.GoFileLosesHeader | internal/filter/filter.go:12-40 | a Go file filtered with header stripping alone is cut to the lines from the first non-blank line after the header end; without a header, it is unchanged |
| Filter.NoKeywordNoStrip | internal/filter/filter.go:88-96 | with no keyword comment line before the first code line among the inspected lines, the content is unchanged; keyword lines below that code line do not count |
| Filter.PackageFirstNoStrip | internal/filter/filter.go:88-96 | a package clause on the first line ends the scan, so later keyword comments strip nothing |
| Filter.LicenceLineStripped | internal/filter/filter.go:57-111 | a keyword `//` line followed by the package clause is dropped, the rest kept verbatim |
| Filter.CutLine | internal/filter/filter.go:119-120 | a line is cut exactly at its first `//`; a line without one is kept |
| Filter.CutLineComments | internal/filter/filter.go:119-120 | every line of the text is cut at its first `//`, and the line structure is kept |
| Filter.RemoveBlockComments | internal/filter/filter.go:123-124 | removal never lengthens the text and leaves text without an opener unchanged |
| Filter.RemovesComment | internal/filter/filter.go:123-124 | the first `/*` and the first `*/` after it are removed along with everything between them, and the scan goes on after |
| Filter.CollapseNewlines | internal/filter/filter.go:127-128 | the result has no three newlines in a row, has the same non-newline text, and leaves text without such a run unchanged |
| Filter.StripGoComments | internal/filter/filter.go:117-131 | the result has no leading or trailing white space and no three consecutive newlines |
| Filter.TrimKeepsNoTriple | internal/filter/filter.go:126-130 | trimming keeps the collapsed text free of triple newlines |
| Session.HumanHeader | internal/session/session.go:20 | the header starts with "## [" and is one line |
| Session.ReplaceLastHumanTurn | internal/session/session.go:19-43 | without the turn's heading the document is unchanged; with it, the heading is still there afterwards (ReplaceIsSplice and ReplacedShape state the full replacement) |
| Session.SectionEnd | internal/session/session.go:29-30 | the turn ends at the first "\n## [" from the given position, or at the end of the text |
| Session.Splice | internal/session/session.go:35-39 | the text before the position and after the end are kept verbatim around the new span |
| Session.ReplaceWithoutHeading | internal/session/session.go:23-26 | without the header the content is returned unchanged |
| Session.ReplaceIsSplice | internal/session/session.go:19-43 | with the header, the text before its last occurrence and from the next "\n## [" on are kept verbatim, and between them lies exactly header + "\n\n" + trimmed text + "\n" |
| Session.ReplacedShape | internal/session/session.go:32-40 | both branches write the prefix, the replaced span and the rest from the turn's end |
| Session.ReplaceIdempotent | internal/session/session.go:19-43 | replacing twice with the same arguments equals replacing once, when the trimmed text starts no "## [" line and does not contain the header |
| Session.AppendAIResponse | internal/session/session.go:46-49 | the original is kept as a prefix, followed by the AI heading line and the trimmed response fenced in "````markdown" |
| Parser.DigitRun | internal/session/parser.go:12 | the run ends at the first non-digit |
| Parser.HumanMatchIff | internal/session/parser.go:12-13 | the scanner matches at a position exactly when "## [digits] Human" occurs there, and its digits are the captured group |
| Parser.MatchesDoNotOverlap | internal/session/parser.go:13-20 | no match starts inside another, so the last match found left to right is the rightmost |
| Parser.LastHumanMatch | internal/session/parser.go:15-20 | the position found is the rightmost match before the bound, or -1 |
| Parser.ParseIntOrZero | internal/session/parser.go:41-45 | decimal digits give their value when it fits in 64 bits, and 0 when it does not |
| Parser.ParseWritten | internal/session/parser.go:41-45 | a written non-negative 64-bit number is read back as itself |
| Parser.FindLastHumanTurn | internal/session/parser.go:10-39 | no match gives turn 0 and empty text; the text is always trimmed |
| Parser.LastTurnAt | internal/session/parser.go:19-36 | the turn is read at the rightmost match: its number, and the trimmed text from the match's end to the next "\n## [" or the end |
| RoundTrip.ReplaceThenFind | internal/session/parser.go:10-39 | after replacing the document's last Human turn by text with no "## [", the parser finds that turn's number and the trimmed text |
| RoundTrip.AppendThenFind | internal/session/session.go:46-49 | appending an AI turn whose response has no "## [" leaves the last Human turn found unchanged |
| RoundTrip.AppendedMatches | internal/session/session.go:46-49 | the appended AI section adds no Human heading match |
| Stream.WriteHeader | internal/session/stream.go:38-55 | the header is appended once; a second call changes nothing |
| Stream.NewWriter | internal/session/stream.go:21-35 | a new writer has written nothing and satisfies the writer invariant (content only after the header, interruption only after content), the base case for WriteChunkValid and CloseValid |
| Stream.WriteHeaderOnce | internal/session/stream.go:38-41 | writing the header twice is writing it once |
| Stream.WriteChunk | internal/session/stream.go:58-83 | an empty chunk or an interrupted writer changes nothing; otherwise header and content are marked written |
| Stream.WriteChunkExtends | internal/session/stream.go:58-83 | a chunk only appends to the output, and a written chunk ends it |
| Stream.WriteChunkValid | internal/session/stream.go:58-83 | content written implies header written, and the output starts with the header, before and after each chunk |
| Stream.Close | internal/session/stream.go:86-118 | closing without a header changes nothing; the writer becomes interrupted only if content was written |
| Stream.CloseExtends | internal/session/stream.go:102-109 | closing only appends, and after a header the output ends with the closing fence and the next Human heading |
| Stream.CloseValid | internal/session/stream.go:86-118 | closing keeps the writer's invariant |
| Stream.WriteAllFlags | internal/session/stream.go:58-83 | after a run of chunks, header and content are written exactly when some chunk was non-empty |
| Stream.WriteAllOutput | internal/session/stream.go:58-83 | a run of chunks appends the header before the first non-empty chunk and then the chunks in order |
| Stream.TranscriptShape | internal/session/stream.go:38-109 | nothing is written without content; otherwise header, chunks, the marker only if interrupted, closing fence and next Human heading |
| Stream.MarkerOnce | internal/session/stream.go:95-100 | once interrupted, later chunks are dropped and a second close adds no second marker |
| Stream.CloseError | internal/session/stream.go:111-117 | a failed final flush is wrapped; otherwise the sync error is returned; without a header there is none |
| Stream.ResponseOutcome | internal/session/stream.go:121-143 | an open error is returned; the output is the transcript; a close error wins; a "context canceled" stream error counts as success and any other is returned |
| Stream.StreamResponse | internal/session/stream.go:121-143 | an open error is returned with nothing written; the call succeeds exactly when the open and the close succeed and the stream either succeeded or was cancelled |
| Configuration.ApplyDefaults | internal/config/config.go:99-147 | every zero field takes its value from Defaults (version 1, temperature 1.0, 32000 tokens, "5m", budget 0.8), set fields are kept, a nil bedrock table becomes an empty one, and a save is asked for exactly when a field was missing |
| Configuration.FillExpand | internal/config/config.go:128-146 | a zero depth becomes the default 3, each empty exclude list becomes its default list, an empty extension list replaces the whole include block with the default one, and set values are kept |
| Configuration.ApplyDefaultsIdempotent | internal/config/config.go:99-147 | a second pass changes nothing and asks for no save |
| Configuration.DefaultsComplete | internal/config/config.go:52-78 | the defaults are a fixed point of default filling |
| Configuration.CompleteUnchanged | internal/config/config.go:99-147 | a configuration with every field set is kept as it is, with no save |
| Configuration.NilBedrockNoSave | internal/config/config.go:123-125 | a nil bedrock table alone is replaced without asking for a save |
| Configuration.Defaults | internal/config/config.go:52-78 | the defaults set every field that default-filling checks, carry an empty bedrock table, and use the standard context |
| Configuration.ContextChoiceKept | internal/config/config.go:210-212 | default-filling never changes whether the 1M context is asked for (`Uses1MContext`), as the context field is not defaulted |
| Models.DaysIn | internal/config/models.go:174 | a month has 28 to 31 days, February 29 exactly in Gregorian leap years |
| Models.ParseModelID | internal/config/models.go:139-158 | no result exactly when the lower-cased id names none of opus, sonnet and haiku; the family is the first of them found, and the id is kept verbatim |
| Models.ParsedVersion | internal/config/models.go:161-169 | a version is set exactly when there are more than three fields and two adjacent one-character fields, and it is the first such pair joined by "." |
| Models.ParsedDate | internal/config/models.go:172-179 | a date is set exactly when some field is a valid YYYYMMDD date, and it is the first such field |
| Models.LatestIsFirst | internal/config/models.go:97-105 | the chosen model is one of the matches and no match is later by date, then version |
| Models.OfType | internal/config/models.go:72-80 | the matches are exactly the models whose type equals the search type |
| Models.FallbackModel | internal/config/models.go:82-94 | without matches, only opus, sonnet and haiku give an id; anything else is an error |
| Models.SelectModel | internal/config/models.go:60-106 | an id containing "." or ":" is returned verbatim; a failed model list is an error |
| Models.SelectLatest | internal/config/models.go:66-106 | without a match for the lower-cased input the fixed mapping applies; with matches the result is the id of a latest match |
| Profiles.GetModelCapabilities | internal/bedrock/profiles.go:24-64 | a system profile is required exactly for sonnet-4 ids, and the strategy is "discover" exactly then |
| Profiles.CapabilitiesClassified | internal/bedrock/profiles.go:27-63 | sonnet-4 ids get thinking, system profile and "discover"; thinking is supported exactly for the four listed cases; others get no thinking and "create" |
| Profiles.DeriveProfileName | internal/bedrock/profiles.go:67-83 | the name always starts with "ask-" |
| Profiles.ProfileNameFollowsFamily | internal/bedrock/profiles.go:67-83 | the name is "ask-" and the family for opus, sonnet and haiku ids, in that order; otherwise "ask-" and the third "."-field, or "ask-default" |
| Profiles.LastIndexOfKind | internal/bedrock/profiles.go:184-225 | the index found is the last candidate of the kind before the bound |
| Profiles.DiscoverSystemProfile | internal/bedrock/profiles.go:170-250 | a listing error is wrapped; otherwise the choice among the listed summaries |
| Profiles.ChosenIsLastCandidate | internal/bedrock/profiles.go:184-249 | a chosen profile is the last candidate of its kind with an ARN, and extended only when 1M is preferred |
| Profiles.ExtendedOnlyFails | internal/bedrock/profiles.go:228-249 | with no standard candidate and no 1M preference, the discovery fails |
| ProfileCache.Load | internal/bedrock/cache.go:25-47 | a missing or undecodable cache, or one without a table, is an empty map |
| ProfileCache.GetCached | internal/bedrock/cache.go:72-86 | a lookup succeeds exactly for a present entry younger than 30 days, and gives its ARN |
| ProfileCache.SetCached | internal/bedrock/cache.go:89-100 | after a set the name holds the new entry stamped with the current time |
| ProfileCache.Invalidate | internal/bedrock/cache.go:103-107 | after an invalidate the name is absent |
| ProfileCache.SetThenGet | internal/bedrock/cache.go:72-100 | a lookup within 30 days of a set gives the new ARN |
| ProfileCache.InvalidateThenGet | internal/bedrock/cache.go:72-107 | a lookup after an invalidate fails |
| ProfileCache.OthersUnchanged | internal/bedrock/cache.go:89-107 | set and invalidate leave every other name's entry and lookup unchanged |
| ProfileCache.ExpiredNotFound | internal/bedrock/cache.go:80 | an entry 30 days old or older is not returned |
| ProfileCache.UnreadableIsEmpty | internal/bedrock/cache.go:28-44 | a missing, undecodable or empty cache finds nothing |

## Left out

- File and OS I/O is not modelled: `os.ReadFile`, `ReadDir`, `Stat`, `WriteAtomic`, bufio buffering and flushing, `Sync`, and TOML encoding and decoding. The file system is an immutable tree. Configurations and caches are decoded records. The stream writer's file is an appended sequence.
- `config.Load` inside `ExpandReferences` and `expandFile` is replaced by expansion and filter configuration parameters. The load error path, which falls back to `Defaults()`, is the caller's choice of parameter.
- Only the pure default-filling block of `Load` is modelled. Creating a missing file, the decode error and the save are left out; the save request is the `needsUpdate` flag.
- The "Skipping" and "Warning" messages printed by the expander are left out; they change no result.
- Operating-system error texts are simplified. A failed stat or listing gives a fixed reason ("permission denied", "not a directory") instead of Go's `*PathError` text.
- `filepath.Join` is modelled as joining with "/" when the directory is not empty, without `Clean`. Paths are Unix paths, so `ToSlash` is the identity. The tree is rooted at the working directory and does not resolve "..", absolute paths or symbolic links.
- Directory paths that are not clean differ from the program's. For `[[src//]]` or `[[./src/]]` the model writes headings and statistics for `src//a.go` or `./src/a.go` where the program writes `src/a.go`. Clean paths give the same text.
- `filepath.Match` is a parameter: a total function from pattern and name to a verdict, a malformed pattern counting as no match.
- The go-enry `getLanguageHint` in internal/expand/expand.go:314-334 is a foreign library and is left out. Sections use the table version in internal/expand/languages.go; `normalizeLanguageHint` is modelled on its own.
- `sort.Strings` and the walker's sort work on full joined paths, as in the program. `Models.SelectModel` uses `sort.Slice`, which is not stable, so among equally late matches the program may return any of them. The model returns the first, and its contract promises only a latest match.
- A nil and an empty statistics list are the same sequence. The program's `nil` stats for a reference-free turn become `[]`.
- Regular expressions scan characters, one per byte. Multi-byte UTF-8 runes and Unicode case folding are not modelled: case mapping and white space are ASCII only.
- Floating-point fields (`Temperature`, the thinking `Budget`) are exact reals. They are only compared with zero and set to constants. `GetThinkingTokens` and the CLI's parsing of them are left out.
- Network code is left out: the Bedrock clients, streaming, `ensureProfile`, `getInferenceProfile`, `createInferenceProfile` and `queryBedrockModels`. The profile listing and the model list are parameters, either their values or the service's error.
- The profile cache's save errors are ignored by the program and are not modelled. Time is an integer count of nanoseconds, with no `time.Duration` overflow.
- `StreamResponse`'s callback is replaced by its effect: the chunks it wrote, its token count and its error. Writes and flushes of chunks are taken to succeed; only the final flush and sync can fail.
- The CLI, UI and process code is left out: `cmd/*.go`, `main.go` and the version package.
- References.ExpandReferences: its own contract covers only a turn without tokens. The general case is stated by `References.ExpansionNumbered`, `References.FileRefExpanded`, `References.BinaryRefRemoved` and `References.DirRefShowsCollected`, over the loop `References.Run`.
- Parser.FindLastHumanTurn: its own contract covers the no-match case and trimming. `Parser.LastTurnAt` states which match and which text it reads.
- Models.SelectModel: its own contract covers the verbatim-id and failed-list cases. `Models.SelectLatest` states the matching and fallback cases.
- Filter.RemoveBlockComments: its own contract bounds the length and covers text without an opener. `Filter.RemovesComment` states the span rule.

=== FILE: cache.dfy ===
/** The profile cache: profile ARNs the program discovered or created,
    kept for thirty days.  The file holding it is a parameter (absent,
    undecodable, or the decoded table); every operation first loads it, as
    the program does, and the current time is a parameter too. */
module ProfileCache {
  import opened Wrappers

  /** A cached profile; `createdAt` is a time in nanoseconds. */
  datatype ProfileEntry = ProfileEntry(arn: string, createdAt: int, modelID: string, custom: bool)

  type Profiles = map<string, ProfileEntry>

  /** The cache file as the program finds it: absent, failing to decode,
      or decoded, with a `profiles` table that may be missing (nil). */
  datatype Stored = Missing | Undecodable | Decoded(profiles: Option<Profiles>)

  /** Thirty days as a Go duration, in nanoseconds. */
  const MaxAge: int := 30 * 24 * 60 * 60 * 1000000000

  /** loadProfileCache: a missing or undecodable file, or a nil table, is
      an empty cache; otherwise the decoded table. */
  function Load(s: Stored): (c: Profiles)
    ensures s.Missing? || s.Undecodable? ==> c == map[]
    ensures s.Decoded? && s.profiles.None? ==> c == map[]
    ensures s.Decoded? && s.profiles.Some? ==> c == s.profiles.value
  {
    if s.Decoded? && s.profiles.Some? then s.profiles.value else map[]
  }

  /** The entry is younger than thirty days at time `now`. */
  predicate Fresh(e: ProfileEntry, now: int) {
    now - e.createdAt < MaxAge
  }

  /** getCachedProfile: the ARN of a fresh entry for the name. */
  function GetCached(s: Stored, name: string, now: int): (r: Option<string>)
    ensures r.Some? <==> name in Load(s) && Fresh(Load(s)[name], now)
    ensures r.Some? ==> r.value == Load(s)[name].arn
  {
    var c := Load(s);
    if name in c && Fresh(c[name], now) then Some(c[name].arn) else None
  }

  /** setCachedProfile: the table saved back, with the name's entry
      replaced by one created now. */
  function SetCached(s: Stored, name: string, arn: string, modelID: string, custom: bool, now: int): (c: Profiles)
    ensures name in c && c[name] == ProfileEntry(arn, now, modelID, custom)
  {
    Load(s)[name := ProfileEntry(arn, now, modelID, custom)]
  }

  /** InvalidateCachedProfile: the table saved back without the name. */
  function Invalidate(s: Stored, name: string): (c: Profiles)
    ensures name !in c
  {
    Load(s) - {name}
  }

  /** A cache that could not be read behaves as an empty one. */
  lemma {:induction false} UnreadableIsEmpty(name: string, now: int)
    ensures GetCached(Missing, name, now).None? && GetCached(Undecodable, name, now).None?
    ensures GetCached(Decoded(None), name, now).None?
  {
  }

  /** After a set, the name is found with the new ARN for thirty days. */
  lemma {:induction false} SetThenGet(s: Stored, name: string, arn: string, modelID: string, custom: bool, now: int, later: int)
    requires now <= later < now + MaxAge
    ensures GetCached(Decoded(Some(SetCached(s, name, arn, modelID, custom, now))), name, later) == Some(arn)
  {
  }

  /** After an invalidate, the name is not found. */
  lemma {:induction false} InvalidateThenGet(s: Stored, name: string, now: int)
    ensures GetCached(Decoded(Some(Invalidate(s, name))), name, now).None?
  {
  }

  /** Set and invalidate leave every other name's entry as it was. */
  lemma {:induction false} OthersUnchanged(s: Stored, name: string, other: string, arn: string, modelID: string, custom: bool,
                        now: int)
    requires other != name
    ensures other in SetCached(s, name, arn, modelID, custom, now) <==> other in Load(s)
    ensures other in Load(s) ==> SetCached(s, name, arn, modelID, custom, now)[other] == Load(s)[other]
    ensures other in Invalidate(s, name) <==> other in Load(s)
    ensures other in Load(s) ==> Invalidate(s, name)[other] == Load(s)[other]
    ensures GetCached(Decoded(Some(SetCached(s, name, arn, modelID, custom, now))), other, now)
            == GetCached(s, other, now)
    ensures GetCached(Decoded(Some(Invalidate(s, name))), other, now) == GetCached(s, other, now)
  {
  }

  /** An entry stops being found once thirty days have passed. */
  lemma {:induction false} ExpiredNotFound(s: Stored, name: string, now: int)
    requires name in Load(s) && now >= Load(s)[name].createdAt + MaxAge
    ensures GetCached(s, name, now).None?
  {
  }
}

=== FILE: config.dfy ===
/** The program's configuration: its defaults and the filling-in of fields a
    decoded configuration file leaves at their zero value.  Reading and
    writing the TOML file are not modelled; the decoded record is the
    input.  Floating-point fields are exact reals: they are only compared
    with zero and set to constants here. */
module Configuration {
  import opened Wrappers

  datatype Thinking = Thinking(enabled: bool, budget: real)

  datatype IncludeSpec = IncludeSpec(extensions: seq<string>, patterns: seq<string>)

  datatype ExcludeSpec = ExcludeSpec(patterns: seq<string>, directories: seq<string>)

  /** The rules for expanding directory references. */
  datatype Expand = Expand(maxDepth: int, recursive: bool, includes: IncludeSpec, excludes: ExcludeSpec)

  /** The `bedrock` table is absent (Go's nil map) or a map whose values
      the program never inspects. */
  datatype Config = Config(version: int, model: string, temperature: real, maxTokens: int,
                           timeout: string, context: string, thinking: Thinking, expand: Expand,
                           bedrock: Option<map<string, string>>)

  const DefaultExtensions: seq<string> :=
    ["go", "rs", "py", "js", "ts", "jsx", "tsx", "java", "cpp", "c", "h", "hpp", "cs", "rb", "php",
     "swift", "kt", "scala", "sh", "bash", "zsh", "fish", "ps1", "md", "txt", "json", "yaml", "yml",
     "toml", "xml", "html", "css", "scss", "sass", "sql", "proto"]

  const DefaultIncludePatterns: seq<string> :=
    ["Makefile", "Dockerfile", ".gitignore", ".env.example", "README", "LICENSE"]

  const DefaultExcludePatterns: seq<string> :=
    ["*_test.go", "*.pb.go", "*_generated.go", "*.min.js", "*.min.css", "*.map"]

  const DefaultExcludeDirectories: seq<string> :=
    ["vendor", "node_modules", ".git", "dist", "build", "target", "bin", "obj", ".idea", ".vscode",
     "__pycache__", ".pytest_cache", ".next", ".nuxt", ".output"]

  /** Defaults: version 1, the "opus" model, 32000 tokens, a five-minute
      timeout, standard context, thinking off, and the expansion rules. */
  function Defaults(): (r: Config)
    ensures FieldsSet(r) && r.bedrock == Some(map[])
    ensures !Uses1MContext(r)
  {
    Config(1, "opus", 1.0, 32000, "5m", "standard", Thinking(false, 0.8),
           Expand(3, false, IncludeSpec(DefaultExtensions, DefaultIncludePatterns),
                  ExcludeSpec(DefaultExcludePatterns, DefaultExcludeDirectories)),
           Some(map[]))
  }

  /** Every field that default-filling reports as an update is set. */
  predicate FieldsSet(c: Config) {
    && c.version != 0 && c.temperature != 0.0 && c.maxTokens != 0 && c.timeout != ""
    && c.thinking.budget != 0.0 && ExpandSet(c.expand)
  }

  /** The filled configuration and whether the file should be saved back. */
  datatype Filled = Filled(cfg: Config, needsUpdate: bool)

  /** The default-filling block of Load: each zero field takes its default
      and asks for a save; a nil `bedrock` table becomes an empty one
      without asking; an empty extension list replaces the whole include
      block, user patterns included. */
  function ApplyDefaults(c: Config): (f: Filled)
    ensures FieldsSet(f.cfg) && f.cfg.bedrock.Some?
    ensures f.needsUpdate <==> !FieldsSet(c)
    ensures f.cfg.model == c.model && f.cfg.context == c.context
    ensures f.cfg.thinking.enabled == c.thinking.enabled && f.cfg.expand.recursive == c.expand.recursive
    ensures c.bedrock.Some? ==> f.cfg.bedrock == c.bedrock
    ensures c.bedrock.None? ==> f.cfg.bedrock == Some(map[])
    ensures c.version != 0 ==> f.cfg.version == c.version
    ensures c.version == 0 ==> f.cfg.version == Defaults().version
    ensures c.temperature != 0.0 ==> f.cfg.temperature == c.temperature
    ensures c.temperature == 0.0 ==> f.cfg.temperature == Defaults().temperature
    ensures c.maxTokens != 0 ==> f.cfg.maxTokens == c.maxTokens
    ensures c.maxTokens == 0 ==> f.cfg.maxTokens == Defaults().maxTokens
    ensures c.timeout != "" ==> f.cfg.timeout == c.timeout
    ensures c.timeout == "" ==> f.cfg.timeout == Defaults().timeout
    ensures c.thinking.budget != 0.0 ==> f.cfg.thinking.budget == c.thinking.budget
    ensures c.thinking.budget == 0.0 ==> f.cfg.thinking.budget == Defaults().thinking.budget
    ensures f.cfg.expand == FillExpand(c.expand)
  {
    var needsUpdate :=
      c.version == 0 || c.temperature == 0.0 || c.maxTokens == 0 || c.timeout == ""
      || c.thinking.budget == 0.0 || !ExpandSet(c.expand);
    var expand := FillExpand(c.expand);
    var cfg := Config(
      if c.version == 0 then 1 else c.version,
      c.model,
      if c.temperature == 0.0 then 1.0 else c.temperature,
      if c.maxTokens == 0 then 32000 else c.maxTokens,
      if c.timeout == "" then "5m" else c.timeout,
      c.context,
      Thinking(c.thinking.enabled, if c.thinking.budget == 0.0 then 0.8 else c.thinking.budget),
      expand,
      if c.bedrock.None? then Some(map[]) else c.bedrock);
    Filled(cfg, needsUpdate)
  }

  /** The expansion fields that default-filling reports as an update are set. */
  predicate ExpandSet(e: Expand) {
    e.maxDepth != 0 && |e.includes.extensions| > 0 && |e.excludes.patterns| > 0 && |e.excludes.directories| > 0
  }

  /** The expansion part of default-filling: a zero depth becomes 3, and
      each empty list takes its default. */
  function FillExpand(e: Expand): (r: Expand)
    ensures ExpandSet(r) && r.recursive == e.recursive
    ensures ExpandSet(e) ==> r == e
    ensures e.maxDepth != 0 ==> r.maxDepth == e.maxDepth
    ensures e.maxDepth == 0 ==> r.maxDepth == Defaults().expand.maxDepth
    ensures |e.includes.extensions| > 0 ==> r.includes == e.includes
    ensures |e.includes.extensions| == 0 ==> r.includes == Defaults().expand.includes
    ensures |e.excludes.patterns| > 0 ==> r.excludes.patterns == e.excludes.patterns
    ensures |e.excludes.patterns| == 0 ==> r.excludes.patterns == Defaults().expand.excludes.patterns
    ensures |e.excludes.directories| > 0 ==> r.excludes.directories == e.excludes.directories
    ensures |e.excludes.directories| == 0 ==> r.excludes.directories == Defaults().expand.excludes.directories
  {
    var d := Defaults().expand;
    DefaultListsNonEmpty();
    Expand(
      if e.maxDepth == 0 then 3 else e.maxDepth,
      e.recursive,
      if |e.includes.extensions| == 0 then d.includes else e.includes,
      ExcludeSpec(
        if |e.excludes.patterns| == 0 then d.excludes.patterns else e.excludes.patterns,
        if |e.excludes.directories| == 0 then d.excludes.directories else e.excludes.directories))
  }

  /** The default lists are not empty. */
  lemma {:induction false} DefaultListsNonEmpty()
    ensures |Defaults().expand.includes.extensions| > 0
    ensures |Defaults().expand.excludes.patterns| > 0
    ensures |Defaults().expand.excludes.directories| > 0
  {
    assert DefaultExtensions[0] == "go";
    assert DefaultExcludePatterns[0] == "*_test.go";
    assert DefaultExcludeDirectories[0] == "vendor";
  }

  /** A complete configuration is left exactly as it is. */
  lemma {:induction false} CompleteUnchanged(c: Config)
    requires FieldsSet(c) && c.bedrock.Some?
    ensures ApplyDefaults(c) == Filled(c, false)
  {
  }

  /** Default-filling is idempotent: a second pass changes nothing and asks
      for no save. */
  lemma {:induction false} ApplyDefaultsIdempotent(c: Config)
    ensures ApplyDefaults(ApplyDefaults(c).cfg) == Filled(ApplyDefaults(c).cfg, false)
  {
    CompleteUnchanged(ApplyDefaults(c).cfg);
  }

  /** The defaults are a fixed point of default-filling. */
  lemma {:induction false} DefaultsComplete()
    ensures ApplyDefaults(Defaults()) == Filled(Defaults(), false)
  {
    CompleteUnchanged(Defaults());
  }

  /** A nil `bedrock` table alone does not ask for a save. */
  lemma {:induction false} NilBedrockNoSave(c: Config)
    requires FieldsSet(c) && c.bedrock.None?
    ensures ApplyDefaults(c) == Filled(c.(bedrock := Some(map[])), false)
  {
  }

  /** Uses1MContext */
  predicate Uses1MContext(c: Config) {
    c.context == "1m"
  }

  /** Default-filling never changes whether the 1M context is asked for:
      the context field is not among the defaulted ones. */
  lemma {:induction false} ContextChoiceKept(c: Config)
    ensures Uses1MContext(ApplyDefaults(c).cfg) <==> Uses1MContext(c)
  {
  }
}

=== FILE: context.dfy ===
/** Markdown context of a reference: the heading level and section-number
    prefix an expanded section should use, read from the nearest heading
    above the reference, and the formatting of a section with them. */
module MarkdownContext {
  import opened Text
  import opened Wrappers

  datatype Context = Context(headerLevel: int, numberPrefix: string)

  /** defaultContext: level 2, no number prefix. */
  const DefaultContext := Context(2, "")

  /** A line counts as a heading when, trimmed, it starts with '#'. */
  predicate IsHeadingLine(line: string) {
    IsPrefix("#", TrimSpace(line))
  }

  /** Index of the nearest heading among `lines[..i]`, read from the
      bottom up, or -1 when there is none. */
  function NearestHeading(lines: seq<string>, i: nat): (j: int)
    requires i <= |lines|
    ensures -1 <= j < i
    ensures j >= 0 ==> IsHeadingLine(lines[j])
    ensures forall k :: j < k < i ==> !IsHeadingLine(lines[k])
  {
    if i == 0 then -1
    else if IsHeadingLine(lines[i - 1]) then i - 1
    else NearestHeading(lines, i - 1)
  }

  /** detectMarkdownContext: the context of the nearest heading line above
      `referencePos`; the default when the position is out of range or no
      line above it is a heading.  Only `content[..referencePos]` is read. */
  function DetectMarkdownContext(content: string, referencePos: int): (ctx: Context)
    ensures 2 <= ctx.headerLevel <= 6
    ensures referencePos <= 0 || referencePos > |content| ==> ctx == DefaultContext
    ensures 0 < referencePos <= |content| ==>
      var lines := Split(content[..referencePos], '\n');
      var j := NearestHeading(lines, |lines|);
      ctx == if j < 0 then DefaultContext else ParseHeading(TrimSpace(lines[j]))
  {
    if referencePos <= 0 || referencePos > |content| then DefaultContext
    else
      var lines := Split(content[..referencePos], '\n');
      var j := NearestHeading(lines, |lines|);
      if j < 0 then DefaultContext else ParseHeading(TrimSpace(lines[j]))
  }

  /** Number of '#' characters at the start of `s`. */
  function LeadingHashes(s: string): (n: nat)
    ensures n <= |s|
    ensures forall i :: 0 <= i < n ==> s[i] == '#'
    ensures n < |s| ==> s[n] != '#'
  {
    if |s| > 0 && s[0] == '#' then 1 + LeadingHashes(s[1..]) else 0
  }

  predicate NumberChar(c: char) {
    IsDigit(c) || c == '.'
  }

  predicate NumberChars(s: string) {
    forall i :: 0 <= i < |s| ==> NumberChar(s[i])
  }

  /** `[p]` with `p` a non-empty run of digits and dots starts at index `i`
      of `s`: the regular expression `\[([0-9.]+)\]` matches there with
      group `p`. */
  predicate NumberAt(s: string, i: int, p: string) {
    0 <= i && |p| > 0 && NumberChars(p) && OccursAt(s, "[" + p + "]", i)
  }

  /** End of the run of digits and dots starting at index `k`. */
  function RunEnd(s: string, k: nat): (e: nat)
    requires k <= |s|
    decreases |s| - k
    ensures k <= e <= |s|
    ensures forall j :: k <= j < e ==> NumberChar(s[j])
    ensures e < |s| ==> !NumberChar(s[e])
  {
    if k < |s| && NumberChar(s[k]) then RunEnd(s, k + 1) else k
  }

  /** The group of the match of `\[([0-9.]+)\]` starting at index `i`, if any. */
  function MatchAt(s: string, i: nat): Option<string>
    requires i < |s|
  {
    if s[i] != '[' then None
    else
      var e := RunEnd(s, i + 1);
      if e > i + 1 && e < |s| && s[e] == ']' then Some(s[i + 1..e]) else None
  }

  /** The scan agrees with the regular expression: it finds exactly the
      matches there are at `i`. */
  lemma {:induction false} MatchAtIff(s: string, i: nat, p: string)
    requires i < |s|
    ensures NumberAt(s, i, p) <==> MatchAt(s, i) == Some(p)
  {
    if NumberAt(s, i, p) {
      NumberAtMatches(s, i, p);
    }
    if MatchAt(s, i) == Some(p) {
      var w := "[" + p + "]";
      var e := RunEnd(s, i + 1);
      assert p == s[i + 1..e];
      assert s[i..i + |w|] == w;
    }
  }

  /** A bracketed number is what the scan reads at its '['. */
  lemma {:induction false} NumberAtMatches(s: string, i: nat, p: string)
    requires i < |s| && NumberAt(s, i, p)
    ensures MatchAt(s, i) == Some(p)
  {
    var w := "[" + p + "]";
    assert w == ("[" + p) + "]";
    OccursSplit(s, "[" + p, "]", i);
    OccursSplit(s, "[", p, i);
    OccurrenceChar(s, "[", i, i);
    OccurrenceChar(s, "]", i + 1 + |p|, i + 1 + |p|);
    forall j | i + 1 <= j < i + 1 + |p|
      ensures NumberChar(s[j])
    {
      OccurrenceChar(s, p, i + 1, j);
    }
    RunEndAt(s, i + 1, i + 1 + |p|);
  }

  /** The run ends at the first character that is no digit or dot. */
  lemma {:induction false} RunEndAt(s: string, k: nat, e: nat)
    requires k <= e <= |s|
    requires forall j :: k <= j < e ==> NumberChar(s[j])
    requires e < |s| ==> !NumberChar(s[e])
    ensures RunEnd(s, k) == e
    decreases e - k
  {
    if k < e {
      RunEndAt(s, k + 1, e);
    }
  }

  /** Index of the leftmost match at or after `i`, or -1. */
  function FirstMatch(s: string, i: nat): (j: int)
    requires i <= |s|
    decreases |s| - i
    ensures j == -1 || (i <= j < |s| && MatchAt(s, j).Some?)
    ensures forall k :: i <= k < |s| && (j == -1 || k < j) ==> MatchAt(s, k).None?
  {
    if i == |s| then -1
    else if MatchAt(s, i).Some? then i
    else FirstMatch(s, i + 1)
  }

  /** parseHeading: one level deeper than a heading of 1 to 6 '#'s, capped
      at 6 (level 2 for any other count), and the group of the leftmost
      match of `\[([0-9.]+)\]` in the line as the number prefix. */
  function ParseHeading(line: string): (ctx: Context)
    ensures 2 <= ctx.headerLevel <= 6
    ensures 1 <= LeadingHashes(line) <= 6 ==> ctx.headerLevel == if LeadingHashes(line) == 6 then 6 else LeadingHashes(line) + 1
    ensures LeadingHashes(line) == 0 || LeadingHashes(line) > 6 ==> ctx.headerLevel == 2
    ensures ctx.numberPrefix == "" <==> forall k :: 0 <= k < |line| ==> MatchAt(line, k).None?
    ensures ctx.numberPrefix != "" ==>
      exists j :: (0 <= j < |line| && MatchAt(line, j) == Some(ctx.numberPrefix)
                   && forall k :: 0 <= k < j ==> MatchAt(line, k).None?)
  {
    var hashes := LeadingHashes(line);
    var level := if 0 < hashes <= 6 then (if hashes + 1 > 6 then 6 else hashes + 1) else 2;
    var j := FirstMatch(line, 0);
    Context(level, if j < 0 then "" else MatchAt(line, j).value)
  }

  function Repeat(c: char, n: nat): (r: string)
    ensures |r| == n && forall i :: 0 <= i < n ==> r[i] == c
  {
    if n == 0 then "" else [c] + Repeat(c, n - 1)
  }

  /** The bracketed index of a section: the context's prefix when it has
      one, else the turn number, then the section number. */
  function SectionIndex(ctx: Context, turnNumber: int, sectionNumber: int): string {
    "[" + (if ctx.numberPrefix != "" then ctx.numberPrefix else IntToString(turnNumber))
      + "." + IntToString(sectionNumber) + "]"
  }

  /** The heading line of a formatted section. */
  function SectionHeading(ctx: Context, turnNumber: int, sectionNumber: int, fileName: string): string
    requires ctx.headerLevel >= 0
  {
    Repeat('#', ctx.headerLevel) + " " + SectionIndex(ctx, turnNumber, sectionNumber) + " " + fileName
  }

  /** formatSection: a heading of exactly `headerLevel` '#'s, then the
      content verbatim inside a fence carrying the language hint. */
  function FormatSection(ctx: Context, turnNumber: int, sectionNumber: int,
                         fileName: string, langHint: string, content: string): (r: string)
    requires ctx.headerLevel >= 0
    ensures |r| > ctx.headerLevel && forall i :: 0 <= i < ctx.headerLevel ==> r[i] == '#'
    ensures r[ctx.headerLevel] == ' '
    ensures IsPrefix(SectionHeading(ctx, turnNumber, sectionNumber, fileName) + "\n", r)
    ensures IsSuffix("```" + langHint + "\n" + content + "\n```", r)
  {
    var head := SectionHeading(ctx, turnNumber, sectionNumber, fileName);
    var fence := "```" + langHint + "\n" + content + "\n```";
    HeadingStart(ctx, turnNumber, sectionNumber, fileName);
    AppendEnds(head + "\n", fence);
    (head + "\n") + fence
  }

  /** A section heading starts with its '#'s and a space. */
  lemma {:induction false} HeadingStart(ctx: Context, turnNumber: int, sectionNumber: int, fileName: string)
    requires ctx.headerLevel >= 0
    ensures var head := SectionHeading(ctx, turnNumber, sectionNumber, fileName);
      |head| > ctx.headerLevel && head[ctx.headerLevel] == ' '
      && forall i :: 0 <= i < ctx.headerLevel ==> head[i] == '#'
  {
    var hashes := Repeat('#', ctx.headerLevel);
    var rest := " " + SectionIndex(ctx, turnNumber, sectionNumber) + " " + fileName;
    assert SectionHeading(ctx, turnNumber, sectionNumber, fileName) == hashes + rest;
  }

  /** A formatted heading read back by parseHeading nests one level deeper
      and continues its numbering: the new prefix is the section's index. */
  lemma {:induction false} FormattedHeadingNests(ctx: Context, turnNumber: int, sectionNumber: int, fileName: string)
    requires 1 <= ctx.headerLevel <= 6
    requires ctx.numberPrefix == "" ==> turnNumber >= 0
    requires NumberChars(ctx.numberPrefix) && sectionNumber >= 0
    ensures var p := (if ctx.numberPrefix != "" then ctx.numberPrefix else IntToString(turnNumber))
                     + "." + IntToString(sectionNumber);
      ParseHeading(SectionHeading(ctx, turnNumber, sectionNumber, fileName))
        == Context(if ctx.headerLevel == 6 then 6 else ctx.headerLevel + 1, p)
  {
    var t := if ctx.numberPrefix != "" then ctx.numberPrefix else IntToString(turnNumber);
    var p := t + "." + IntToString(sectionNumber);
    NumberCharsJoin(t, IntToString(sectionNumber));
    var hashes := Repeat('#', ctx.headerLevel);
    assert SectionIndex(ctx, turnNumber, sectionNumber) == "[" + p + "]";
    assert SectionHeading(ctx, turnNumber, sectionNumber, fileName) == hashes + " " + ("[" + p + "]") + " " + fileName;
    ParseFormatted(hashes, p, fileName);
  }

  /** Two numbers joined by a dot are digits and dots. */
  lemma {:induction false} NumberCharsJoin(a: string, b: string)
    requires NumberChars(a) && AllDigits(b)
    ensures NumberChars(a + "." + b)
  {
    var p := a + "." + b;
    forall i | 0 <= i < |p|
      ensures NumberChar(p[i])
    {
      if i > |a| {
        assert p[i] == b[i - |a| - 1];
      }
    }
  }

  lemma {:induction false} ParseFormatted(hashes: string, p: string, fileName: string)
    requires 1 <= |hashes| <= 6 && forall i :: 0 <= i < |hashes| ==> hashes[i] == '#'
    requires |p| > 0 && NumberChars(p)
    ensures ParseHeading(hashes + " " + ("[" + p + "]") + " " + fileName)
      == Context(if |hashes| == 6 then 6 else |hashes| + 1, p)
  {
    var line := hashes + " " + ("[" + p + "]") + " " + fileName;
    var rest := " " + ("[" + p + "]") + " " + fileName;
    assert line == hashes + rest;
    LeadingHashesOf(hashes, rest);
    assert line == hashes + " " + ("[" + p + "]") + (" " + fileName);
    HeadingNumber(hashes, p, " " + fileName);
    MatchAtIff(line, |hashes| + 1, p);
  }

  lemma {:induction false} HeadingNumber(hashes: string, p: string, tail: string)
    requires forall i :: 0 <= i < |hashes| ==> hashes[i] == '#'
    requires |p| > 0 && NumberChars(p)
    ensures FirstMatch(hashes + " " + ("[" + p + "]") + tail, 0) == |hashes| + 1
  {
    var w := "[" + p + "]";
    var line := hashes + " " + w + tail;
    var n := |hashes|;
    assert line[n + 1..n + 1 + |w|] == w;
    assert NumberAt(line, n + 1, p);
    MatchAtIff(line, n + 1, p);
    forall k | 0 <= k < n + 1
      ensures MatchAt(line, k).None?
    {
      assert line[k] != '[';
    }
  }

  lemma {:induction false} LeadingHashesOf(hashes: string, rest: string)
    requires forall i :: 0 <= i < |hashes| ==> hashes[i] == '#'
    requires |rest| > 0 && rest[0] != '#'
    ensures LeadingHashes(hashes + rest) == |hashes|
    decreases |hashes|
  {
    if |hashes| > 0 {
      assert (hashes + rest)[1..] == hashes[1..] + rest;
      LeadingHashesOf(hashes[1..], rest);
    } else {
      assert hashes + rest == rest;
    }
  }
}

=== FILE: filter.dfy ===
/** The content filter: stripping of licence headers and of comments from
    Go source before it is included in a section.  The three regular
    expressions of the comment stripper are written out as scanners. */
module Filter {
  import opened Text
  import opened Paths
  import opened Wrappers

  /** Go-specific filter settings. */
  datatype GoFilter = GoFilter(headerLines: int, headerKeywords: seq<string>)

  /** Filter settings. */
  datatype FilterConfig = FilterConfig(enabled: bool, stripHeaders: bool, stripAllComments: bool, go: GoFilter)

  /** filterContent: only Go files (by lower-cased extension) are filtered,
      and only when filtering is enabled. */
  function FilterContent(content: string, filePath: string, cfg: FilterConfig): (r: string)
    ensures !cfg.enabled || Lower(Ext(filePath)) != ".go" ==> r == content
    ensures cfg.enabled && Lower(Ext(filePath)) == ".go" && cfg.stripAllComments ==>
      Trimmed(r) && NoTripleNewline(r)
    ensures cfg.enabled && Lower(Ext(filePath)) == ".go" && !cfg.stripAllComments ==>
      IsSuffix(r, content)
    ensures cfg.enabled && Lower(Ext(filePath)) == ".go" ==> r == FilterGoContent(content, cfg)
  {
    if !cfg.enabled then content
    else if Lower(Ext(filePath)) == ".go" then FilterGoContent(content, cfg)
    else content
  }

  /** filterGoContent: header stripping, when enabled, runs before comment
      stripping, when enabled. */
  function FilterGoContent(content: string, cfg: FilterConfig): (r: string)
    ensures cfg.stripAllComments ==> Trimmed(r) && NoTripleNewline(r)
    ensures !cfg.stripAllComments ==> IsSuffix(r, content)
    ensures !cfg.stripHeaders && !cfg.stripAllComments ==> r == content
    ensures cfg.stripHeaders && !cfg.stripAllComments ==> r == StripGoHeader(content, cfg.go)
    ensures cfg.stripAllComments ==>
      r == StripGoComments(if cfg.stripHeaders then StripGoHeader(content, cfg.go) else content)
  {
    var afterHeader := if cfg.stripHeaders then StripGoHeader(content, cfg.go) else content;
    if cfg.stripAllComments then StripGoComments(afterHeader) else afterHeader
  }

  // ---------------------------------------------------------------------
  // Header stripping

  /** The upper-cased line contains the upper case of some keyword. */
  predicate HasKeyword(line: string, keywords: seq<string>) {
    exists k :: 0 <= k < |keywords| && Contains(Upper(line), Upper(keywords[k]))
  }

  /** What the header scan looks at in a line: its trimmed text, and
      whether the line mentions a keyword. */
  datatype LineInfo = LineInfo(trimmed: string, keyword: bool)

  function Info(line: string, keywords: seq<string>): LineInfo {
    LineInfo(TrimSpace(line), HasKeyword(line, keywords))
  }

  /** The scan's view of every line. */
  function Infos(lines: seq<string>, keywords: seq<string>): (r: seq<LineInfo>)
    ensures |r| == |lines|
    ensures forall j :: 0 <= j < |lines| ==> r[j] == Info(lines[j], keywords)
  {
    seq(|lines|, j requires 0 <= j < |lines| => Info(lines[j], keywords))
  }

  /** A keyword line: a line that opens a block comment, lies inside one,
      or is a `//` comment, and mentions a keyword. */
  predicate KeywordLine(line: LineInfo, inBlock: bool) {
    (inBlock || IsPrefix("/*", line.trimmed) || IsPrefix("//", line.trimmed)) && line.keyword
  }

  /** The block-comment state after a line with trimmed text `t`: a
      closer ends the comment, an opener starts one. */
  function BlockAfter(t: string, inBlock: bool): bool {
    if IsSuffix("*/", t) then false else inBlock || IsPrefix("/*", t)
  }

  /** The block-comment state after the line has been scanned. */
  function InBlockAfter(line: LineInfo, inBlock: bool): bool {
    BlockAfter(line.trimmed, inBlock)
  }

  /** A line with trimmed text `t` is code outside a comment. */
  predicate CodeText(t: string, inBlock: bool) {
    !BlockAfter(t, inBlock) && !IsPrefix("//", t) && t != ""
  }

  /** The line ends the header region: code outside a comment. */
  predicate CodeLine(line: LineInfo, inBlock: bool) {
    CodeText(line.trimmed, inBlock)
  }

  /** Whether line `k` starts inside a block comment, following the scan's
      state from the top. */
  function StateBefore(lines: seq<LineInfo>, k: nat): bool
    requires k <= |lines|
  {
    if k == 0 then false else InBlockAfter(lines[k - 1], StateBefore(lines, k - 1))
  }

  /** The header end after line `i` has been scanned: `i` when the line is
      a keyword line, or closes a block comment after a header was found;
      otherwise unchanged. */
  function StepEnd(line: LineInfo, inBlock: bool, i: int, headerEnd: int): (r: int)
    ensures r == headerEnd || r == i
    ensures KeywordLine(line, inBlock) ==> r == i
    ensures headerEnd < 0 && !KeywordLine(line, inBlock) ==> r == headerEnd
  {
    var inBlock1 := inBlock || IsPrefix("/*", line.trimmed);
    var isHeader := (inBlock1 || IsPrefix("//", line.trimmed)) && line.keyword;
    var end1 := if isHeader then i else headerEnd;
    if IsSuffix("*/", line.trimmed) && end1 >= 0 then i else end1
  }

  /** What the scan does after one line: stop with a verdict, or go on
      with a new header end and block-comment state. */
  datatype LineVerdict = Stop(result: Option<int>) | Next(headerEnd: int, inBlock: bool)

  /** One iteration of the loop of stripGoHeader, for line `i`.  A code
      line stops the scan: at the package clause with the header end found
      so far, elsewhere with the early return when none was found. */
  function ScanLine(line: LineInfo, inBlock: bool, i: int, headerEnd: int): (v: LineVerdict)
    ensures v.Next? <==> !CodeLine(line, inBlock)
    ensures v.Next? ==>
      v.headerEnd == StepEnd(line, inBlock, i, headerEnd) && v.inBlock == InBlockAfter(line, inBlock)
    ensures v.Stop? ==> v.result == None || v.result == Some(StepEnd(line, inBlock, i, headerEnd))
    ensures v == Stop(None) ==>
      StepEnd(line, inBlock, i, headerEnd) == -1 && !IsPrefix("package ", line.trimmed)
  {
    var end := StepEnd(line, inBlock, i, headerEnd);
    if CodeLine(line, inBlock) then
      Stop(if IsPrefix("package ", line.trimmed) then Some(end) else if end == -1 then None else Some(end))
    else
      Next(end, InBlockAfter(line, inBlock))
  }

  /** The loop of stripGoHeader over lines `i..check`.  `None` stands for
      the early return of the unchanged content (code reached before any
      keyword); `Some(h)` is the header end when the loop stops or runs
      out, -1 when none was found.  The header end only moves down. */
  function ScanHeader(lines: seq<LineInfo>, i: nat, check: nat, headerEnd: int, inBlock: bool): (r: Option<int>)
    requires i <= check <= |lines| && -1 <= headerEnd < i
    decreases check - i
    ensures r.Some? ==> headerEnd <= r.value && (r.value < check || r.value == headerEnd)
  {
    if i == check then Some(headerEnd)
    else
      match ScanLine(lines[i], inBlock, i, headerEnd)
      case Stop(r) => r
      case Next(end, inBlockAfter) => ScanHeader(lines, i + 1, check, end, inBlockAfter)
  }

  /** Line `j` is code outside a comment, in the state the scan reaches it
      in. */
  predicate CodeAt(lines: seq<LineInfo>, j: nat)
    requires j < |lines|
  {
    CodeLine(lines[j], StateBefore(lines, j))
  }

  /** Line `k` is a keyword line, in the state the scan reaches it in. */
  predicate KeywordAt(lines: seq<LineInfo>, k: nat)
    requires k < |lines|
  {
    KeywordLine(lines[k], StateBefore(lines, k))
  }

  /** No line before `k` is code outside a comment: the scan reaches line
      `k` unless it runs out of inspected lines first. */
  predicate BeforeCode(lines: seq<LineInfo>, k: nat)
    requires k <= |lines|
  {
    forall j :: 0 <= j < k ==> !CodeAt(lines, j)
  }

  /** A line that is not code extends the run of non-code lines. */
  lemma {:induction false} BeforeCodeStep(lines: seq<LineInfo>, i: nat)
    requires i < |lines| && BeforeCode(lines, i) && !CodeAt(lines, i)
    ensures BeforeCode(lines, i + 1)
  {
  }

  /** A line that is not code lets the scan go on to the next line, in
      the state StateBefore predicts. */
  lemma {:induction false} ScanSkipsLine(lines: seq<LineInfo>, i: nat, check: nat, headerEnd: int, inBlock: bool)
    requires i < check <= |lines| && -1 <= headerEnd < i
    requires inBlock == StateBefore(lines, i) && !CodeAt(lines, i)
    ensures var v := ScanLine(lines[i], inBlock, i, headerEnd);
      v.Next? && v.inBlock == StateBefore(lines, i + 1) && -1 <= v.headerEnd < i + 1
      && ScanHeader(lines, i, check, headerEnd, inBlock) == ScanHeader(lines, i + 1, check, v.headerEnd, v.inBlock)
  {
  }

  /** A header end found by the scan lies at or below a keyword line that
      the scan reached. */
  lemma {:induction false} ScanFindsKeyword(lines: seq<LineInfo>, i: nat, check: nat, headerEnd: int, inBlock: bool)
    requires i <= check <= |lines| && -1 <= headerEnd < i
    requires inBlock == StateBefore(lines, i) && BeforeCode(lines, i)
    decreases check - i
    ensures var r := ScanHeader(lines, i, check, headerEnd, inBlock);
      r.Some? && r.value >= 0 && headerEnd < 0 ==>
        exists k :: i <= k <= r.value && BeforeCode(lines, k) && KeywordAt(lines, k)
  {
    if i < check {
      var v := ScanLine(lines[i], inBlock, i, headerEnd);
      var e := StepEnd(lines[i], inBlock, i, headerEnd);
      if headerEnd < 0 && e >= 0 {
        assert KeywordAt(lines, i);
      }
      if v.Next? {
        BeforeCodeStep(lines, i);
        ScanSkipsLine(lines, i, check, headerEnd, inBlock);
        ScanFindsKeyword(lines, i + 1, check, v.headerEnd, v.inBlock);
      }
    }
  }

  /** Once a header end has been found the scan keeps one: it never takes
      the early return. */
  lemma {:induction false} ScanKeepsFound(lines: seq<LineInfo>, i: nat, check: nat, headerEnd: int, inBlock: bool)
    requires i <= check <= |lines| && 0 <= headerEnd < i
    decreases check - i
    ensures ScanHeader(lines, i, check, headerEnd, inBlock).Some?
  {
    if i < check {
      var v := ScanLine(lines[i], inBlock, i, headerEnd);
      if v.Next? {
        ScanKeepsFound(lines, i + 1, check, v.headerEnd, v.inBlock);
      }
    }
  }

  /** A keyword line the scan reaches gives a header end. */
  lemma {:induction false} ScanReachesKeyword(lines: seq<LineInfo>, i: nat, check: nat, headerEnd: int,
                                              inBlock: bool, k: nat)
    requires i <= k < check <= |lines| && -1 <= headerEnd < i
    requires inBlock == StateBefore(lines, i)
    requires BeforeCode(lines, k) && KeywordAt(lines, k)
    decreases k - i
    ensures var r := ScanHeader(lines, i, check, headerEnd, inBlock);
      r.Some? && r.value >= 0
  {
    if i < k {
      ScanSkipsLine(lines, i, check, headerEnd, inBlock);
      var v := ScanLine(lines[i], inBlock, i, headerEnd);
      ScanReachesKeyword(lines, i + 1, check, v.headerEnd, v.inBlock, k);
    } else {
      ScanAtKeyword(lines, i, check, headerEnd, inBlock);
    }
  }

  /** The scan at a keyword line finds a header end. */
  lemma {:induction false} ScanAtKeyword(lines: seq<LineInfo>, i: nat, check: nat, headerEnd: int, inBlock: bool)
    requires i < check <= |lines| && -1 <= headerEnd < i
    requires KeywordLine(lines[i], inBlock)
    ensures var r := ScanHeader(lines, i, check, headerEnd, inBlock);
      r.Some? && r.value >= 0
  {
    var v := ScanLine(lines[i], inBlock, i, headerEnd);
    if v.Next? {
      ScanKeepsFound(lines, i + 1, check, v.headerEnd, v.inBlock);
    }
  }

  /** First index from `i` whose line is not blank. */
  function SkipBlank(lines: seq<string>, i: nat): (s: nat)
    requires i <= |lines|
    decreases |lines| - i
    ensures i <= s <= |lines|
    ensures forall k :: i <= k < s ==> TrimSpace(lines[k]) == ""
    ensures s < |lines| ==> TrimSpace(lines[s]) != ""
  {
    if i < |lines| && TrimSpace(lines[i]) == "" then SkipBlank(lines, i + 1) else i
  }

  /** Number of lines stripGoHeader inspects: `min(headerLines, len(lines))`
      (none when the setting is negative). */
  function CheckLines(headerLines: int, count: nat): (n: nat)
    ensures n <= count && n <= (if headerLines < 0 then 0 else headerLines)
    ensures headerLines >= count ==> n == count
    ensures 0 <= headerLines <= count ==> n == headerLines
  {
    if headerLines < 0 then 0 else if headerLines > count then count else headerLines
  }

  /** The last line of the header stripGoHeader finds among the inspected
      lines, or -1 when there is none (no keyword line, or code reached
      before one). */
  function HeaderEnd(lines: seq<string>, cfg: GoFilter): (e: int)
    ensures e == -1 || 0 <= e < CheckLines(cfg.headerLines, |lines|)
  {
    var scan := ScanHeader(Infos(lines, cfg.headerKeywords), 0, CheckLines(cfg.headerLines, |lines|), -1, false);
    if scan.Some? then scan.value else -1
  }

  /** A keyword line among the inspected lines that no code line
      precedes. */
  predicate KeywordBeforeCode(lines: seq<string>, cfg: GoFilter) {
    var infos := Infos(lines, cfg.headerKeywords);
    exists k :: 0 <= k < CheckLines(cfg.headerLines, |lines|) && BeforeCode(infos, k) && KeywordAt(infos, k)
  }

  /** A header is found exactly when a keyword line lies among the
      inspected lines before the first code line. */
  lemma {:induction false} HeaderEndIffKeyword(lines: seq<string>, cfg: GoFilter)
    ensures HeaderEnd(lines, cfg) >= 0 <==> KeywordBeforeCode(lines, cfg)
  {
    var infos := Infos(lines, cfg.headerKeywords);
    var check := CheckLines(cfg.headerLines, |lines|);
    assert BeforeCode(infos, 0);
    ScanFindsKeyword(infos, 0, check, -1, false);
    if KeywordBeforeCode(lines, cfg) {
      var k :| 0 <= k < check && BeforeCode(infos, k) && KeywordAt(infos, k);
      ScanReachesKeyword(infos, 0, check, -1, false, k);
    }
  }

  /** The line stripGoHeader keeps text from, or -1 when it keeps all of
      it: the first non-blank line after the header end.  Never the first
      line. */
  function HeaderStart(lines: seq<string>, cfg: GoFilter): (s: int)
    ensures s == -1 || 0 < s < |lines|
    ensures var e := HeaderEnd(lines, cfg);
      s > 0 ==> 0 <= e < s && TrimSpace(lines[s]) != ""
                && forall k :: e < k < s ==> TrimSpace(lines[k]) == ""
    ensures var e := HeaderEnd(lines, cfg);
      s == -1 <==> e < 0 || forall k :: e < k < |lines| ==> TrimSpace(lines[k]) == ""
  {
    var e := HeaderEnd(lines, cfg);
    if e >= 0 then
      var s := SkipBlank(lines, e + 1);
      if s < |lines| then s else -1
    else -1
  }

  /** Text is only stripped when a keyword line lies among the inspected
      lines, above the line kept from, with no code line before it. */
  lemma {:induction false} HeaderNeedsKeyword(lines: seq<string>, cfg: GoFilter)
    ensures var s := HeaderStart(lines, cfg); var infos := Infos(lines, cfg.headerKeywords);
      s > 0 ==> exists k :: (0 <= k < s && k < CheckLines(cfg.headerLines, |lines|)
                             && BeforeCode(infos, k) && KeywordAt(infos, k))
  {
    var infos := Infos(lines, cfg.headerKeywords);
    assert BeforeCode(infos, 0);
    ScanFindsKeyword(infos, 0, CheckLines(cfg.headerLines, |lines|), -1, false);
  }

  /** stripGoHeader: drop a leading comment block that mentions one of the
      keywords (case-insensitively), and the blank lines after it.  The
      result is a suffix of the content, a proper one exactly when
      HeaderStart finds a line to keep from. */
  function StripGoHeader(content: string, cfg: GoFilter): (r: string)
    ensures IsSuffix(r, content)
    ensures r == content <==> HeaderStart(Split(content, '\n'), cfg) == -1
  {
    var lines := Split(content, '\n');
    var s := HeaderStart(lines, cfg);
    if s > 0 then
      JoinSuffix(lines, s, '\n');
      Join(lines[s..], "\n")
    else content
  }

  /** The result in terms of the scan: with a header end `e` and a
      non-blank line after it, the lines from the first such line on,
      joined by newlines; otherwise the content itself. */
  lemma {:induction false} StripsHeader(content: string, cfg: GoFilter, lines: seq<string>)
    requires lines == Split(content, '\n')
    ensures var e := HeaderEnd(lines, cfg); var s := SkipBlank(lines, e + 1);
      StripGoHeader(content, cfg) == if e >= 0 && s < |lines| then Join(lines[s..], "\n") else content
  {
    StartFromScan(lines, cfg);
    var h := HeaderStart(lines, cfg);
    var e := HeaderEnd(lines, cfg);
    assert StripGoHeader(content, cfg) == if h > 0 then Join(lines[h..], "\n") else content;
    SameCut(lines, content, h, e, SkipBlank(lines, e + 1), StripGoHeader(content, cfg));
  }

  /** A Go file filtered with header stripping alone loses exactly its
      header: the lines before the first non-blank line after the header
      end. */
  lemma {:induction false} GoFileLosesHeader(content: string, filePath: string, cfg: FilterConfig, lines: seq<string>)
    requires lines == Split(content, '\n')
    ensures var e := HeaderEnd(lines, cfg.go); var s := SkipBlank(lines, e + 1);
      cfg.enabled && Lower(Ext(filePath)) == ".go" && cfg.stripHeaders && !cfg.stripAllComments ==>
        FilterContent(content, filePath, cfg) == if e >= 0 && s < |lines| then Join(lines[s..], "\n") else content
  {
    StripsHeader(content, cfg.go, lines);
  }

  /** The cut at `h` is the cut at the first non-blank line `s` after the
      header end `e`, when `h` is chosen from them. */
  lemma {:induction false} SameCut(lines: seq<string>, content: string, h: int, e: int, s: int, r: string)
    requires -1 <= e < s <= |lines|
    requires h == if e >= 0 && s < |lines| then s else -1
    requires r == if h > 0 then Join(lines[h..], "\n") else content
    ensures r == if e >= 0 && s < |lines| then Join(lines[s..], "\n") else content
  {
  }

  /** HeaderStart in terms of the scan and the blank-line skip. */
  lemma {:induction false} StartFromScan(lines: seq<string>, cfg: GoFilter)
    ensures var e := HeaderEnd(lines, cfg); var s := SkipBlank(lines, e + 1);
      HeaderStart(lines, cfg) == if e >= 0 && s < |lines| then s else -1
  {
  }

  /** Joining a suffix of the split lines gives a proper suffix of the
      text. */
  lemma {:induction false} JoinSuffix(lines: seq<string>, s: nat, sep: char)
    requires 0 < s < |lines|
    ensures IsSuffix(Join(lines[s..], [sep]), Join(lines, [sep]))
    ensures |Join(lines[s..], [sep])| < |Join(lines, [sep])|
  {
    assert lines == lines[..s] + lines[s..];
    JoinAppend(lines[..s], lines[s..], [sep]);
  }

  /** Without a keyword line among the inspected lines before the first
      code line, nothing is stripped; keyword lines after the scan has
      stopped do not matter. */
  lemma {:induction false} NoKeywordNoStrip(content: string, cfg: GoFilter)
    requires !KeywordBeforeCode(Split(content, '\n'), cfg)
    ensures StripGoHeader(content, cfg) == content
  {
    HeaderEndIffKeyword(Split(content, '\n'), cfg);
  }

  /** A package clause on the first line leaves the content unchanged,
      whatever keyword comments follow it. */
  lemma {:induction false} PackageFirstNoStrip(content: string, cfg: GoFilter)
    requires var lines := Split(content, '\n');
      IsPrefix("package ", TrimSpace(lines[0])) && !IsSuffix("*/", TrimSpace(lines[0]))
      && !HasKeyword(lines[0], cfg.headerKeywords)
    ensures StripGoHeader(content, cfg) == content
  {
    var lines := Split(content, '\n');
    var infos := Infos(lines, cfg.headerKeywords);
    PackageText(TrimSpace(lines[0]));
    assert CodeAt(infos, 0);
    NoKeywordNoStrip(content, cfg);
  }

  /** A `//` licence line followed directly by the package clause is
      stripped: the result starts at the package clause. */
  lemma {:induction false} LicenceLineStripped(content: string, cfg: GoFilter)
    requires var lines := Split(content, '\n');
      |lines| >= 2 && cfg.headerLines >= 2
      && IsPrefix("//", TrimSpace(lines[0])) && HasKeyword(lines[0], cfg.headerKeywords)
      && IsPrefix("package ", TrimSpace(lines[1])) && !IsSuffix("*/", TrimSpace(lines[1]))
    ensures var lines := Split(content, '\n');
      StripGoHeader(content, cfg) == Join(lines[1..], "\n")
  {
    var lines := Split(content, '\n');
    LicenceScan(lines, cfg);
  }

  lemma {:induction false} LicenceScan(lines: seq<string>, cfg: GoFilter)
    requires |lines| >= 2 && cfg.headerLines >= 2
    requires IsPrefix("//", TrimSpace(lines[0])) && HasKeyword(lines[0], cfg.headerKeywords)
    requires IsPrefix("package ", TrimSpace(lines[1])) && !IsSuffix("*/", TrimSpace(lines[1]))
    ensures HeaderStart(lines, cfg) == 1
  {
    var infos := Infos(lines, cfg.headerKeywords);
    var check := CheckLines(cfg.headerLines, |lines|);
    CommentLineStep(infos[0]);
    PackageLineStep(infos[1]);
    assert StateBefore(infos, 1) == false;
    assert ScanHeader(infos, 1, check, 0, false) == Some(0);
    assert ScanHeader(infos, 0, check, -1, false) == Some(0);
    assert SkipBlank(lines, 1) == 1;
  }

  lemma {:induction false} CommentLineStep(line: LineInfo)
    requires IsPrefix("//", line.trimmed) && line.keyword
    ensures KeywordLine(line, false) && StepEnd(line, false, 0, -1) == 0
    ensures !CodeLine(line, false) && !InBlockAfter(line, false)
  {
    assert !IsPrefix("/*", line.trimmed) by {
      assert line.trimmed[1] == '/';
    }
  }

  lemma {:induction false} PackageLineStep(line: LineInfo)
    requires IsPrefix("package ", line.trimmed) && !IsSuffix("*/", line.trimmed)
    ensures StepEnd(line, false, 1, 0) == 0
    ensures CodeLine(line, false) && !InBlockAfter(line, false)
  {
    PackageText(line.trimmed);
  }

  lemma {:induction false} PackageText(t: string)
    requires IsPrefix("package ", t) && !IsSuffix("*/", t)
    ensures !IsPrefix("/*", t) && !IsPrefix("//", t) && t != ""
    ensures CodeText(t, false) && !BlockAfter(t, false)
  {
    assert t[0] == t[..8][0] == 'p';
  }

  // ---------------------------------------------------------------------
  // Comment stripping

  /** The line cut at its first `//`: what `(?m)//.*$` leaves of it. */
  function CutLine(line: string): (r: string)
    ensures IsPrefix(r, line)
    ensures !Contains(r, "//")
    ensures r == line <==> !Contains(line, "//")
    ensures r != line ==> OccursAt(line, "//", |r|)
  {
    var i := IndexOf(line, "//");
    if i < 0 then line
    else
      PrefixBeforeFirst(line, "//", i);
      line[..i]
  }

  /** The text before the first occurrence of a pattern does not contain it. */
  lemma {:induction false} PrefixBeforeFirst(s: string, pat: string, i: int)
    requires |pat| > 0
    requires 0 <= i <= |s| && forall j :: 0 <= j < i ==> !OccursAt(s, pat, j)
    ensures !Contains(s[..i], pat)
  {
    if Contains(s[..i], pat) {
      var j :| 0 <= j <= |s[..i]| && OccursAt(s[..i], pat, j);
      assert OccursAt(s, pat, j);
    }
  }

  /** `(?m)//.*$` replaced by "": every line cut at its first `//`. */
  function CutLineComments(s: string): (r: string)
    ensures Split(r, '\n') == MapCut(Split(s, '\n'))
  {
    var lines := Split(s, '\n');
    var cut := MapCut(lines);
    SplitJoin(cut, '\n');
    Join(cut, "\n")
  }

  function MapCut(lines: seq<string>): (r: seq<string>)
    requires forall i :: 0 <= i < |lines| ==> '\n' !in lines[i]
    ensures |r| == |lines|
    ensures forall i :: 0 <= i < |r| ==> r[i] == CutLine(lines[i]) && '\n' !in r[i]
  {
    seq(|lines|, i requires 0 <= i < |lines| =>
      var c := CutLine(lines[i]);
      assert forall k :: 0 <= k < |c| ==> c[k] == lines[i][k];
      c)
  }

  /** `(?s)/\*.*?\*\/` replaced by "": from each opener to the first
      closer at least two characters after it; an opener without a closer
      stays, and so does everything after it. */
  function RemoveBlockComments(s: string): (r: string)
    decreases |s|
    ensures |r| <= |s|
    ensures !Contains(s, "/*") ==> r == s
  {
    var i := IndexOf(s, "/*");
    if i < 0 then s
    else
      var j := IndexFrom(s, "*/", i + 2);
      if j < 0 then s
      else s[..i] + RemoveBlockComments(s[j + 2..])
  }

  /** A comment is removed with its delimiters, up to its first closer. */
  lemma {:induction false} RemovesComment(a: string, b: string, c: string)
    requires !Contains(a, "/*") && !Contains(b, "*/")
    ensures RemoveBlockComments(a + "/*" + b + "*/" + c) == a + RemoveBlockComments(c)
  {
    var rest := "/*" + b + "*/" + c;
    var s := a + rest;
    assert s == a + "/*" + b + "*/" + c;
    FirstOpener(a, rest);
    var tail := "*/" + c;
    assert rest == "/*" + b + tail;
    FirstCloser(a + "/*", b, tail);
    assert s == (a + "/*") + b + tail;
    assert s[|a| + 2 + |b| + 2..] == c;
    assert s[..|a|] == a;
  }

  /** The first opener of `a + rest` is the one that starts `rest`. */
  lemma {:induction false} FirstOpener(a: string, rest: string)
    requires !Contains(a, "/*") && IsPrefix("/*", rest)
    ensures IndexOf(a + rest, "/*") == |a|
  {
    var s := a + rest;
    assert OccursAt(s, "/*", |a|) by {
      assert s[|a|..|a| + 2] == rest[..2];
    }
    forall j | 0 <= j < |a|
      ensures !OccursAt(s, "/*", j)
    {
      OccursAtPair(s, "/*", j);
      if j + 2 <= |a| {
        OccursAtPair(a, "/*", j);
        assert !OccursAt(a, "/*", j);
      } else {
        assert s[j + 1] == rest[0];
      }
    }
    ContainsWitness(s, "/*", |a|);
  }

  /** The first closer at or after `|p|` in `p + b + tail` is the one that
      starts `tail`. */
  lemma {:induction false} FirstCloser(p: string, b: string, tail: string)
    requires !Contains(b, "*/") && IsPrefix("*/", tail)
    ensures IndexFrom(p + b + tail, "*/", |p|) == |p| + |b|
  {
    var s := p + b + tail;
    var k := |p| + |b|;
    assert OccursAt(s, "*/", k) by {
      assert s[k..k + 2] == tail[..2];
    }
    forall j | |p| <= j < k
      ensures !OccursAt(s, "*/", j)
    {
      OccursAtPair(s, "*/", j);
      if j + 2 <= k {
        OccursAtPair(b, "*/", j - |p|);
        assert !OccursAt(b, "*/", j - |p|);
        assert s[j] == b[j - |p|] && s[j + 1] == b[j - |p| + 1];
      } else {
        assert s[j + 1] == tail[0];
      }
    }
  }

  /** Text of newlines only. */
  predicate AllNewlines(s: string) {
    forall i :: 0 <= i < |s| ==> s[i] == '\n'
  }

  /** No three consecutive newlines. */
  predicate NoTripleNewline(s: string) {
    forall i :: 0 <= i && i + 2 < |s| ==> !(s[i] == '\n' && s[i + 1] == '\n' && s[i + 2] == '\n')
  }

  /** Length of the run of newlines at the start of `s`. */
  function NewlineRun(s: string): (k: nat)
    ensures k <= |s| && AllNewlines(s[..k])
    ensures k < |s| ==> s[k] != '\n'
  {
    if |s| > 0 && s[0] == '\n' then 1 + NewlineRun(s[1..]) else 0
  }

  /** The text with its newlines left out. */
  function DropNewlines(s: string): string {
    if |s| == 0 then "" else (if s[0] == '\n' then "" else [s[0]]) + DropNewlines(s[1..])
  }

  lemma {:induction false} DropNewlinesAppend(a: string, b: string)
    ensures DropNewlines(a + b) == DropNewlines(a) + DropNewlines(b)
    decreases |a|
  {
    if |a| > 0 {
      assert (a + b)[1..] == a[1..] + b;
      DropNewlinesAppend(a[1..], b);
    } else {
      assert a + b == b;
    }
  }

  lemma {:induction false} DropAllNewlines(s: string)
    requires AllNewlines(s)
    ensures DropNewlines(s) == ""
    decreases |s|
  {
    if |s| > 0 {
      DropAllNewlines(s[1..]);
    }
  }

  /** `\n{3,}` replaced by "\n\n": every maximal run of three or more
      newlines becomes two.  The result has no three newlines in a row,
      keeps every other character in order, and leaves text without such a
      run unchanged. */
  function CollapseNewlines(s: string): (r: string)
    decreases |s|
    ensures NoTripleNewline(r)
    ensures DropNewlines(r) == DropNewlines(s)
    ensures NoTripleNewline(s) ==> r == s
    ensures |s| > 0 ==> |r| > 0 && r[0] == s[0]
  {
    if |s| == 0 then ""
    else if s[0] != '\n' then
      var t := CollapseNewlines(s[1..]);
      CollapseChar(s, t);
      [s[0]] + t
    else
      var k := NewlineRun(s);
      var run := if k >= 3 then "\n\n" else s[..k];
      var t := CollapseNewlines(s[k..]);
      CollapseRun(s, k, run, t);
      run + t
  }

  /** A character other than a newline kept in front of the collapsed rest. */
  lemma {:induction false} CollapseChar(s: string, t: string)
    requires |s| > 0 && s[0] != '\n'
    requires NoTripleNewline(t) && DropNewlines(t) == DropNewlines(s[1..])
    requires NoTripleNewline(s[1..]) ==> t == s[1..]
    ensures NoTripleNewline([s[0]] + t) && DropNewlines([s[0]] + t) == DropNewlines(s)
    ensures NoTripleNewline(s) ==> [s[0]] + t == s
  {
    assert s == [s[0]] + s[1..];
    DropNewlinesAppend([s[0]], s[1..]);
    DropNewlinesAppend([s[0]], t);
    var u := [s[0]] + t;
    forall i | 0 <= i && i + 2 < |u|
      ensures !(u[i] == '\n' && u[i + 1] == '\n' && u[i + 2] == '\n')
    {
      if i > 0 {
        assert u[i] == t[i - 1] && u[i + 1] == t[i] && u[i + 2] == t[i + 1];
      }
    }
    if NoTripleNewline(s) {
      assert NoTripleNewline(s[1..]) by {
        forall i | 0 <= i && i + 2 < |s[1..]|
          ensures !(s[1..][i] == '\n' && s[1..][i + 1] == '\n' && s[1..][i + 2] == '\n')
        {
          assert s[1..][i] == s[i + 1];
        }
      }
    }
  }

  /** A run of newlines, cut to two when it has three or more, in front of
      the collapsed rest. */
  lemma {:induction false} CollapseRun(s: string, k: nat, run: string, t: string)
    requires |s| > 0 && s[0] == '\n' && k == NewlineRun(s)
    requires run == if k >= 3 then "\n\n" else s[..k]
    requires NoTripleNewline(t) && DropNewlines(t) == DropNewlines(s[k..])
    requires NoTripleNewline(s[k..]) ==> t == s[k..]
    requires k < |s| ==> |t| > 0 && t[0] == s[k]
    ensures NoTripleNewline(run + t) && DropNewlines(run + t) == DropNewlines(s)
    ensures NoTripleNewline(s) ==> run + t == s
    ensures |run + t| > 0 && (run + t)[0] == s[0]
  {
    RunKeepsText(s, k, run, t);
    if NoTripleNewline(s) {
      NoTripleTail(s, k);
      assert s == s[..k] + s[k..];
    }
    NoTripleJoin(run, t);
    assert s[..k][0] == '\n';
  }

  lemma {:induction false} RunKeepsText(s: string, k: nat, run: string, t: string)
    requires k <= |s| && AllNewlines(s[..k]) && AllNewlines(run)
    requires DropNewlines(t) == DropNewlines(s[k..])
    ensures DropNewlines(run + t) == DropNewlines(s)
  {
    assert s == s[..k] + s[k..];
    DropNewlinesAppend(s[..k], s[k..]);
    DropNewlinesAppend(run, t);
    DropAllNewlines(s[..k]);
    DropAllNewlines(run);
  }

  lemma {:induction false} NoTripleTail(s: string, k: nat)
    requires k == NewlineRun(s)
    ensures NoTripleNewline(s) ==> k < 3 && NoTripleNewline(s[k..])
  {
    assert k >= 3 ==> s[..k][0] == '\n' && s[..k][1] == '\n' && s[..k][2] == '\n';
    if NoTripleNewline(s) {
      forall i | 0 <= i && i + 2 < |s[k..]|
        ensures !(s[k..][i] == '\n' && s[k..][i + 1] == '\n' && s[k..][i + 2] == '\n')
      {
        assert s[k..][i] == s[k + i];
      }
    }
  }

  lemma {:induction false} NoTripleJoin(run: string, t: string)
    requires |run| <= 2 && AllNewlines(run) && NoTripleNewline(t)
    requires |t| > 0 ==> t[0] != '\n'
    ensures NoTripleNewline(run + t)
  {
    var u := run + t;
    forall i | 0 <= i && i + 2 < |u|
      ensures !(u[i] == '\n' && u[i + 1] == '\n' && u[i + 2] == '\n')
    {
      if i >= |run| {
        assert u[i] == t[i - |run|] && u[i + 1] == t[i - |run| + 1] && u[i + 2] == t[i - |run| + 2];
      } else {
        assert u[|run|] == t[0];
      }
    }
  }

  /** stripGoComments: line comments cut, block comments removed, runs of
      blank lines collapsed and surrounding whitespace trimmed. */
  function StripGoComments(content: string): (r: string)
    ensures Trimmed(r)
    ensures NoTripleNewline(r)
  {
    var collapsed := CollapseNewlines(RemoveBlockComments(CutLineComments(content)));
    var r := TrimSpace(collapsed);
    TrimKeepsNoTriple(collapsed);
    r
  }

  lemma {:induction false} TrimKeepsNoTriple(s: string)
    requires NoTripleNewline(s)
    ensures NoTripleNewline(TrimSpace(s))
  {
    var lo := SpaceSpanEnd(s, 0);
    var r := TrimSpace(s);
    assert r == s[lo..SpaceSpanStart(s, lo, |s|)];
    assert forall i :: 0 <= i < |r| ==> r[i] == s[lo + i];
  }
}

=== FILE: fstree.dfy ===
/** The file system the expansion reads, as an immutable tree rooted at the
    working directory.  A directory lists named entries; a file holds bytes,
    or cannot be read; a directory may refuse to be listed.  Reading a path
    is a lookup in the tree, with the failures the operating system would
    report. */
module FileTree {
  import opened Text
  import opened Wrappers

  newtype byte = b: int | 0 <= b < 256

  datatype Node =
    | File(content: seq<byte>)
    | UnreadableFile
    | Dir(entries: seq<Entry>)
    | UnlistableDir

  datatype Entry = Entry(name: string, node: Node)

  /** What a directory listing reports as a directory. */
  predicate IsDirNode(n: Node) {
    n.Dir? || n.UnlistableDir?
  }

  /** The outcome of looking a path up: found, absent (Go's IsNotExist),
      or some other failure, with the operating system's reason. */
  datatype Located = Present(node: Node) | Absent | Inaccessible(reason: string)

  /** The path's elements, without empty and "." elements. */
  function Components(parts: seq<string>): (r: seq<string>)
    ensures forall i :: 0 <= i < |r| ==> r[i] != "" && r[i] != "."
  {
    if |parts| == 0 then []
    else if parts[0] == "" || parts[0] == "." then Components(parts[1..])
    else [parts[0]] + Components(parts[1..])
  }

  /** The first entry of a listing with the name. */
  function FindEntry(entries: seq<Entry>, name: string): (r: Option<Node>)
    ensures r.Some? <==> exists i :: 0 <= i < |entries| && entries[i].name == name
    ensures r.Some? ==> exists i :: 0 <= i < |entries| && entries[i] == Entry(name, r.value)
  {
    if |entries| == 0 then None
    else if entries[0].name == name then Some(entries[0].node)
    else
      var r := FindEntry(entries[1..], name);
      assert forall i :: 0 <= i < |entries| - 1 ==> entries[1..][i] == entries[i + 1];
      r
  }

  /** Following the elements from a node. */
  function Descend(node: Node, comps: seq<string>): Located
    decreases |comps|
  {
    if |comps| == 0 then Present(node)
    else
      match node
      case Dir(entries) =>
        (match FindEntry(entries, comps[0])
         case None => Absent
         case Some(child) => Descend(child, comps[1..]))
      case UnlistableDir => Inaccessible("permission denied")
      case _ => Inaccessible("not a directory")
  }

  /** os.Stat's view of a path; the empty path does not exist. */
  function Lookup(root: Node, path: string): Located {
    if path == "" then Absent else Descend(root, Components(Split(path, '/')))
  }

  /** A failed read: the file does not exist, or another failure with
      Go's error text. */
  datatype ReadError = NotExist | Failed(message: string)

  /** os.ReadFile. */
  function ReadFile(root: Node, path: string): (r: Result<seq<byte>, ReadError>)
    ensures r.Ok? <==> Lookup(root, path).Present? && Lookup(root, path).node.File?
    ensures r.Ok? ==> r.value == Lookup(root, path).node.content
    ensures r == Err(NotExist) <==> Lookup(root, path).Absent?
  {
    match Lookup(root, path)
    case Absent => Err(NotExist)
    case Inaccessible(reason) => Err(Failed("open " + path + ": " + reason))
    case Present(File(content)) => Ok(content)
    case Present(UnreadableFile) => Err(Failed("open " + path + ": permission denied"))
    case Present(_) => Err(Failed("read " + path + ": is a directory"))
  }

  /** isBinary: a zero byte occurs. */
  function IsBinary(content: seq<byte>): (r: bool)
    ensures r <==> 0 in content
  {
    if |content| == 0 then false
    else content[0] == 0 || IsBinary(content[1..])
  }

  /** Go's string(bytes): one character per byte. */
  function ToText(content: seq<byte>): (r: string)
    ensures |r| == |content|
    ensures forall i :: 0 <= i < |content| ==> r[i] as int == content[i] as int
  {
    seq(|content|, i requires 0 <= i < |content| => content[i] as int as char)
  }

  // ---------------------------------------------------------------------
  // Ordering entries by name
  // ---------------------------------------------------------------------

  /** Names in ascending byte order (equal names allowed). */
  predicate SortedByName(es: seq<Entry>) {
    forall i, j :: 0 <= i < j < |es| ==> !Less(es[j].name, es[i].name)
  }

  /** "Not less than" is transitive, the order being total. */
  lemma {:induction false} NotLessTransitive(a: string, b: string, c: string)
    requires !Less(a, b) && !Less(b, c)
    ensures !Less(a, c)
  {
    LessTotal(b, c);
    if Less(a, c) && Less(c, b) {
      LessTransitive(a, c, b);
    }
  }

  /** Places an entry into a sorted listing. */
  function Insert(e: Entry, es: seq<Entry>): (r: seq<Entry>)
    requires SortedByName(es)
    ensures multiset(r) == multiset(es) + multiset{e}
    ensures SortedByName(r)
  {
    if |es| == 0 then [e]
    else if Less(es[0].name, e.name) then
      var t := Insert(e, es[1..]);
      InsertAfterFirst(e, es, t);
      [es[0]] + t
    else
      InsertFirst(e, es);
      [e] + es
  }

  lemma {:induction false} InsertAfterFirst(e: Entry, es: seq<Entry>, t: seq<Entry>)
    requires |es| > 0 && SortedByName(es) && Less(es[0].name, e.name)
    requires multiset(t) == multiset(es[1..]) + multiset{e} && SortedByName(t)
    ensures multiset([es[0]] + t) == multiset(es) + multiset{e}
    ensures SortedByName([es[0]] + t)
  {
    assert es == [es[0]] + es[1..];
    forall j | 0 <= j < |t|
      ensures !Less(t[j].name, es[0].name)
    {
      assert t[j] in multiset(t);
      if t[j] == e {
        LessAsymmetric(es[0].name, e.name);
      } else {
        assert t[j] in multiset(es[1..]);
        var k :| 0 <= k < |es[1..]| && es[1..][k] == t[j];
        assert es[k + 1] == t[j];
      }
    }
  }

  lemma {:induction false} InsertFirst(e: Entry, es: seq<Entry>)
    requires |es| > 0 && SortedByName(es) && !Less(es[0].name, e.name)
    ensures SortedByName([e] + es)
  {
    forall j | 0 <= j < |es|
      ensures !Less(es[j].name, e.name)
    {
      if j > 0 {
        NotLessTransitive(es[j].name, es[0].name, e.name);
      }
    }
  }

  /** sort.Strings on names: the same entries in ascending order. */
  function SortByName(es: seq<Entry>): (r: seq<Entry>)
    ensures multiset(r) == multiset(es)
    ensures SortedByName(r)
  {
    if |es| == 0 then []
    else
      assert es == [es[0]] + es[1..];
      Insert(es[0], SortByName(es[1..]))
  }
}

=== FILE: languages.dfy ===
/** Language hints for the info string of a fenced code block: the table
    lookup by file name and then by extension, and the normalisation of
    language names to fence tags. */
module Languages {
  import opened Text
  import opened Paths
  import opened Wrappers

  /** The hint for an extension (with its dot, lower case), if it has one. */
  function ExtensionLanguage(ext: string): Option<string> {
    match ext
    case ".go" => Some("go")
    case ".rs" => Some("rust")
    case ".md" | ".mdx" => Some("markdown")
    case ".ts" | ".tsx" => Some("typescript")
    case ".js" | ".jsx" | ".mjs" | ".cjs" => Some("javascript")
    case ".json" => Some("json")
    case ".proto" => Some("protobuf")
    case ".html" | ".htm" => Some("html")
    case ".sql" => Some("sql")
    case ".vue" => Some("vue")
    case ".svelte" => Some("svelte")
    case ".astro" => Some("astro")
    case ".graphql" | ".gql" => Some("graphql")
    case ".c" | ".h" => Some("c")
    case ".cpp" | ".hpp" | ".cc" | ".cxx" => Some("cpp")
    case ".java" => Some("java")
    case ".cs" => Some("csharp")
    case ".swift" => Some("swift")
    case ".kt" => Some("kotlin")
    case ".scala" => Some("scala")
    case ".py" => Some("python")
    case ".rb" => Some("ruby")
    case ".php" => Some("php")
    case ".sh" | ".bash" => Some("bash")
    case ".zsh" => Some("zsh")
    case ".fish" => Some("fish")
    case ".ps1" => Some("powershell")
    case ".yaml" | ".yml" => Some("yaml")
    case ".toml" => Some("toml")
    case ".xml" => Some("xml")
    case ".txt" => Some("text")
    case ".css" => Some("css")
    case ".scss" => Some("scss")
    case ".sass" => Some("sass")
    case ".less" => Some("less")
    case ".styl" => Some("stylus")
    case ".ejs" => Some("ejs")
    case ".hbs" => Some("handlebars")
    case ".pug" => Some("pug")
    case _ => None
  }

  /** The hint for an exact file name, which takes priority over the
      extension. */
  function FilenameLanguage(name: string): Option<string> {
    match name
    case "Makefile" => Some("makefile")
    case "Dockerfile" => Some("dockerfile")
    case "Cargo.toml" => Some("toml")
    case "go.mod" => Some("go")
    case "go.sum" => Some("text")
    case "package.json" => Some("json")
    case ".gitignore" => Some("text")
    case ".env" => Some("bash")
    case "README" => Some("text")
    case "LICENSE" => Some("text")
    case ".eslintrc" | ".prettierrc" | ".babelrc" => Some("json")
    case "webpack.config.js" | "vite.config.js" | "next.config.js" | "tailwind.config.js" => Some("javascript")
    case "tsconfig.json" => Some("json")
    case _ => None
  }

  /** getLanguageHint (table version): the base name is looked up exactly,
      then the lower-cased extension; an unknown extension is its own hint
      without the dot, and a file with neither gets "text". */
  function GetLanguageHint(path: string): (r: string)
    ensures FilenameLanguage(Base(path)).Some? ==> r == FilenameLanguage(Base(path)).value
    ensures FilenameLanguage(Base(path)).None? && ExtensionLanguage(Lower(Ext(path))).Some? ==>
      r == ExtensionLanguage(Lower(Ext(path))).value
    ensures FilenameLanguage(Base(path)).None? && ExtensionLanguage(Lower(Ext(path))).None? ==>
      if Ext(path) == "" then r == "text" else "." + r == Lower(Ext(path))
  {
    match FilenameLanguage(Base(path))
    case Some(lang) => lang
    case None =>
      var ext := Lower(Ext(path));
      match ExtensionLanguage(ext)
      case Some(lang) => lang
      case None =>
        if ext != "" then
          assert ext == "." + ext[1..];
          ext[1..]
        else "text"
  }

  /** The hint depends only on the final element of the path. */
  lemma {:induction false} HintOfLastElement(dir: string, name: string)
    requires '/' !in name && name != ""
    ensures GetLanguageHint(dir + "/" + name) == GetLanguageHint(name)
  {
    BaseOfJoin(dir, name);
    ExtOfLastElement(dir, name);
  }

  predicate TagChar(c: char) {
    !('A' <= c <= 'Z') && c != ' ' && c != '+' && c != '#'
  }

  /** A fence tag: no upper-case letter, space, '+' or '#'. */
  predicate IsTag(s: string) {
    forall i :: 0 <= i < |s| ==> TagChar(s[i])
  }

  /** Language names with a special fence tag, keyed by their lower case. */
  function FenceTag(lang: string): (r: Option<string>)
    ensures r.Some? ==> IsTag(r.value)
  {
    match lang
    case "miniyaml" | "yml" => Some("yaml")
    case "shell" => Some("bash")
    case "c++" => Some("cpp")
    case "c#" => Some("csharp")
    case "f#" => Some("fsharp")
    case "objective-c" => Some("objc")
    case "objective-c++" => Some("objcpp")
    case "restructuredtext" => Some("rst")
    case "sqlpl" | "plsql" | "t-sql" => Some("sql")
    case "viml" => Some("vim")
    case "docker" => Some("dockerfile")
    case "markup" | "html+erb" => Some("html")
    case "golang" => Some("go")
    case "rustlang" => Some("rust")
    case _ => None
  }

  /** normalizeLanguageHint: a language name becomes a fence tag (no
      upper-case letter, space, '+' or '#'); a name that already is a tag
      and has no special entry passes through unchanged. */
  function NormalizeLanguageHint(lang: string): (r: string)
    ensures IsTag(r)
    ensures IsTag(lang) && FenceTag(lang).None? ==> r == lang
  {
    var normalized := Lower(lang);
    TagPipeline(lang);
    match FenceTag(normalized)
    case Some(tag) => tag
    case None =>
      var tag := ReplaceChar(ReplaceChar(ReplaceChar(normalized, ' ', ""), '+', "plus"), '#', "sharp");
      tag
  }

  lemma {:induction false} TagPipeline(lang: string)
    ensures var n := Lower(lang);
      var c := ReplaceChar(ReplaceChar(ReplaceChar(n, ' ', ""), '+', "plus"), '#', "sharp");
      IsTag(c) && (IsTag(lang) ==> n == lang && c == lang)
  {
    var n := Lower(lang);
    var a := ReplaceChar(n, ' ', "");
    var b := ReplaceChar(a, '+', "plus");
    var c := ReplaceChar(b, '#', "sharp");
    forall i | 0 <= i < |c|
      ensures TagChar(c[i])
    {
      assert c[i] in c;
      assert c[i] in b || c[i] in "sharp";
      assert c[i] in b ==> c[i] in a || c[i] in "plus";
      assert c[i] in a ==> c[i] in n;
    }
    if IsTag(lang) {
      assert n == lang;
      ReplaceAbsent(n, ' ', "");
      ReplaceAbsent(a, '+', "plus");
      ReplaceAbsent(b, '#', "sharp");
    }
  }

  lemma {:induction false} ReplaceAbsent(s: string, c: char, rep: string)
    ensures c !in s ==> ReplaceChar(s, c, rep) == s
  {
    if |s| > 0 {
      ReplaceAbsent(s[1..], c, rep);
      if c !in s {
        assert s == [s[0]] + s[1..];
      }
    }
  }
}

=== FILE: models.dfy ===
/** Model identifiers: reading a model's family, version and release date
    out of its identifier, and choosing the model for a family name.  The
    model list, which the program fetches from the service or its cache,
    is a parameter. */
module Models {
  import opened Text
  import opened Wrappers

  /** ModelInfo; Go's `Type` field is `modelType` here. */
  datatype ModelInfo = ModelInfo(id: string, name: string, modelType: string, version: string, date: string)

  // ---------------------------------------------------------------------
  // parseModelID
  // ---------------------------------------------------------------------

  /** Gregorian leap years. */
  predicate IsLeap(year: int) {
    year % 4 == 0 && (year % 100 != 0 || year % 400 == 0)
  }

  /** Days in a month (1 to 12) of a year. */
  function DaysIn(month: int, year: int): (n: int)
    requires 1 <= month <= 12
    ensures 28 <= n <= 31
    ensures month == 2 ==> (n == 29 <==> IsLeap(year))
  {
    if month == 2 then (if IsLeap(year) then 29 else 28)
    else if month == 4 || month == 6 || month == 9 || month == 11 then 30
    else 31
  }

  /** time.Parse with layout "20060102" accepts `s`: four year digits,
      two month digits naming a month, two day digits naming a day of that
      month, and nothing else. */
  predicate IsDate(s: string) {
    && |s| == 8 && AllDigits(s)
    && 1 <= DigitsValue(s[4..6]) <= 12
    && 1 <= DigitsValue(s[6..8]) <= DaysIn(DigitsValue(s[4..6]), DigitsValue(s[..4]))
  }

  /** Fields `i` and `i + 1` are both one character long. */
  predicate VersionPairAt(parts: seq<string>, i: int) {
    0 <= i && i + 1 < |parts| && |parts[i]| == 1 && |parts[i + 1]| == 1
  }

  /** The first index at or after `i` where a version pair starts, or -1. */
  function PairIndex(parts: seq<string>, i: nat): (j: int)
    requires i <= |parts|
    decreases |parts| - i
    ensures j == -1 || (i <= j && VersionPairAt(parts, j))
    ensures forall k :: i <= k < |parts| && (j == -1 || k < j) ==> !VersionPairAt(parts, k)
  {
    if i == |parts| then -1
    else if VersionPairAt(parts, i) then i
    else PairIndex(parts, i + 1)
  }

  /** The first index at or after `i` of a field that is a date, or -1. */
  function DateIndex(parts: seq<string>, i: nat): (j: int)
    requires i <= |parts|
    decreases |parts| - i
    ensures j == -1 || (i <= j < |parts| && IsDate(parts[j]))
    ensures forall k :: i <= k < |parts| && (j == -1 || k < j) ==> !IsDate(parts[k])
  {
    if i == |parts| then -1
    else if IsDate(parts[i]) then i
    else DateIndex(parts, i + 1)
  }

  datatype Family = Family(modelType: string, name: string)

  /** The family named in a lower-cased identifier, first of opus, sonnet
      and haiku, with its display name. */
  function FamilyOf(lower: string): Option<Family> {
    if Contains(lower, "opus") then Some(Family("opus", "Claude 3 Opus"))
    else if Contains(lower, "sonnet") then Some(Family("sonnet", "Claude 3.5 Sonnet"))
    else if Contains(lower, "haiku") then Some(Family("haiku", "Claude 3.5 Haiku"))
    else None
  }

  /** The version read from the `-` fields of an identifier: the first
      pair of one-character fields joined by '.', looked for only when
      there are more than three fields. */
  function VersionOf(parts: seq<string>): string {
    var p := PairIndex(parts, 0);
    if |parts| > 3 && p >= 0 then parts[p] + "." + parts[p + 1] else ""
  }

  /** The date read from the `-` fields: the first one that is a date. */
  function DateOf(parts: seq<string>): string {
    var d := DateIndex(parts, 0);
    if d >= 0 then parts[d] else ""
  }

  /** parseModelID: no information without a family; otherwise the
      identifier itself, the family, the version from the first pair of
      one-character `-` fields when there are more than three fields, and
      the first `-` field that is a date. */
  function ParseModelID(id: string): (info: Option<ModelInfo>)
    ensures info.None? <==>
      !Contains(Lower(id), "opus") && !Contains(Lower(id), "sonnet") && !Contains(Lower(id), "haiku")
    ensures info.Some? ==> info.value.id == id
    ensures info.Some? && Contains(Lower(id), "opus") ==> info.value.modelType == "opus"
    ensures info.Some? && !Contains(Lower(id), "opus") && Contains(Lower(id), "sonnet") ==>
      info.value.modelType == "sonnet"
    ensures info.Some? && !Contains(Lower(id), "opus") && !Contains(Lower(id), "sonnet") ==>
      info.value.modelType == "haiku"
  {
    var family := FamilyOf(Lower(id));
    if family.None? then None
    else
      var parts := Split(id, '-');
      Some(ModelInfo(id, family.value.name, family.value.modelType, VersionOf(parts), DateOf(parts)))
  }

  /** parseModelID's family is FamilyOf's. */
  lemma {:induction false} ParsedFamily(id: string)
    ensures ParseModelID(id).Some? <==> FamilyOf(Lower(id)).Some?
    ensures ParseModelID(id).Some? ==> ParseModelID(id).value.modelType == FamilyOf(Lower(id)).value.modelType
  {
  }

  /** Some pair of consecutive fields are one character each. */
  predicate HasVersionPair(parts: seq<string>) {
    exists i :: 0 <= i < |parts| && VersionPairAt(parts, i)
  }

  /** `v` joins the first pair of one-character fields with '.'. */
  predicate FirstVersionPair(parts: seq<string>, v: string) {
    exists i :: 0 <= i < |parts| && VersionPairAt(parts, i) && v == parts[i] + "." + parts[i + 1]
                && NoPairBefore(parts, i)
  }

  predicate NoPairBefore(parts: seq<string>, i: int) {
    forall k :: 0 <= k < i ==> !VersionPairAt(parts, k)
  }

  /** A version, when there is one, is two one-character fields joined by
      '.', the first such pair, sought only among more than three fields. */
  lemma {:induction false} VersionOfFirstPair(parts: seq<string>)
    ensures |parts| <= 3 ==> VersionOf(parts) == ""
    ensures VersionOf(parts) != "" <==> |parts| > 3 && HasVersionPair(parts)
    ensures VersionOf(parts) != "" ==>
      |VersionOf(parts)| == 3 && VersionOf(parts)[1] == '.' && FirstVersionPair(parts, VersionOf(parts))
  {
    var p := PairIndex(parts, 0);
    if HasVersionPair(parts) {
      var i :| 0 <= i < |parts| && VersionPairAt(parts, i);
      assert p >= 0;
    }
    if p >= 0 {
      assert NoPairBefore(parts, p);
    }
  }

  /** The version parseModelID reports is the one read from the
      identifier's `-` fields. */
  lemma {:induction false} ParsedVersion(id: string)
    requires ParseModelID(id).Some?
    ensures ParseModelID(id).value.version != "" <==> |Split(id, '-')| > 3 && HasVersionPair(Split(id, '-'))
    ensures ParseModelID(id).value.version != "" ==>
      FirstVersionPair(Split(id, '-'), ParseModelID(id).value.version)
  {
    VersionOfFirstPair(Split(id, '-'));
  }

  /** Some field is a date. */
  predicate HasDate(parts: seq<string>) {
    exists i :: 0 <= i < |parts| && IsDate(parts[i])
  }

  /** `dt` is the first field that is a date. */
  predicate FirstDate(parts: seq<string>, dt: string) {
    exists i :: 0 <= i < |parts| && dt == parts[i] && NoDateBefore(parts, i)
  }

  predicate NoDateBefore(parts: seq<string>, i: int)
    requires i <= |parts|
  {
    forall k :: 0 <= k < i ==> !IsDate(parts[k])
  }

  /** A date, when there is one, is the first field that is a valid
      YYYYMMDD date; there is none when no field is. */
  lemma {:induction false} DateOfFirstDate(parts: seq<string>)
    ensures DateOf(parts) != "" <==> HasDate(parts)
    ensures DateOf(parts) != "" ==> IsDate(DateOf(parts)) && FirstDate(parts, DateOf(parts))
  {
    var d := DateIndex(parts, 0);
    if HasDate(parts) {
      var i :| 0 <= i < |parts| && IsDate(parts[i]);
      assert d >= 0;
    }
    if d >= 0 {
      assert NoDateBefore(parts, d);
    }
  }

  /** The date parseModelID reports is the one read from the identifier's
      `-` fields. */
  lemma {:induction false} ParsedDate(id: string)
    requires ParseModelID(id).Some?
    ensures ParseModelID(id).value.date != "" <==> HasDate(Split(id, '-'))
    ensures ParseModelID(id).value.date != "" ==> FirstDate(Split(id, '-'), ParseModelID(id).value.date)
  {
    DateOfFirstDate(Split(id, '-'));
  }

  // ---------------------------------------------------------------------
  // SelectModel
  // ---------------------------------------------------------------------

  /** The order SelectModel sorts by: a later date first, and for equal
      dates a higher version first (Go's byte-wise string order). */
  predicate Before(a: ModelInfo, b: ModelInfo) {
    if a.date != b.date then Less(b.date, a.date) else Less(b.version, a.version)
  }

  lemma {:induction false} BeforeAsymmetric(a: ModelInfo, b: ModelInfo)
    requires Before(a, b)
    ensures !Before(b, a)
  {
    if a.date != b.date {
      LessAsymmetric(b.date, a.date);
    } else {
      LessAsymmetric(b.version, a.version);
    }
  }

  lemma {:induction false} BeforeIrreflexive(a: ModelInfo)
    ensures !Before(a, a)
  {
    LessIrreflexive(a.version);
  }

  /** Whatever comes before `x` comes before anything `x` does not come
      after: the order is a strict weak order. */
  lemma {:induction false} BeforeNotAfter(m: ModelInfo, x: ModelInfo, b: ModelInfo)
    requires Before(m, x) && !Before(b, x)
    ensures Before(m, b)
  {
    LessTotal(b.date, x.date);
    LessTotal(b.version, x.version);
    if m.date != x.date {
      if b.date != x.date {
        LessTransitive(b.date, x.date, m.date);
        LessIrreflexive(m.date);
      } else {
        LessIrreflexive(m.date);
      }
    } else if b.date != x.date {
      LessIrreflexive(m.date);
    } else if b.version != x.version {
      LessTransitive(b.version, x.version, m.version);
    }
  }

  /** A model that no other model of `ms` comes before. */
  function Latest(ms: seq<ModelInfo>): (m: ModelInfo)
    requires |ms| > 0
  {
    if |ms| == 1 then ms[0]
    else
      var b := Latest(ms[1..]);
      if Before(b, ms[0]) then b else ms[0]
  }

  /** The chosen model is one of `ms` and none of `ms` sorts before it. */
  lemma {:induction false} LatestIsFirst(ms: seq<ModelInfo>)
    requires |ms| > 0
    ensures Latest(ms) in ms
    ensures forall x :: x in ms ==> !Before(x, Latest(ms))
  {
    BeforeIrreflexive(ms[0]);
    if |ms| > 1 {
      var b := Latest(ms[1..]);
      LatestIsFirst(ms[1..]);
      if Before(b, ms[0]) {
        BeforeAsymmetric(b, ms[0]);
      } else {
        forall x | x in ms[1..]
          ensures !Before(x, ms[0])
        {
          if Before(x, ms[0]) {
            BeforeNotAfter(x, ms[0], b);
          }
        }
      }
    }
  }

  /** The models of one family, in their order. */
  function OfType(ms: seq<ModelInfo>, t: string): (r: seq<ModelInfo>)
    ensures forall m :: m in r <==> m in ms && m.modelType == t
  {
    if |ms| == 0 then []
    else if ms[0].modelType == t then [ms[0]] + OfType(ms[1..], t)
    else OfType(ms[1..], t)
  }

  /** The identifiers used for a family no listed model belongs to. */
  function FallbackModel(searchType: string, typeOrID: string): (r: Result<string, string>)
    ensures r.Ok? <==> searchType in {"opus", "sonnet", "haiku"}
  {
    if searchType == "opus" then Ok("anthropic.claude-opus-4-5-20251101-v1:0")
    else if searchType == "sonnet" then Ok("anthropic.claude-sonnet-4-5-20250929-v1:0")
    else if searchType == "haiku" then Ok("anthropic.claude-haiku-4-5-20251001-v1:0")
    else Err("no model found for type '" + typeOrID + "'")
  }

  /** SelectModel: an argument with '.' or ':' is taken as a full
      identifier; otherwise the latest listed model of the lower-cased
      family, else the fixed identifier for the family. */
  function SelectModel(typeOrID: string, models: Result<seq<ModelInfo>, string>): (r: Result<string, string>)
    ensures '.' in typeOrID || ':' in typeOrID ==> r == Ok(typeOrID)
    ensures '.' !in typeOrID && ':' !in typeOrID && models.Err? ==> r.Err?
  {
    if '.' in typeOrID || ':' in typeOrID then Ok(typeOrID)
    else if models.Err? then Err("failed to get models: " + models.error)
    else
      var searchType := Lower(typeOrID);
      var matches := OfType(models.value, searchType);
      if |matches| == 0 then FallbackModel(searchType, typeOrID)
      else Ok(Latest(matches).id)
  }

  /** With listed models of the family, the choice is one of them that
      none of them sorts before; without, it is the fixed identifier. */
  lemma {:induction false} SelectLatest(typeOrID: string, ms: seq<ModelInfo>)
    requires '.' !in typeOrID && ':' !in typeOrID
    ensures (forall m :: m in ms ==> m.modelType != Lower(typeOrID)) ==>
      SelectModel(typeOrID, Ok(ms)) == FallbackModel(Lower(typeOrID), typeOrID)
    ensures (exists m :: m in ms && m.modelType == Lower(typeOrID)) ==>
      SelectModel(typeOrID, Ok(ms)).Ok? &&
      exists m :: m in ms && m.modelType == Lower(typeOrID) && SelectModel(typeOrID, Ok(ms)).value == m.id
        && forall x :: x in ms && x.modelType == Lower(typeOrID) ==> !Before(x, m)
  {
    var matches := OfType(ms, Lower(typeOrID));
    if |matches| > 0 {
      LatestIsFirst(matches);
      var b := Latest(matches);
      assert b in ms && b.modelType == Lower(typeOrID);
    }
  }
}

=== FILE: parser.dfy ===
/** Reading the session document: the last Human turn's number and text.
    The regular expression `## \[(\d+)\] Human` is written out as a scanner
    of one candidate position. */
module Parser {
  import opened Text
  import opened Session
  import opened Wrappers

  /** The largest value of Go's 64-bit `int`. */
  const MaxInt: int := 0x7fff_ffff_ffff_ffff

  /** End of the run of decimal digits starting at index `k`. */
  function DigitRun(s: string, k: nat): (e: nat)
    requires k <= |s|
    decreases |s| - k
    ensures k <= e <= |s|
    ensures forall j :: k <= j < e ==> IsDigit(s[j])
    ensures e < |s| ==> !IsDigit(s[e])
  {
    if k < |s| && IsDigit(s[k]) then DigitRun(s, k + 1) else k
  }

  lemma {:induction false} DigitRunAt(s: string, k: nat, e: nat)
    requires k <= e <= |s|
    requires forall j :: k <= j < e ==> IsDigit(s[j])
    requires e < |s| ==> !IsDigit(s[e])
    ensures DigitRun(s, k) == e
    decreases e - k
  {
    if k < e {
      DigitRunAt(s, k + 1, e);
    }
  }

  /** The match of `## \[(\d+)\] Human` starting at index `i`, if any, as
      the end of its digit group.  A digit group is followed by `]`, which
      is no digit, so the greedy run is the only candidate. */
  function HumanMatchAt(s: string, i: nat): (m: Option<nat>)
    requires i <= |s|
    ensures m.Some? ==> i + 4 < m.value && m.value + 7 <= |s|
  {
    if i + 4 <= |s| && s[i] == '#' && s[i + 1] == '#' && s[i + 2] == ' ' && s[i + 3] == '[' then
      var d := DigitRun(s, i + 4);
      if d > i + 4 && d + 7 <= |s| && s[d] == ']' && s[d + 1] == ' ' && s[d + 2] == 'H' && s[d + 3] == 'u'
         && s[d + 4] == 'm' && s[d + 5] == 'a' && s[d + 6] == 'n' then Some(d) else None
    else None
  }

  /** The scanner agrees with the regular expression: a match at `i` with
      group `g` is exactly an occurrence of `## [g] Human` with `g` a
      non-empty run of digits. */
  lemma {:induction false} HumanMatchIff(s: string, i: nat, g: string)
    requires i <= |s|
    ensures (|g| > 0 && AllDigits(g) && OccursAt(s, "## [" + g + "] Human", i))
      <==> (HumanMatchAt(s, i).Some? && s[i + 4..HumanMatchAt(s, i).value] == g)
  {
    if |g| > 0 && AllDigits(g) && OccursAt(s, "## [" + g + "] Human", i) {
      OccurrenceMatches(s, i, g);
    }
    var m := HumanMatchAt(s, i);
    if m.Some? && s[i + 4..m.value] == g {
      MatchOccurs(s, i);
    }
  }

  lemma {:induction false} OccurrenceMatches(s: string, i: nat, g: string)
    requires |g| > 0 && AllDigits(g) && OccursAt(s, "## [" + g + "] Human", i)
    ensures HumanMatchAt(s, i) == Some(i + 4 + |g|) && s[i + 4..i + 4 + |g|] == g
  {
    OccursSplit(s, "## [" + g, "] Human", i);
    OccursSplit(s, "## [", g, i);
    var e := i + 4 + |g|;
    assert s[i + 4..e] == g;
    assert forall j :: i + 4 <= j < e ==> IsDigit(s[j]) by {
      assert forall j :: i + 4 <= j < e ==> s[j] == s[i + 4..e][j - i - 4];
    }
    forall q | i <= q < i + 4
      ensures s[q] == "## ["[q - i]
    {
      OccurrenceChar(s, "## [", i, q);
    }
    forall q | e <= q < e + 7
      ensures s[q] == "] Human"[q - e]
    {
      OccurrenceChar(s, "] Human", e, q);
    }
    DigitRunAt(s, i + 4, e);
  }

  lemma {:induction false} MatchOccurs(s: string, i: nat)
    requires i <= |s| && HumanMatchAt(s, i).Some?
    ensures var d := HumanMatchAt(s, i).value;
      AllDigits(s[i + 4..d]) && OccursAt(s, "## [" + s[i + 4..d] + "] Human", i)
  {
    var d := HumanMatchAt(s, i).value;
    var g := s[i + 4..d];
    assert s[i..i + 4] == "## [" && s[d..d + 7] == "] Human";
    assert s[i..d + 7] == s[i..i + 4] + g + s[d..d + 7];
  }

  /** A match starts with "## [". */
  lemma {:induction false} MatchStart(s: string, i: nat)
    requires i <= |s| && HumanMatchAt(s, i).Some?
    ensures OccursAt(s, "## [", i)
  {
    assert s[i..i + 4] == "## [";
  }

  /** Two matches never overlap: inside a match no other one starts.
      Listing the matches left to right without overlap therefore lists
      them all, and the last one listed is the rightmost. */
  lemma {:induction false} MatchesDoNotOverlap(s: string, i: nat, j: nat)
    requires i <= |s| && HumanMatchAt(s, i).Some?
    requires i < j < HumanMatchAt(s, i).value + 7
    ensures HumanMatchAt(s, j).None?
  {
    var d := HumanMatchAt(s, i).value;
    if i + 4 <= j < d {
      assert IsDigit(s[j]);
    }
  }

  /** The rightmost match starting before index `i`, or -1. */
  function LastHumanMatch(s: string, i: nat): (j: int)
    requires i <= |s|
    ensures -1 <= j < i
    ensures j >= 0 ==> HumanMatchAt(s, j).Some?
    ensures forall k :: j < k < i ==> HumanMatchAt(s, k).None?
  {
    if i == 0 then -1
    else if HumanMatchAt(s, i - 1).Some? then i - 1
    else LastHumanMatch(s, i - 1)
  }

  lemma {:induction false} LastHumanMatchAt(s: string, j: nat)
    requires j <= |s| && HumanMatchAt(s, j).Some?
    requires forall k :: j < k <= |s| ==> HumanMatchAt(s, k).None?
    ensures LastHumanMatch(s, |s|) == j
  {
  }

  /** parseIntOrZero: `fmt.Sscanf` with verb `%d` into a 64-bit `int`: an
      optional sign and a run of decimal digits; no digits, or a value out
      of range, leaves zero. */
  function ParseIntOrZero(s: string): (n: int)
    ensures -MaxInt - 1 <= n <= MaxInt
    ensures |s| > 0 && AllDigits(s) && DigitsValue(s) <= MaxInt ==> n == DigitsValue(s)
    ensures AllDigits(s) && DigitsValue(s) > MaxInt ==> n == 0
  {
    var start := if |s| > 0 && (s[0] == '-' || s[0] == '+') then 1 else 0;
    var e := DigitRun(s, start);
    if e == start then 0
    else
      var v: int := DigitsValue(s[start..e]);
      var signed: int := if s[0] == '-' then -v else v;
      assert AllDigits(s) ==> s[start..e] == s;
      if signed < -MaxInt - 1 || signed > MaxInt then 0 else signed
  }

  /** A number written by IntToString reads back as itself. */
  lemma {:induction false} ParseWritten(n: int)
    requires 0 <= n <= MaxInt
    ensures ParseIntOrZero(IntToString(n)) == n
  {
  }

  /** A turn as FindLastHumanTurn reports it. */
  datatype Turn = Turn(number: int, text: string)

  /** The text of the turn whose body starts at `start`: trimmed, up to the
      next "\n## [", or to the end. */
  function SectionText(content: string, start: nat): string
    requires start <= |content|
  {
    TrimSpace(content[start..SectionEnd(content, start)])
  }

  /** The turn text as FindLastHumanTurn cuts it: strings.Index of
      "\n## [" in the text after the heading. */
  function TurnText(content: string, startPos: nat): (text: string)
    requires startPos <= |content|
    ensures text == SectionText(content, startPos)
  {
    var afterHeader := content[startPos..];
    var nextHeaderPos := IndexOf(afterHeader, NextHeading);
    NextHeadingOfSuffix(content, startPos, nextHeaderPos);
    if nextHeaderPos == -1 then
      assert afterHeader == content[startPos..|content|];
      TrimSpace(afterHeader)
    else
      assert afterHeader[..nextHeaderPos] == content[startPos..startPos + nextHeaderPos];
      TrimSpace(afterHeader[..nextHeaderPos])
  }

  /** FindLastHumanTurn: the number of the rightmost `## [N] Human` heading
      and the trimmed text from the end of the heading up to the next
      "\n## [", or to the end; (0, "") without any such heading. */
  function FindLastHumanTurn(content: string): (t: Turn)
    ensures Trimmed(t.text)
    ensures LastHumanMatch(content, |content|) == -1 ==> t == Turn(0, "")
  {
    var m := LastHumanMatch(content, |content|);
    if m < 0 then Turn(0, "")
    else
      var d := HumanMatchAt(content, m).value;
      TurnAt(content, m, d)
  }

  /** The turn read from the match at `m` whose digits end at `d`. */
  function TurnAt(content: string, m: nat, d: nat): (t: Turn)
    requires m + 4 <= d && d + 7 <= |content|
    ensures Trimmed(t.text)
  {
    Turn(ParseIntOrZero(content[m + 4..d]), SectionText(content, d + 7))
  }

  /** With its last match known, FindLastHumanTurn reads the turn there. */
  lemma {:induction false} LastTurnAt(content: string, m: nat, d: nat)
    requires m <= |content| && LastHumanMatch(content, |content|) == m
    requires HumanMatchAt(content, m) == Some(d)
    ensures FindLastHumanTurn(content) == TurnAt(content, m, d)
  {
  }
}

=== FILE: paths.dfy ===
/** The slash-separated path operations of Go's `path/filepath` that the
    program uses, for a Unix host (the separator is '/', `ToSlash` is the
    identity). */
module Paths {
  import opened Text

  /** Start of the text after the last '/' among the first `i` characters. */
  function SlashStart(s: string, i: nat): (k: nat)
    requires i <= |s|
    ensures k <= i
    ensures forall j :: k <= j < i ==> s[j] != '/'
    ensures k > 0 ==> s[k - 1] == '/'
  {
    if i == 0 then 0
    else if s[i - 1] == '/' then i
    else SlashStart(s, i - 1)
  }

  /** The part of `s` after its last '/', or all of `s`. */
  function AfterLastSlash(s: string): (r: string)
    ensures IsSuffix(r, s)
    ensures '/' !in r
    ensures |r| < |s| ==> s[|s| - |r| - 1] == '/'
  {
    var k := SlashStart(s, |s|);
    assert forall j :: 0 <= j < |s| - k ==> s[k..][j] == s[k + j];
    s[k..]
  }

  function TrimTrailingSlashes(s: string): (r: string)
    ensures IsPrefix(r, s)
    ensures |r| == 0 || r[|r| - 1] != '/'
    ensures forall i :: |r| <= i < |s| ==> s[i] == '/'
  {
    if |s| > 0 && s[|s| - 1] == '/' then TrimTrailingSlashes(s[..|s| - 1]) else s
  }

  /** filepath.Base: the last element of the path, trailing slashes ignored;
      "." for the empty path and "/" for a path of slashes only. */
  function Base(path: string): (r: string)
    ensures |r| > 0
  {
    if path == "" then "."
    else
      var t := TrimTrailingSlashes(path);
      if t == "" then "/" else AfterLastSlash(t)
  }

  /** filepath.Ext: the suffix from the last '.' of the final element, or "". */
  function Ext(path: string): (r: string)
    ensures IsSuffix(r, path)
    ensures r == "" || (r[0] == '.' && '/' !in r)
  {
    if |path| == 0 || path[|path| - 1] == '/' then ""
    else if path[|path| - 1] == '.' then
      assert path[|path| - 1..] == ".";
      "."
    else
      var e := Ext(path[..|path| - 1]);
      if e == "" then ""
      else
        var r := e + [path[|path| - 1]];
        assert path[..|path| - 1][|path| - 1 - |e|..] == e;
        assert path[|path| - |r|..] == r;
        r
  }

  /** filepath.Join of a directory and one entry name.  Lexical cleaning of
      the joined path is not modelled: paths are taken as already clean. */
  function JoinPath(dir: string, name: string): string {
    if dir == "" then name else dir + "/" + name
  }

  /** Joining an entry name onto a directory keeps the name as the base
      name and as the source of the extension. */
  lemma {:induction false} JoinedEntry(dir: string, name: string)
    requires '/' !in name && name != ""
    ensures Base(JoinPath(dir, name)) == name
    ensures Ext(JoinPath(dir, name)) == Ext(name)
  {
    BaseOfJoin(dir, name);
    if dir != "" {
      ExtOfLastElement(dir, name);
    }
  }

  /** The extension depends only on the text after the last '/'. */
  lemma {:induction false} ExtOfLastElement(dir: string, name: string)
    requires '/' !in name
    ensures Ext(dir + "/" + name) == Ext(name)
    decreases |name|
  {
    var p := dir + "/" + name;
    if |name| == 0 {
      assert p[|p| - 1] == '/';
    } else {
      assert p[..|p| - 1] == dir + "/" + name[..|name| - 1];
      assert p[|p| - 1] == name[|name| - 1];
      ExtOfLastElement(dir, name[..|name| - 1]);
    }
  }

  /** The base name of a joined path is the entry name. */
  lemma {:induction false} BaseOfJoin(dir: string, name: string)
    requires '/' !in name && name != ""
    ensures Base(dir + "/" + name) == name
    ensures Base(name) == name
  {
    AfterLastSlashOf(dir + "/", name);
    AfterLastSlashOf("", name);
    assert "" + name == name;
  }

  lemma {:induction false} AfterLastSlashOf(prefix: string, name: string)
    requires '/' !in name && name != ""
    requires prefix == "" || prefix[|prefix| - 1] == '/'
    ensures TrimTrailingSlashes(prefix + name) == prefix + name
    ensures AfterLastSlash(prefix + name) == name
    decreases |name|
  {
    var p := prefix + name;
    assert p[|p| - 1] == name[|name| - 1];
    if |name| == 1 {
      assert p[..|p| - 1] == prefix;
      if prefix != "" {
        assert AfterLastSlash(prefix) == "";
      }
    } else {
      assert p[..|p| - 1] == prefix + name[..|name| - 1];
      AfterLastSlashOf(prefix, name[..|name| - 1]);
    }
  }
}

=== FILE: profiles.dfy ===
/** Inference profiles: what a model can do, the name of the profile the
    program keeps for it, and the choice among the system-provided profiles
    a listing returns.  The listing itself is a parameter: its summaries,
    or the error the service gave. */
module Profiles {
  import opened Text
  import opened Wrappers
  import Models

  /** ModelCapabilities; the strategy is "create" or "discover". */
  datatype ModelCapabilities = ModelCapabilities(supportsThinking: bool, requiresSystemProfile: bool,
                                                 profileStrategy: string)

  /** getModelCapabilities: the first rule whose words the lower-cased
      identifier contains decides; "sonnet-4" is tried first. */
  function GetModelCapabilities(modelID: string): (c: ModelCapabilities)
    ensures c.profileStrategy == "discover" || c.profileStrategy == "create"
    ensures c.profileStrategy == "discover" <==> c.requiresSystemProfile
    ensures c.requiresSystemProfile <==> Contains(Lower(modelID), "sonnet-4")
  {
    var lower := Lower(modelID);
    if Contains(lower, "sonnet-4") then ModelCapabilities(true, true, "discover")
    else if Contains(lower, "opus-4") then ModelCapabilities(true, false, "create")
    else if Contains(lower, "opus") && Contains(lower, "20240229") then ModelCapabilities(true, false, "create")
    else if Contains(lower, "sonnet") && Contains(lower, "20241022") then ModelCapabilities(true, false, "create")
    else ModelCapabilities(false, false, "create")
  }

  /** The identifiers of models that can think: Sonnet 4, Opus 4, Claude 3
      Opus of 2024-02-29 and Claude 3.5 Sonnet of 2024-10-22. */
  predicate ThinkingModel(lower: string) {
    || Contains(lower, "sonnet-4") || Contains(lower, "opus-4")
    || (Contains(lower, "opus") && Contains(lower, "20240229"))
    || (Contains(lower, "sonnet") && Contains(lower, "20241022"))
  }

  /** Sonnet 4 always gets thinking and a discovered system profile,
      whatever else the identifier says; the thinking models are exactly
      the four families listed; every other identifier gets neither
      thinking nor a system profile. */
  lemma {:induction false} CapabilitiesClassified(modelID: string)
    ensures Contains(Lower(modelID), "sonnet-4") ==>
      GetModelCapabilities(modelID) == ModelCapabilities(true, true, "discover")
    ensures GetModelCapabilities(modelID).supportsThinking <==> ThinkingModel(Lower(modelID))
    ensures !ThinkingModel(Lower(modelID)) ==>
      GetModelCapabilities(modelID) == ModelCapabilities(false, false, "create")
  {
  }

  /** deriveProfileName: "ask-" and the family, first of opus, sonnet and
      haiku; otherwise "ask-" and the third '.'-field, or "ask-default". */
  function DeriveProfileName(modelID: string): (name: string)
    ensures IsPrefix("ask-", name)
  {
    var lower := Lower(modelID);
    if Contains(lower, "opus") then "ask-opus"
    else if Contains(lower, "sonnet") then "ask-sonnet"
    else if Contains(lower, "haiku") then "ask-haiku"
    else
      var parts := Split(modelID, '.');
      if |parts| >= 3 then "ask-" + parts[2] else "ask-default"
  }

  /** The profile name follows the same family precedence as parseModelID:
      an identifier with a family is named after it, and one without is
      named after its third '.'-field or is the default. */
  lemma {:induction false} ProfileNameFollowsFamily(modelID: string)
    ensures Models.ParseModelID(modelID).Some? ==>
      DeriveProfileName(modelID) == "ask-" + Models.ParseModelID(modelID).value.modelType
    ensures Models.ParseModelID(modelID).None? && |Split(modelID, '.')| >= 3 ==>
      DeriveProfileName(modelID) == "ask-" + Split(modelID, '.')[2]
    ensures Models.ParseModelID(modelID).None? && |Split(modelID, '.')| < 3 ==>
      DeriveProfileName(modelID) == "ask-default"
  {
    Models.ParsedFamily(modelID);
    FamilyName(modelID);
  }

  /** The first three cases of the name are FamilyOf's families. */
  lemma {:induction false} FamilyName(modelID: string)
    ensures Models.FamilyOf(Lower(modelID)).Some? ==>
      DeriveProfileName(modelID) == "ask-" + Models.FamilyOf(Lower(modelID)).value.modelType
    ensures Models.FamilyOf(Lower(modelID)).None? && |Split(modelID, '.')| >= 3 ==>
      DeriveProfileName(modelID) == "ask-" + Split(modelID, '.')[2]
    ensures Models.FamilyOf(Lower(modelID)).None? && |Split(modelID, '.')| < 3 ==>
      DeriveProfileName(modelID) == "ask-default"
  {
  }

  // ---------------------------------------------------------------------
  // discoverSystemProfile
  // ---------------------------------------------------------------------

  /** One listed profile: its ARN and name when the service gave them, and
      the ARNs (each possibly absent) of the models it routes to. */
  datatype ProfileSummary = ProfileSummary(arn: Option<string>, name: Option<string>,
                                           modelArns: seq<Option<string>>)

  /** The profile name, empty when absent. */
  function NameOf(p: ProfileSummary): string {
    if p.name.Some? then p.name.value else ""
  }

  /** One of the profile's models is a Sonnet 4. */
  predicate RoutesToSonnet4(p: ProfileSummary) {
    exists i :: 0 <= i < |p.modelArns| && p.modelArns[i].Some? && Contains(p.modelArns[i].value, "sonnet-4")
  }

  /** The profile serves the model: by one of its models, or by its name. */
  predicate SupportsModel(p: ProfileSummary) {
    || RoutesToSonnet4(p)
    || Contains(NameOf(p), "sonnet") || Contains(NameOf(p), "Sonnet") || Contains(NameOf(p), "cross-region")
  }

  /** A profile with an ARN that serves the model. */
  predicate Candidate(p: ProfileSummary) {
    p.arn.Some? && SupportsModel(p)
  }

  /** A profile whose name marks a one-million-token context. */
  predicate Extended(p: ProfileSummary) {
    Contains(NameOf(p), "1m") || Contains(NameOf(p), "1M") || Contains(NameOf(p), "million")
  }

  /** A candidate of the given kind: extended or standard. */
  predicate OfKind(p: ProfileSummary, extended: bool) {
    Candidate(p) && Extended(p) == extended
  }

  /** The index of the last candidate of the given kind before `j`, or -1. */
  function LastIndexOfKind(ps: seq<ProfileSummary>, extended: bool, j: nat): (r: int)
    requires j <= |ps|
    ensures r == -1 || (0 <= r < j && OfKind(ps[r], extended))
    ensures forall k :: r < k < j ==> !OfKind(ps[k], extended)
  {
    if j == 0 then -1
    else if OfKind(ps[j - 1], extended) then j - 1
    else LastIndexOfKind(ps, extended, j - 1)
  }

  /** The ARN of the last candidate of the given kind among the first `j`
      summaries, or "" when there is none. */
  function LastOfKind(ps: seq<ProfileSummary>, extended: bool, j: nat): string
    requires j <= |ps|
  {
    var r := LastIndexOfKind(ps, extended, j);
    if r >= 0 then ps[r].arn.value else ""
  }

  /** One more summary changes a choice only when it is a candidate of
      that kind. */
  lemma {:induction false} LastOfKindStep(ps: seq<ProfileSummary>, extended: bool, i: nat)
    requires i < |ps|
    ensures LastOfKind(ps, extended, i + 1) ==
      if OfKind(ps[i], extended) then ps[i].arn.value else LastOfKind(ps, extended, i)
  {
  }

  const NoProfileError: string :=
    "no suitable system profile found for Sonnet 4.\n\n"
    + "This model requires a system-provided inference profile.\n"
    + "Your AWS account may need:\n"
    + "1. Cross-region inference enabled\n"
    + "2. Access to Sonnet 4 profiles\n\n"
    + "Contact your AWS administrator or try:\n"
    + "  ask cfg model opus     # Claude Opus (supports custom profiles)\n"
    + "  ask cfg model sonnet   # Claude 3.5 Sonnet (older version)"

  /** The choice made after the loop: the extended profile when it is
      preferred and set, else the standard profile when set, else none. */
  function ChooseProfile(ps: seq<ProfileSummary>, prefer1M: bool): Result<string, string> {
    if prefer1M && LastOfKind(ps, true, |ps|) != "" then Ok(LastOfKind(ps, true, |ps|))
    else if LastOfKind(ps, false, |ps|) != "" then Ok(LastOfKind(ps, false, |ps|))
    else Err(NoProfileError)
  }

  /** The selection loop of discoverSystemProfile: every candidate replaces
      the standard or the extended choice, by its name; then the extended
      choice wins when it is preferred and set, else the standard choice
      when set, else there is no profile. */
  method DiscoverSystemProfile(listing: Result<seq<ProfileSummary>, string>, prefer1M: bool)
    returns (r: Result<string, string>)
    ensures listing.Err? ==> r == Err("failed to list profiles: " + listing.error)
    ensures listing.Ok? ==> r == ChooseProfile(listing.value, prefer1M)
  {
    if listing.Err? {
      return Err("failed to list profiles: " + listing.error);
    }
    var ps := listing.value;
    var standard := "";
    var extended := "";
    for i := 0 to |ps|
      invariant standard == LastOfKind(ps, false, i)
      invariant extended == LastOfKind(ps, true, i)
    {
      LastOfKindStep(ps, false, i);
      LastOfKindStep(ps, true, i);
      var p := ps[i];
      if p.arn.None? {
        continue;
      }
      if SupportsModel(p) {
        if Extended(p) {
          extended := p.arn.value;
        } else {
          standard := p.arn.value;
        }
      }
    }
    if prefer1M && extended != "" {
      return Ok(extended);
    }
    if standard != "" {
      return Ok(standard);
    }
    return Err(NoProfileError);
  }

  /** No later summary is a candidate of the same kind as summary `i`. */
  predicate LastOfItsKind(ps: seq<ProfileSummary>, i: nat)
    requires i < |ps|
  {
    forall k :: i < k < |ps| ==> !OfKind(ps[k], Extended(ps[i]))
  }

  /** A chosen profile is a listed candidate with that ARN, the last of
      its kind, and extended only when the long context is preferred. */
  lemma {:induction false} ChosenIsLastCandidate(ps: seq<ProfileSummary>, prefer1M: bool)
    ensures ChooseProfile(ps, prefer1M).Ok? ==>
      exists i :: 0 <= i < |ps| && Candidate(ps[i]) && ps[i].arn.value == ChooseProfile(ps, prefer1M).value
        && (Extended(ps[i]) ==> prefer1M) && LastOfItsKind(ps, i)
  {
    var n := |ps|;
    if prefer1M && LastOfKind(ps, true, n) != "" {
      var e := LastIndexOfKind(ps, true, n);
      assert OfKind(ps[e], true);
      assert LastOfItsKind(ps, e);
    } else if LastOfKind(ps, false, n) != "" {
      var d := LastIndexOfKind(ps, false, n);
      assert OfKind(ps[d], false);
      assert LastOfItsKind(ps, d);
    }
  }

  /** Without a preference for the long context, an extended profile is
      never chosen: a listing with only extended candidates is an error. */
  lemma {:induction false} ExtendedOnlyFails(ps: seq<ProfileSummary>)
    requires forall k :: 0 <= k < |ps| ==> !OfKind(ps[k], false)
    ensures ChooseProfile(ps, false) == Err(NoProfileError)
  {
  }
}

=== FILE: references.dfy ===
/** ExpandReferences: every `[[path]]` token of a turn is replaced by the
    expansion of the file or directory it names.

    The tokens are those of the pattern `\[\[([^\]]+)\]\]`, found left to
    right without overlap in the original text.  Each token is then
    replaced, in order, by replacing the first occurrence of its text in
    the text rewritten so far, as the program does.  A path ending in
    "/**/" names a directory walked recursively whatever the
    configuration says; a path ending in "/" names a directory; any other
    path names a file. */
module References {
  import opened Text
  import opened Wrappers
  import opened FileTree
  import opened Selection
  import opened Configuration
  import opened Rendering
  import opened Walker
  import Filter

  // ---------------------------------------------------------------------
  // Finding the tokens
  // ---------------------------------------------------------------------

  /** The text of the token naming `path`. */
  function Token(path: string): string {
    "[[" + path + "]]"
  }

  /** A token naming `p` starts at `i`: `p` is non-empty and holds no ']'. */
  predicate TokenAt(s: string, i: int, p: string) {
    p != "" && ']' !in p && OccursAt(s, Token(p), i)
  }

  /** The end of the run of characters other than ']' starting at `j`. */
  function RunEnd(s: string, j: nat): (k: nat)
    requires j <= |s|
    decreases |s| - j
    ensures j <= k <= |s|
    ensures forall m :: j <= m < k ==> s[m] != ']'
    ensures k < |s| ==> s[k] == ']'
  {
    if j == |s| || s[j] == ']' then j else RunEnd(s, j + 1)
  }

  /** The pattern tried at `i`: "[[", the longest run without ']', which
      must not be empty, and "]]". */
  function MatchAt(s: string, i: nat): (r: Option<string>)
    ensures r.Some? ==> TokenAt(s, i, r.value)
  {
    if i + 2 <= |s| && s[i..i + 2] == "[[" then
      var k := RunEnd(s, i + 2);
      if k > i + 2 && k + 2 <= |s| && s[k..k + 2] == "]]" then
        TokenFromPieces(s, i, k);
        Some(s[i + 2..k])
      else None
    else None
  }

  /** "[[", a non-empty run without ']' and "]]" in a row form a token. */
  lemma {:induction false} TokenFromPieces(s: string, i: nat, k: nat)
    requires i + 2 < k && k + 2 <= |s|
    requires s[i..i + 2] == "[[" && s[k..k + 2] == "]]"
    requires forall m :: i + 2 <= m < k ==> s[m] != ']'
    ensures TokenAt(s, i, s[i + 2..k])
  {
    var p := s[i + 2..k];
    assert ']' !in p by {
      forall m | 0 <= m < |p| ensures p[m] != ']' {
        assert p[m] == s[i + 2 + m];
      }
    }
    var t := s[i..k + 2];
    assert t == Token(p) by {
      assert |t| == |Token(p)|;
      forall m | 0 <= m < |t| ensures t[m] == Token(p)[m] {
        if m < 2 {
          assert t[m] == s[i..i + 2][m];
        } else if m < k - i {
          assert t[m] == p[m - 2];
        } else {
          assert t[m] == s[k..k + 2][m - (k - i)];
        }
      }
    }
  }

  /** A token's three pieces in the text. */
  lemma {:induction false} TokenPieces(s: string, i: nat, p: string)
    requires TokenAt(s, i, p)
    ensures s[i..i + 2] == "[[" && s[i + 2..i + 2 + |p|] == p && s[i + 2 + |p|..i + |p| + 4] == "]]"
  {
    var t := s[i..i + |p| + 4];
    assert t == Token(p);
    assert t[..2] == "[[" && t[2..|p| + 2] == p && t[|p| + 2..] == "]]";
    SliceOfSlice(s, i, i + |p| + 4, 0, 2);
    SliceOfSlice(s, i, i + |p| + 4, 2, |p| + 2);
    SliceOfSlice(s, i, i + |p| + 4, |p| + 2, |p| + 4);
  }

  /** Every token is found where it starts: the pattern cannot stop short
      of the first ']' nor run past it. */
  lemma {:induction false} MatchAtComplete(s: string, i: nat, p: string)
    requires TokenAt(s, i, p)
    ensures MatchAt(s, i) == Some(p)
  {
    var q := i + 2 + |p|;
    TokenPieces(s, i, p);
    assert s[q] == s[q..q + 2][0] == ']';
    assert forall m :: i + 2 <= m < q ==> s[m] == s[i + 2..q][m - i - 2];
    assert RunEnd(s, i + 2) == q;
  }

  /** A token found in the text: where it starts and the path it names. */
  datatype Ref = Ref(start: nat, path: string)

  /** The index just after the token. */
  function End(r: Ref): int {
    r.start + |r.path| + 4
  }

  /** What the pattern finds at each index of a text. */
  type Probe = nat -> Option<string>

  /** The tokens from `i` on in a text of length `n`: a token found at `i`
      is taken and the search goes on after it; otherwise the search moves
      one character on. */
  function Scan(probe: Probe, n: nat, i: nat): seq<Ref>
    decreases n - i
  {
    if i >= n then []
    else
      match probe(i)
      case Some(p) => [Ref(i, p)] + Scan(probe, n, i + |p| + 4)
      case None => Scan(probe, n, i + 1)
  }

  /** The pattern over the text `s`. */
  function ProbeOf(s: string): Probe {
    (i: nat) => MatchAt(s, i)
  }

  /** FindAllStringSubmatch with the reference pattern. */
  function FindRefs(s: string): (r: seq<Ref>)
    ensures Leftmost(ProbeOf(s), |s|, 0, r)
  {
    ScanLeftmost(ProbeOf(s), |s|, 0);
    Scan(ProbeOf(s), |s|, 0)
  }

  /** Nothing is found in [lo, hi). */
  ghost predicate NoneIn(probe: Probe, lo: int, hi: int) {
    forall j: nat :: lo <= j < hi ==> probe(j).None?
  }

  /** `refs` are the leftmost non-overlapping tokens from `from` on in a
      text of length `n`: the first is found at its start, at or after
      `from`, and nothing is found before it; the others are the leftmost
      tokens after its end.  With no tokens, nothing is found at all. */
  ghost predicate Leftmost(probe: Probe, n: nat, from: int, refs: seq<Ref>)
    decreases |refs|
  {
    if |refs| == 0 then NoneIn(probe, from, n)
    else
      && from <= refs[0].start
      && probe(refs[0].start) == Some(refs[0].path)
      && NoneIn(probe, from, refs[0].start)
      && Leftmost(probe, n, End(refs[0]), refs[1..])
  }

  /** A probe that finds only tokens that fit in the text. */
  ghost predicate Fits(probe: Probe, n: nat) {
    forall j: nat :: probe(j).Some? ==> j + |probe(j).value| + 4 <= n
  }

  lemma {:induction false} ProbeOfFits(s: string)
    ensures Fits(ProbeOf(s), |s|)
  {
    forall j: nat | ProbeOf(s)(j).Some?
      ensures j + |ProbeOf(s)(j).value| + 4 <= |s|
    {
      assert TokenAt(s, j, MatchAt(s, j).value);
    }
  }

  /** An index where nothing is found can be added in front of the search. */
  lemma {:induction false} LeftmostFromEarlier(probe: Probe, n: nat, i: nat, refs: seq<Ref>)
    requires probe(i).None? && Leftmost(probe, n, i + 1, refs)
    ensures Leftmost(probe, n, i, refs)
  {
  }

  /** The scan finds the leftmost non-overlapping tokens. */
  lemma {:induction false} ScanLeftmost(probe: Probe, n: nat, i: nat)
    decreases n - i
    ensures Leftmost(probe, n, i, Scan(probe, n, i))
  {
    if i < n {
      match probe(i)
      case Some(p) =>
        ScanLeftmost(probe, n, i + |p| + 4);
        var rest := Scan(probe, n, i + |p| + 4);
        assert ([Ref(i, p)] + rest)[1..] == rest;
      case None =>
        ScanLeftmost(probe, n, i + 1);
        LeftmostFromEarlier(probe, n, i, Scan(probe, n, i + 1));
    }
  }

  /** There is only one leftmost sequence: the scan's. */
  lemma {:induction false} LeftmostUnique(probe: Probe, n: nat, i: nat, refs: seq<Ref>)
    requires Fits(probe, n) && Leftmost(probe, n, i, refs)
    decreases n - i
    ensures refs == Scan(probe, n, i)
  {
    if i < n {
      match probe(i)
      case None =>
        if |refs| > 0 {
          assert refs[0].start != i;
        }
        LeftmostUnique(probe, n, i + 1, refs);
      case Some(p) =>
        assert |refs| > 0;
        assert refs[0] == Ref(i, p);
        LeftmostUnique(probe, n, i + |p| + 4, refs[1..]);
        assert refs == [Ref(i, p)] + refs[1..];
    }
  }

  /** FindRefs gives exactly the leftmost non-overlapping tokens of the
      text, and nothing else does. */
  lemma {:induction false} FindRefsLeftmost(s: string, refs: seq<Ref>)
    ensures Leftmost(ProbeOf(s), |s|, 0, FindRefs(s))
    ensures Leftmost(ProbeOf(s), |s|, 0, refs) ==> refs == FindRefs(s)
  {
    ScanLeftmost(ProbeOf(s), |s|, 0);
    if Leftmost(ProbeOf(s), |s|, 0, refs) {
      ProbeOfFits(s);
      LeftmostUnique(ProbeOf(s), |s|, 0, refs);
    }
  }

  /** A text with no token at all has no references. */
  lemma {:induction false} NoTokenNoRefs(s: string)
    requires forall j: nat :: j < |s| ==> MatchAt(s, j).None?
    ensures FindRefs(s) == []
  {
    assert Leftmost(ProbeOf(s), |s|, 0, []);
    FindRefsLeftmost(s, []);
  }

  // ---------------------------------------------------------------------
  // What a reference names
  // ---------------------------------------------------------------------

  /** A file, or a directory and whether recursion is forced. */
  datatype Target = FileRef(file: string) | DirRef(dir: string, forceRecursive: bool)

  /** The path's kind: "/**/" at the end forces recursion and is read as
      "/"; a final "/" names a directory without it. */
  function Classify(path: string): (t: Target)
    ensures IsSuffix("/**/", path) ==> t == DirRef(path[..|path| - 4], true)
    ensures !IsSuffix("/**/", path) && IsSuffix("/", path) ==> t == DirRef(path[..|path| - 1], false)
    ensures !IsSuffix("/", path) ==> t == FileRef(path)
  {
    var force := IsSuffix("/**/", path);
    var p := if force then path[..|path| - 4] + "/" else path;
    if IsSuffix("/", p) then DirRef(p[..|p| - 1], force) else FileRef(p)
  }

  /** The path written for a target. */
  function Written(t: Target): string {
    match t
    case FileRef(f) => f
    case DirRef(d, force) => if force then d + "/**/" else d + "/"
  }

  /** Classifying loses nothing: the path is written back from its target. */
  lemma {:induction false} ClassifyWritten(path: string)
    ensures Written(Classify(path)) == path
  {
    if IsSuffix("/**/", path) {
      assert path == path[..|path| - 4] + "/**/";
    } else if IsSuffix("/", path) {
      assert path == path[..|path| - 1] + "/";
    }
  }

  // ---------------------------------------------------------------------
  // Expanding the references in turn
  // ---------------------------------------------------------------------

  /** The loop's state: the text rewritten so far, the statistics so far
      and the next section number. */
  datatype Progress = Progress(text: string, stats: seq<FileStat>, section: int)

  /** The sections are numbered on from 1, one per statistic. */
  predicate Numbered(st: Progress) {
    st.section == 1 + |st.stats|
  }

  /** One directory reference: the directory is walked from depth 0,
      recursively when the configuration or the reference asks for it; an
      error is wrapped; otherwise the first occurrence of the token in the
      current text is replaced by the walk's text and its statistics are
      added. */
  function StepDirectory(root: Node, token: string, dirPath: string, force: bool, st: Progress, turnNumber: int,
                         ecfg: Expand, fcfg: Filter.FilterConfig, glob: Matcher): (r: Result<Progress, string>)
    ensures r.Ok? ==> st.stats <= r.value.stats
    ensures r.Ok? ==> r.value.section - |r.value.stats| == st.section - |st.stats|
    ensures r.Err? ==> IsPrefix("failed to expand directory '" + dirPath + "': ", r.error)
  {
    match ExpandDirectory(root, dirPath, turnNumber, st.section, ecfg, ecfg.recursive || force, 0, fcfg, glob)
    case Err(e) => Err("failed to expand directory '" + dirPath + "': " + e)
    case Ok(x) => Ok(Shown(st, token, x))
  }

  /** The progress once a token is replaced by an expansion's text and
      the expansion's statistics are added. */
  function Shown(st: Progress, token: string, x: Expanded): Progress {
    Progress(ReplaceFirst(st.text, token, x.text), st.stats + x.stats, st.section + |x.stats|)
  }

  /** One file reference: an error is returned as it is; a binary file's
      token is removed and adds nothing; otherwise the token is replaced
      by the file's section and its statistics are added. */
  function StepFile(root: Node, token: string, fileName: string, st: Progress, turnNumber: int,
                    fcfg: Filter.FilterConfig): (r: Result<Progress, string>)
    ensures r.Ok? ==> st.stats <= r.value.stats
    ensures r.Ok? ==> r.value.section - |r.value.stats| == st.section - |st.stats|
    ensures ReadFile(root, fileName) == Err(NotExist) ==>
      r == Err("cannot find '" + fileName + "' referenced in turn " + IntToString(turnNumber))
    ensures ReadFile(root, fileName).Err? ==> r.Err? && r.error == ExpandFile(root, fileName, turnNumber, st.section, fcfg).error
  {
    match ExpandFile(root, fileName, turnNumber, st.section, fcfg)
    case Err(e) => Err(e)
    case Ok(f) =>
      if f.text != "" then Ok(Progress(ReplaceFirst(st.text, token, f.text), st.stats + [f.stat], st.section + 1))
      else Ok(Progress(ReplaceFirst(st.text, token, ""), st.stats, st.section))
  }

  /** One reference of the loop, by the kind of its path. */
  function Step(root: Node, ref: Ref, st: Progress, turnNumber: int, ecfg: Expand, fcfg: Filter.FilterConfig,
                glob: Matcher): (r: Result<Progress, string>)
    ensures r.Ok? ==> st.stats <= r.value.stats
    ensures r.Ok? && Numbered(st) ==> Numbered(r.value)
  {
    match Classify(ref.path)
    case DirRef(dirPath, force) => StepDirectory(root, Token(ref.path), dirPath, force, st, turnNumber, ecfg, fcfg, glob)
    case FileRef(fileName) => StepFile(root, Token(ref.path), fileName, st, turnNumber, fcfg)
  }

  /** The loop over the references: the first error ends it. */
  function Run(root: Node, refs: seq<Ref>, st: Progress, turnNumber: int, ecfg: Expand,
               fcfg: Filter.FilterConfig, glob: Matcher): (r: Result<Progress, string>)
    ensures r.Ok? ==> st.stats <= r.value.stats
    ensures r.Ok? && Numbered(st) ==> Numbered(r.value)
  {
    if |refs| == 0 then Ok(st)
    else
      match Step(root, refs[0], st, turnNumber, ecfg, fcfg, glob)
      case Err(e) => Err(e)
      case Ok(next) => Run(root, refs[1..], next, turnNumber, ecfg, fcfg, glob)
  }

  /** ExpandReferences on a file tree, with the expansion rules and filter
      settings the program loaded: a text without references comes back
      as it is, with no statistics. */
  function ExpandReferences(root: Node, content: string, turnNumber: int, ecfg: Expand,
                            fcfg: Filter.FilterConfig, glob: Matcher): (r: Result<Expanded, string>)
    ensures FindRefs(content) == [] ==> r == Ok(Expanded(content, []))
  {
    var refs := FindRefs(content);
    if |refs| == 0 then Ok(Expanded(content, []))
    else
      match Run(root, refs, Progress(content, [], 1), turnNumber, ecfg, fcfg, glob)
      case Err(e) => Err(e)
      case Ok(st) => Ok(Expanded(st.text, st.stats))
  }

  // ---------------------------------------------------------------------
  // Properties
  // ---------------------------------------------------------------------

  /** The loop ends at the first reference whose step fails: when the
      references `pre` before it all succeed, ending in `mid`, and the step
      for `ref` fails with `e`, the loop fails with `e` and the references
      `post` after it are never looked at. */
  lemma {:induction false} RunStopsAtError(root: Node, pre: seq<Ref>, ref: Ref, post: seq<Ref>, st: Progress,
                                           turnNumber: int, ecfg: Expand, fcfg: Filter.FilterConfig, glob: Matcher,
                                           mid: Progress, e: string)
    requires Run(root, pre, st, turnNumber, ecfg, fcfg, glob) == Ok(mid)
    requires Step(root, ref, mid, turnNumber, ecfg, fcfg, glob) == Err(e)
    ensures Run(root, pre + [ref] + post, st, turnNumber, ecfg, fcfg, glob) == Err(e)
    decreases |pre|
  {
    SplitAround(pre, ref, post);
    if pre == [] {
      assert mid == st;
      RunFirstFails(root, pre + [ref] + post, st, turnNumber, ecfg, fcfg, glob, e);
    } else {
      var first := RunPastFirst(root, pre, st, turnNumber, ecfg, fcfg, glob, mid);
      RunStopsAtError(root, pre[1..], ref, post, first, turnNumber, ecfg, fcfg, glob, mid, e);
      RunFirstSucceeds(root, pre + [ref] + post, st, turnNumber, ecfg, fcfg, glob, first);
    }
  }

  /** The head and tail of a sequence around one element. */
  lemma {:induction false} SplitAround<T>(a: seq<T>, x: T, b: seq<T>)
    ensures |a + [x] + b| > 0
    ensures a == [] ==> (a + [x] + b)[0] == x
    ensures a != [] ==> (a + [x] + b)[0] == a[0] && (a + [x] + b)[1..] == a[1..] + [x] + b
  {
    if a != [] {
      assert (a + [x] + b)[1..] == a[1..] + [x] + b;
    }
  }

  /** A failing first step is the loop's result. */
  lemma {:induction false} RunFirstFails(root: Node, refs: seq<Ref>, st: Progress, turnNumber: int, ecfg: Expand,
                                         fcfg: Filter.FilterConfig, glob: Matcher, e: string)
    requires |refs| > 0 && Step(root, refs[0], st, turnNumber, ecfg, fcfg, glob) == Err(e)
    ensures Run(root, refs, st, turnNumber, ecfg, fcfg, glob) == Err(e)
  {
  }

  /** A successful first step hands its progress on to the rest. */
  lemma {:induction false} RunFirstSucceeds(root: Node, refs: seq<Ref>, st: Progress, turnNumber: int, ecfg: Expand,
                                            fcfg: Filter.FilterConfig, glob: Matcher, first: Progress)
    requires |refs| > 0 && Step(root, refs[0], st, turnNumber, ecfg, fcfg, glob) == Ok(first)
    ensures Run(root, refs, st, turnNumber, ecfg, fcfg, glob) == Run(root, refs[1..], first, turnNumber, ecfg, fcfg, glob)
  {
  }

  /** A loop that succeeds has a successful first step, after which the
      rest of the references succeed. */
  lemma {:induction false} RunPastFirst(root: Node, refs: seq<Ref>, st: Progress, turnNumber: int, ecfg: Expand,
                                        fcfg: Filter.FilterConfig, glob: Matcher, mid: Progress)
    returns (first: Progress)
    requires |refs| > 0
    requires Run(root, refs, st, turnNumber, ecfg, fcfg, glob) == Ok(mid)
    ensures Step(root, refs[0], st, turnNumber, ecfg, fcfg, glob) == Ok(first)
    ensures Run(root, refs[1..], first, turnNumber, ecfg, fcfg, glob) == Ok(mid)
  {
    first := Step(root, refs[0], st, turnNumber, ecfg, fcfg, glob).value;
  }

  /** A turn whose first reference names a file that does not exist fails
      with that file's error, whatever the other references are. */
  lemma {:induction false} MissingFirstFileFails(root: Node, content: string, turnNumber: int, ecfg: Expand,
                                                 fcfg: Filter.FilterConfig, glob: Matcher, fileName: string)
    requires |FindRefs(content)| > 0 && Classify(FindRefs(content)[0].path) == FileRef(fileName)
    requires ReadFile(root, fileName) == Err(NotExist)
    ensures ExpandReferences(root, content, turnNumber, ecfg, fcfg, glob)
      == Err("cannot find '" + fileName + "' referenced in turn " + IntToString(turnNumber))
  {
  }

  /** A turn whose first reference names a directory that cannot be
      walked fails with the walk's error, wrapped with the directory. */
  lemma {:induction false} FailedFirstDirectoryFails(root: Node, content: string, turnNumber: int, ecfg: Expand,
                                                     fcfg: Filter.FilterConfig, glob: Matcher, dirPath: string, force: bool)
    requires |FindRefs(content)| > 0 && Classify(FindRefs(content)[0].path) == DirRef(dirPath, force)
    requires ExpandDirectory(root, dirPath, turnNumber, 1, ecfg, ecfg.recursive || force, 0, fcfg, glob).Err?
    ensures var r := ExpandReferences(root, content, turnNumber, ecfg, fcfg, glob);
      r.Err? && IsPrefix("failed to expand directory '" + dirPath + "': ", r.error)
  {
  }

  /** A text in which no token starts anywhere is returned unchanged,
      without statistics. */
  lemma {:induction false} NoTokensUnchanged(root: Node, content: string, turnNumber: int, ecfg: Expand,
                          fcfg: Filter.FilterConfig, glob: Matcher)
    requires forall j: nat :: j < |content| ==> MatchAt(content, j).None?
    ensures ExpandReferences(root, content, turnNumber, ecfg, fcfg, glob) == Ok(Expanded(content, []))
  {
    NoTokenNoRefs(content);
  }

  /** A binary file's token is removed: replaced by nothing, with no
      statistics and the section number unchanged. */
  lemma {:induction false} BinaryRefRemoved(root: Node, token: string, fileName: string, st: Progress, turnNumber: int,
                         fcfg: Filter.FilterConfig)
    requires ReadFile(root, fileName).Ok? && IsBinary(ReadFile(root, fileName).value)
    ensures StepFile(root, token, fileName, st, turnNumber, fcfg)
      == Ok(Progress(ReplaceFirst(st.text, token, ""), st.stats, st.section))
  {
  }

  /** A readable text file's token is replaced by its section, numbered
      with the current section number, and adds its statistics. */
  lemma {:induction false} FileRefExpanded(root: Node, token: string, fileName: string, st: Progress, turnNumber: int,
                        fcfg: Filter.FilterConfig)
    requires ReadFile(root, fileName).Ok? && !IsBinary(ReadFile(root, fileName).value)
    ensures var text := Filtered(ReadFile(root, fileName).value, fileName, fcfg);
      StepFile(root, token, fileName, st, turnNumber, fcfg)
        == Ok(Progress(ReplaceFirst(st.text, token, Section(turnNumber, st.section, fileName, text)),
                       st.stats + [StatOf(fileName, text)], st.section + 1))
  {
    var text := Filtered(ReadFile(root, fileName).value, fileName, fcfg);
    var section := Section(turnNumber, st.section, fileName, text);
    SectionNonEmpty(turnNumber, st.section, fileName, text);
    assert ExpandFile(root, fileName, turnNumber, st.section, fcfg) == Ok(FileSection(section, StatOf(fileName, text)));
    StepFileShown(root, token, fileName, st, turnNumber, fcfg, FileSection(section, StatOf(fileName, text)));
  }

  /** A file whose section is not empty replaces the token by it. */
  lemma {:induction false} StepFileShown(root: Node, token: string, fileName: string, st: Progress, turnNumber: int,
                      fcfg: Filter.FilterConfig, f: FileSection)
    requires ExpandFile(root, fileName, turnNumber, st.section, fcfg) == Ok(f) && f.text != ""
    ensures StepFile(root, token, fileName, st, turnNumber, fcfg)
      == Ok(Progress(ReplaceFirst(st.text, token, f.text), st.stats + [f.stat], st.section + 1))
  {
  }

  /** A directory reference adds exactly the statistics of the files its
      walk collects, and its token is replaced by their sections numbered
      from the current section number. */
  lemma {:induction false} DirRefShowsCollected(root: Node, token: string, dirPath: string, force: bool, st: Progress,
                             turnNumber: int, ecfg: Expand, fcfg: Filter.FilterConfig, glob: Matcher)
    requires StepDirectory(root, token, dirPath, force, st, turnNumber, ecfg, fcfg, glob).Ok?
    ensures StepDirectory(root, token, dirPath, force, st, turnNumber, ecfg, fcfg, glob)
      == Ok(Shown(st, token, Rendered(SectionOf(turnNumber), st.section,
                                      CollectTree(root, dirPath, ecfg, fcfg, glob, ecfg.recursive || force, 0))))
  {
    var x := ExpandDirectory(root, dirPath, turnNumber, st.section, ecfg, ecfg.recursive || force, 0, fcfg, glob);
    assert x.Ok?;
    WalkShowsCollected(root, dirPath, turnNumber, st.section, ecfg, ecfg.recursive || force, fcfg, glob, x.value);
  }

  /** A successful walk from depth 0 shows the files it collects. */
  lemma {:induction false} WalkShowsCollected(root: Node, dirPath: string, turnNumber: int, start: int, ecfg: Expand, recursive: bool,
                           fcfg: Filter.FilterConfig, glob: Matcher, x: Expanded)
    requires ExpandDirectory(root, dirPath, turnNumber, start, ecfg, recursive, 0, fcfg, glob) == Ok(x)
    ensures x == Rendered(SectionOf(turnNumber), start, CollectTree(root, dirPath, ecfg, fcfg, glob, recursive, 0))
  {
    ExpandDirectoryRenders(root, dirPath, turnNumber, start, ecfg, recursive, 0, fcfg, glob);
  }

  /** A "/**/" reference is a directory reference with recursion forced,
      so its walk collects the same files whatever the configuration's
      recursion flag. */
  lemma {:induction false} ForcedRecursion(root: Node, ref: Ref, st: Progress, turnNumber: int, ecfg: Expand,
                        fcfg: Filter.FilterConfig, glob: Matcher)
    requires IsSuffix("/**/", ref.path)
    ensures var d := ref.path[..|ref.path| - 4];
      Step(root, ref, st, turnNumber, ecfg, fcfg, glob)
        == StepDirectory(root, Token(ref.path), d, true, st, turnNumber, ecfg, fcfg, glob)
      && (Step(root, ref, st, turnNumber, ecfg, fcfg, glob).Ok? ==>
            Step(root, ref, st, turnNumber, ecfg, fcfg, glob).value.stats
              == st.stats + Stats(CollectTree(root, d, ecfg, fcfg, glob, true, 0)))
  {
    var d := ref.path[..|ref.path| - 4];
    if StepDirectory(root, Token(ref.path), d, true, st, turnNumber, ecfg, fcfg, glob).Ok? {
      DirRefShowsCollected(root, Token(ref.path), d, true, st, turnNumber, ecfg, fcfg, glob);
    }
  }

  /** A successful expansion numbers its sections from 1, one per
      statistic: the next free number is one past the statistics. */
  lemma {:induction false} ExpansionNumbered(root: Node, content: string, turnNumber: int, ecfg: Expand, fcfg: Filter.FilterConfig,
                          glob: Matcher)
    requires FindRefs(content) != []
    ensures var r := Run(root, FindRefs(content), Progress(content, [], 1), turnNumber, ecfg, fcfg, glob);
      r.Ok? ==> (Numbered(r.value) && ExpandReferences(root, content, turnNumber, ecfg, fcfg, glob)
                                       == Ok(Expanded(r.value.text, r.value.stats)))
  {
  }
}

=== FILE: rendering.dfy ===
/** What a directory walk shows: each file it takes becomes a numbered
    section, the sections are joined by blank lines, and each file adds
    its statistics.  The way one section is written is a parameter (a
    renderer), so the facts here hold for every turn's headings. */
module Rendering {
  import opened Text

  /** FileStat: the file's path and its rough token count. */
  datatype FileStat = FileStat(file: string, tokens: int)

  /** A file's statistics: a quarter of its filtered length, rounded down. */
  function StatOf(path: string, text: string): (s: FileStat)
    ensures s.file == path && 0 <= s.tokens && 4 * s.tokens <= |text| < 4 * s.tokens + 4
  {
    FileStat(path, |text| / 4)
  }

  /** A file a walk takes: its path and its filtered text. */
  datatype Included = Included(path: string, text: string)

  /** A way of writing a file's section given its number. */
  type Renderer = (int, Included) -> string

  /** The sections and statistics a directory level gathers. */
  datatype Parts = Parts(sections: seq<string>, stats: seq<FileStat>)

  /** A walk's text and statistics. */
  datatype Expanded = Expanded(text: string, stats: seq<FileStat>)

  const NoExpansion := Expanded("", [])

  /** The sections of a list of files numbered from `n`. */
  function Sections(render: Renderer, n: int, fs: seq<Included>): (r: seq<string>)
    decreases |fs|
    ensures |r| == |fs|
  {
    if |fs| == 0 then [] else [render(n, fs[0])] + Sections(render, n + 1, fs[1..])
  }

  /** The statistics of a list of files. */
  function Stats(fs: seq<Included>): (r: seq<FileStat>)
    ensures |r| == |fs|
  {
    if |fs| == 0 then [] else [StatOf(fs[0].path, fs[0].text)] + Stats(fs[1..])
  }

  /** The text and statistics of a list of files numbered from `n`. */
  function Rendered(render: Renderer, n: int, fs: seq<Included>): Expanded {
    Expanded(Join(Sections(render, n, fs), "\n\n"), Stats(fs))
  }

  /** Gathered parts show exactly the files `fs`, numbered from `n`. */
  predicate Renders(p: Parts, render: Renderer, n: int, fs: seq<Included>) {
    && Join(p.sections, "\n\n") == Join(Sections(render, n, fs), "\n\n")
    && p.stats == Stats(fs)
    && (|p.sections| == 0 <==> |fs| == 0)
  }

  /** Parts holding exactly the sections and statistics of `fs` show `fs`. */
  lemma {:induction false} RendersSections(p: Parts, render: Renderer, n: int, fs: seq<Included>)
    requires p.sections == Sections(render, n, fs) && p.stats == Stats(fs)
    ensures Renders(p, render, n, fs)
  {
  }

  /** Exactly the sections and statistics of `a` from `n`, followed by
      parts showing `b` from the next number, show `a + b` from `n`. */
  lemma {:induction false} RendersAfter(p: Parts, q: Parts, render: Renderer, n: int, a: seq<Included>, b: seq<Included>)
    requires p.sections == Sections(render, n, a) && p.stats == Stats(a)
    requires Renders(q, render, n + |p.stats|, b)
    ensures Renders(Parts(p.sections + q.sections, p.stats + q.stats), render, n, a + b)
  {
    RendersSections(p, render, n, a);
    RendersAppend(p, q, render, n, a, b);
  }

  /** Numbering a concatenation numbers the second list on from the first. */
  lemma {:induction false} SectionsAppend(render: Renderer, n: int, a: seq<Included>, b: seq<Included>)
    decreases |a|
    ensures Sections(render, n, a + b) == Sections(render, n, a) + Sections(render, n + |a|, b)
    ensures Stats(a + b) == Stats(a) + Stats(b)
  {
    if |a| == 0 {
      assert a + b == b;
    } else {
      assert (a + b)[1..] == a[1..] + b;
      SectionsAppend(render, n + 1, a[1..], b);
    }
  }

  /** The first file gets number `n`, the rest are numbered from `n + 1`. */
  lemma {:induction false} SectionsCons(render: Renderer, n: int, f: Included, rest: seq<Included>)
    ensures Sections(render, n, [f] + rest) == [render(n, f)] + Sections(render, n + 1, rest)
    ensures Stats([f] + rest) == [StatOf(f.path, f.text)] + Stats(rest)
  {
    assert ([f] + rest)[1..] == rest;
  }

  /** Parts showing `a` from `n` followed by parts showing `b` from
      `n + |a|` show `a + b` from `n`. */
  lemma {:induction false} RendersAppend(p: Parts, q: Parts, render: Renderer, n: int, a: seq<Included>, b: seq<Included>)
    requires Renders(p, render, n, a) && Renders(q, render, n + |a|, b)
    ensures Renders(Parts(p.sections + q.sections, p.stats + q.stats), render, n, a + b)
  {
    SectionsAppend(render, n, a, b);
    var sa := Sections(render, n, a);
    var sb := Sections(render, n + |a|, b);
    if |a| > 0 && |b| > 0 {
      JoinAppend(p.sections, q.sections, "\n\n");
      JoinAppend(sa, sb, "\n\n");
    } else if |a| == 0 {
      assert p.sections + q.sections == q.sections;
      assert sa + sb == sb;
    } else {
      assert p.sections + q.sections == p.sections;
      assert sa + sb == sa;
    }
  }

  /** No section is empty. */
  ghost predicate NonEmptySections(render: Renderer) {
    forall n: int, f: Included :: render(n, f) != ""
  }

  /** Rendered text is empty exactly when there are no files. */
  lemma {:induction false} RenderedEmpty(render: Renderer, n: int, fs: seq<Included>)
    requires NonEmptySections(render)
    ensures Rendered(render, n, fs).text == "" <==> fs == []
    ensures |Rendered(render, n, fs).stats| == |fs|
  {
    if fs != [] {
      var s := Sections(render, n, fs);
      assert s[0] == render(n, fs[0]);
      if |s| > 1 {
        assert Join(s, "\n\n") == s[0] + "\n\n" + Join(s[1..], "\n\n");
      }
    }
  }
}

=== FILE: roundtrip.dfy ===
/** What the session writer leaves in a document, read back by the parser:
    a replaced Human turn reads as written, and an appended AI turn leaves
    the last Human turn as it was. */
module RoundTrip {
  import opened Text
  import opened Session
  import opened Parser
  import opened Wrappers

  /** No line of a text without "## [" starts a heading. */
  lemma {:induction false} NoLineStartsHeading(t: string)
    requires !Contains(t, "## [")
    ensures !Contains("\n" + t, NextHeading)
  {
    assert NextHeading == "\n" + "## [";
    forall k | OccursAt("\n" + t, NextHeading, k)
      ensures false
    {
      OccursSplit("\n" + t, "\n", "## [", k);
      OccursInRight("\n", t, "## [", k);
      ContainsWitness(t, "## [", k);
    }
  }

  /** The heading of a replaced turn is a match whose group is the turn
      number's digits. */
  lemma {:induction false} HeadingMatch(r: string, n: int, p: nat)
    requires 0 <= n && OccursAt(r, HumanHeader(n), p)
    ensures HumanMatchAt(r, p) == Some(p + 4 + |IntToString(n)|)
    ensures r[p + 4..p + 4 + |IntToString(n)|] == IntToString(n)
    ensures |HumanHeader(n)| == 4 + |IntToString(n)| + 7
  {
    HumanMatchIff(r, p, IntToString(n));
    assert OccursAt(r, "## [" + IntToString(n) + "] Human", p);
  }

  /** After the replacement no match starts after the heading's. */
  lemma {:induction false} NoMatchAfter(content: string, h: string, t: string, p: nat, e: nat, r: string, j: nat)
    requires Layout(r, content, h, t, p, e) && p + |h| <= e
    requires HumanMatchAt(r, p).Some? && HumanMatchAt(r, p).value + 7 == p + |h|
    requires forall k :: p < k <= |content| ==> HumanMatchAt(content, k).None?
    requires !Contains(t, "## [")
    requires p < j <= |r|
    ensures HumanMatchAt(r, j).None?
  {
    var q := p + |h| + 2 + |t|;
    if j < p + |h| {
      MatchesDoNotOverlap(r, p, j);
    } else if j <= q {
      NoMatchInBody(content, h, t, p, e, r, j);
    } else {
      NoMatchInKept(content, h, t, p, e, r, j);
    }
  }

  lemma {:induction false} NoMatchInBody(content: string, h: string, t: string, p: nat, e: nat, r: string, j: nat)
    requires Layout(r, content, h, t, p, e)
    requires !Contains(t, "## [")
    requires p + |h| <= j <= p + |h| + 2 + |t|
    ensures !OccursAt(r, "## [", j)
    ensures HumanMatchAt(r, j).None?
  {
    LayoutChars(r, content, h, t, p, e);
    var q := p + |h| + 2 + |t|;
    if OccursAt(r, "## [", j) {
      if j < p + |h| + 2 {
        OccurrenceChar(r, "## [", j, j);
      } else {
        if j + 4 > q {
          OccurrenceChar(r, "## [", j, q);
        }
        OccursInSlice(r, "## [", j, p + |h| + 2, q);
        ContainsWitness(t, "## [", j - (p + |h| + 2));
      }
    }
  }

  lemma {:induction false} NoMatchInKept(content: string, h: string, t: string, p: nat, e: nat, r: string, j: nat)
    requires Layout(r, content, h, t, p, e) && p < e
    requires forall k :: p < k <= |content| ==> HumanMatchAt(content, k).None?
    requires p + |h| + 2 + |t| < j <= |r|
    ensures HumanMatchAt(r, j).None?
  {
    var q := p + |h| + 2 + |t|;
    var m := HumanMatchAt(r, j);
    if m.Some? {
      var g := r[j + 4..m.value];
      HumanMatchIff(r, j, g);
      OccursShift(r, content, q + 1, e, "## [" + g + "] Human", j);
      HumanMatchIff(content, e + j - (q + 1), g);
    }
  }

  /** Replacing the last Human turn and reading the document back gives
      the turn's number and the trimmed expansion, when the heading is the
      document's last Human heading, the number is a 64-bit `int` that is
      not negative, and the expansion holds no "## [". */
  lemma {:induction false} ReplaceThenFind(content: string, n: int, expanded: string)
    requires 0 <= n <= MaxInt
    requires Contains(content, HumanHeader(n))
    requires LastHumanMatch(content, |content|) == LastIndexOf(content, HumanHeader(n))
    requires !Contains(expanded, "## [")
    ensures FindLastHumanTurn(ReplaceLastHumanTurn(content, n, expanded)) == Turn(n, TrimSpace(expanded))
  {
    var h := HumanHeader(n);
    var t := TrimSpace(expanded);
    var p := LastIndexOf(content, h);
    var e := SectionEnd(content, p + |h|);
    var r := ReplaceLastHumanTurn(content, n, expanded);
    ReplacedIsLayout(content, n, expanded, p, e);
    TrimSpaceKeepsAbsent(expanded, "## [");
    var d := p + 4 + |IntToString(n)|;
    LayoutParts(content, n, t, p, e, r, d);
    ReadTurn(r, p, d, n, t);
  }

  /** A document laid out as a replaced turn has its last match at the
      replaced heading, with the turn number's digits and the turn's text. */
  lemma {:induction false} LayoutParts(content: string, n: int, t: string, p: nat, e: nat, r: string, d: nat)
    requires 0 <= n && d == p + 4 + |IntToString(n)|
    requires Layout(r, content, HumanHeader(n), t, p, e) && p + |HumanHeader(n)| <= e
    requires e < |content| ==> OccursAt(content, NextHeading, e)
    requires forall k :: p < k <= |content| ==> HumanMatchAt(content, k).None?
    requires !Contains(t, "## [") && Trimmed(t)
    ensures p <= |r| && LastHumanMatch(r, |r|) == p && HumanMatchAt(r, p) == Some(d)
      && r[p + 4..d] == IntToString(n) && SectionText(r, d + 7) == t
  {
    var h := HumanHeader(n);
    assert r[p..p + |h|] == h;
    HeadingMatch(r, n, p);
    forall j | p < j <= |r|
      ensures HumanMatchAt(r, j).None?
    {
      NoMatchAfter(content, h, t, p, e, r, j);
    }
    LastHumanMatchAt(r, p);
    NoLineStartsHeading(t);
    TextOfLayout(content, h, t, p, e, r);
  }

  /** The last match, its digits and its text make the turn read back. */
  lemma {:induction false} ReadTurn(r: string, p: nat, d: nat, n: int, t: string)
    requires p <= |r| && LastHumanMatch(r, |r|) == p && HumanMatchAt(r, p) == Some(d)
    requires 0 <= n <= MaxInt && r[p + 4..d] == IntToString(n) && SectionText(r, d + 7) == t
    ensures FindLastHumanTurn(r) == Turn(n, t)
  {
    LastTurnAt(r, p, d);
    ParseWritten(n);
  }

  /** The text read back from a replaced turn is the trimmed expansion. */
  lemma {:induction false} TextOfLayout(content: string, h: string, t: string, p: nat, e: nat, r: string)
    requires Layout(r, content, h, t, p, e)
    requires e < |content| ==> OccursAt(content, NextHeading, e)
    requires !Contains("\n" + t, NextHeading) && Trimmed(t)
    ensures SectionText(r, p + |h|) == t
  {
    var q := p + |h| + 2 + |t|;
    ReplacedNext(content, h, t, p, e, r);
    assert r[p + |h|..q + 1] == "\n\n" + t + "\n";
    TrimSpacePadded("\n\n", t, "\n");
  }

  // ---------------------------------------------------------------------
  // Appending an AI turn and reading the document back

  /** No character of a match is a line end. */
  lemma {:induction false} MatchHasNoLineEnd(s: string, j: nat, k: nat)
    requires j <= |s| && HumanMatchAt(s, j).Some?
    requires j <= k < HumanMatchAt(s, j).value + 7
    ensures s[k] != '\n'
  {
    var d := HumanMatchAt(s, j).value;
    if j + 4 <= k < d {
      assert IsDigit(s[k]);
    }
  }

  /** Text appended after a line end leaves the matches in the original
      text as they were. */
  lemma {:induction false} MatchBeforeAppend(content: string, x: string, j: nat)
    requires |x| > 0 && x[0] == '\n' && j <= |content|
    ensures HumanMatchAt(content + x, j) == HumanMatchAt(content, j)
  {
    var s := content + x;
    var m := HumanMatchAt(content, j);
    if m.Some? {
      var g := content[j + 4..m.value];
      MatchOccurs(content, j);
      OccursInLeft(content, x, "## [" + g + "] Human", j);
      HumanMatchIff(s, j, g);
    }
    var ms := HumanMatchAt(s, j);
    if ms.Some? {
      var g := s[j + 4..ms.value];
      if ms.value + 7 > |content| {
        MatchHasNoLineEnd(s, j, |content|);
      }
      MatchOccurs(s, j);
      OccursInLeft(content, x, "## [" + g + "] Human", j);
      HumanMatchIff(content, j, g);
    }
  }

  /** The only '#' characters of an AI heading line are those of "##". */
  lemma {:induction false} HashesOfHeadingLine(n: int, i: nat)
    requires i < |AIHeadingLine(n)|
    ensures AIHeadingLine(n)[i] == '#' ==> i == 1 || i == 2
  {
    var digits := IntToString(n);
    IntToStringNoChar(n, '#');
    assert AIHeadingLine(n) == "\n## [" + digits + "] AI\n";
    if 5 <= i < 5 + |digits| {
      assert AIHeadingLine(n)[i] == digits[i - 5];
    }
  }

  /** The only '#' characters of a response fence are the response's. */
  lemma {:induction false} HashesOfFence(response: string, i: nat)
    requires i < |ResponseFence(response)|
    ensures ResponseFence(response)[i] == '#' ==> 14 <= i < 14 + |TrimSpace(response)|
  {
    var t := TrimSpace(response);
    assert ResponseFence(response) == "\n````markdown\n" + t + "\n````\n";
  }

  /** The heading line of an AI turn is no Human match. */
  lemma {:induction false} AIHeadingNoMatch(s: string, j: nat, n: int)
    requires j >= 1 && j - 1 + |AIHeadingLine(n)| <= |s|
    requires s[j - 1..j - 1 + |AIHeadingLine(n)|] == AIHeadingLine(n)
    ensures HumanMatchAt(s, j).None?
  {
    var digits := IntToString(n);
    var a := AIHeadingLine(n);
    var L := |digits|;
    assert a == ("\n## [" + digits) + "] AI\n";
    OccursSplit(s, "\n## [" + digits, "] AI\n", j - 1);
    OccursSplit(s, "\n## [", digits, j - 1);
    OccurrenceChar(s, digits, j + 4, j + 4);
    if n < 0 {
      assert DigitRun(s, j + 4) == j + 4;
    } else {
      OccurrenceChar(s, "] AI\n", j + 4 + L, j + 4 + L);
      OccurrenceChar(s, "] AI\n", j + 4 + L, j + 4 + L + 2);
      DigitsThenBracket(s, j + 4, digits);
      Mismatch(s, "] Human", j + 4 + L, j + 4 + L + 2);
    }
  }

  /** A run of digits closed by ']' is exactly what the digit scan reads. */
  lemma {:induction false} DigitsThenBracket(s: string, k: nat, digits: string)
    requires k + |digits| < |s| && s[k..k + |digits|] == digits
    requires AllDigits(digits) && s[k + |digits|] == ']'
    ensures DigitRun(s, k) == k + |digits|
  {
    assert forall q :: k <= q < k + |digits| ==> s[q] == digits[q - k];
    DigitRunAt(s, k, k + |digits|);
  }

  /** Inside the fenced response "## [" occurs only where it occurs in the
      response. */
  lemma {:induction false} FenceNoMatch(r: string, response: string, B: nat, j: nat)
    requires B + |ResponseFence(response)| == |r| && r[B..] == ResponseFence(response)
    requires !Contains(TrimSpace(response), "## [")
    requires B + 14 <= j < B + 14 + |TrimSpace(response)|
    ensures HumanMatchAt(r, j).None?
  {
    var t := TrimSpace(response);
    var b := ResponseFence(response);
    var q := B + 14 + |t|;
    assert b == ("\n````markdown\n" + t) + "\n````\n";
    assert OccursAt(r, b, B);
    OccursSplit(r, "\n````markdown\n" + t, "\n````\n", B);
    OccursSplit(r, "\n````markdown\n", t, B);
    OccurrenceChar(r, "\n````\n", q, q);
    if HumanMatchAt(r, j).Some? {
      MatchStart(r, j);
      OccurrenceAvoids(r, "## [", j, q);
      OccursInSlice(r, "## [", j, B + 14, q);
      ContainsWitness(t, "## [", j - (B + 14));
    }
  }

  /** No match starts in the heading line of an appended AI turn. */
  lemma {:induction false} HeadingLineNoMatch(r: string, A: nat, n: int, j: nat)
    requires OccursAt(r, AIHeadingLine(n), A)
    requires A < j < A + |AIHeadingLine(n)|
    ensures HumanMatchAt(r, j).None?
  {
    var a := AIHeadingLine(n);
    OccurrenceChar(r, a, A, j);
    HashesOfHeadingLine(n, j - A);
    if j == A + 1 {
      AIHeadingNoMatch(r, j, n);
    } else if j == A + 2 {
      OccurrenceChar(r, a, A, j + 1);
      assert a[3] == ' ';
    }
  }

  /** No match starts in the response fence of an appended AI turn. */
  lemma {:induction false} FenceSectionNoMatch(r: string, response: string, j: nat)
    requires IsSuffix(ResponseFence(response), r)
    requires !Contains(TrimSpace(response), "## [")
    requires |r| - |ResponseFence(response)| <= j <= |r|
    ensures HumanMatchAt(r, j).None?
  {
    var b := ResponseFence(response);
    var B := |r| - |b|;
    if j < |r| {
      assert r[j] == r[B..][j - B] == b[j - B];
      HashesOfFence(response, j - B);
      if B + 14 <= j < B + 14 + |TrimSpace(response)| {
        FenceNoMatch(r, response, B, j);
      } else if j + 1 < |r| {
        assert r[j + 1] == r[B..][j + 1 - B] == b[j + 1 - B];
        HashesOfFence(response, j + 1 - B);
      }
    }
  }

  /** No match starts in the appended AI section. */
  lemma {:induction false} NoMatchInAISection(content: string, n: int, response: string, j: nat)
    requires !Contains(TrimSpace(response), "## [")
    requires |content| < j <= |AppendAIResponse(content, n, response)|
    ensures HumanMatchAt(AppendAIResponse(content, n, response), j).None?
  {
    var r := AppendAIResponse(content, n, response);
    if j < |content| + |AIHeadingLine(n)| {
      HeadingLineNoMatch(r, |content|, n, j);
    } else {
      FenceSectionNoMatch(r, response, j);
    }
  }

  /** Every match of the document with an AI turn appended is a match of
      the original, at the same place. */
  lemma {:induction false} AppendedMatches(content: string, n: int, response: string)
    requires !Contains(TrimSpace(response), "## [")
    ensures var r := AppendAIResponse(content, n, response);
      forall j :: 0 <= j <= |r| ==>
        HumanMatchAt(r, j) == if j <= |content| then HumanMatchAt(content, j) else None
  {
    var r := AppendAIResponse(content, n, response);
    var x := AIHeadingLine(n) + ResponseFence(response);
    assert r == content + x;
    assert x[0] == '\n';
    forall j | 0 <= j <= |r|
      ensures HumanMatchAt(r, j) == if j <= |content| then HumanMatchAt(content, j) else None
    {
      if j <= |content| {
        MatchBeforeAppend(content, x, j);
      } else {
        NoMatchInAISection(content, n, response, j);
      }
    }
  }

  /** Text starting with "\n## [" appended after the original ends the
      original's last turn where the original ended, and leaves earlier
      turn ends where they were. */
  lemma {:induction false} SectionEndAppend(content: string, x: string, from: nat)
    requires IsPrefix(NextHeading, x) && from <= |content|
    ensures SectionEnd(content + x, from) == SectionEnd(content, from)
  {
    var s := content + x;
    var e := SectionEnd(content, from);
    assert x[..5] == NextHeading;
    if e < |content| {
      OccursInLeft(content, x, NextHeading, e);
    } else {
      OccursInRight(content, x, NextHeading, 0);
    }
    forall k | from <= k < e
      ensures !OccursAt(s, NextHeading, k)
    {
      if k + 5 <= |content| {
        OccursInLeft(content, x, NextHeading, k);
      } else if OccursAt(s, NextHeading, k) {
        OccurrenceChar(s, NextHeading, k, |content|);
      }
    }
    SectionEndAt(s, from, e);
  }

  /** Appending an AI turn leaves the last Human turn as it reads, when the
      response holds no "## [". */
  lemma {:induction false} AppendThenFind(content: string, n: int, response: string)
    requires !Contains(response, "## [")
    ensures FindLastHumanTurn(AppendAIResponse(content, n, response)) == FindLastHumanTurn(content)
  {
    var r := AppendAIResponse(content, n, response);
    TrimSpaceKeepsAbsent(response, "## [");
    AppendedMatches(content, n, response);
    LastMatchAfterAppend(content, r);
    var m := LastHumanMatch(content, |content|);
    if m >= 0 {
      var d := HumanMatchAt(content, m).value;
      PartsAfterAppend(content, n, response, m, d);
      SameTurnAt(content, r, m, d);
    }
  }

  /** The digits and the text of a turn of the original read the same once
      an AI turn is appended. */
  lemma {:induction false} PartsAfterAppend(content: string, n: int, response: string, m: nat, d: nat)
    requires m + 4 <= d && d + 7 <= |content|
    ensures var r := AppendAIResponse(content, n, response);
      r[m + 4..d] == content[m + 4..d]
      && r[d + 7..SectionEnd(r, d + 7)] == content[d + 7..SectionEnd(content, d + 7)]
  {
    var r := AppendAIResponse(content, n, response);
    OccursSplit(r, NextHeading + IntToString(n), "] AI\n", |content|);
    OccursSplit(r, NextHeading, IntToString(n), |content|);
    PrefixSlice(content, r, m + 4, d);
    TextAfterAppend(content, r, d + 7);
  }

  /** Text appended after a line end that adds no match leaves the last
      match where it was. */
  lemma {:induction false} LastMatchAfterAppend(content: string, r: string)
    requires |content| <= |r|
    requires forall j :: 0 <= j <= |r| ==>
      HumanMatchAt(r, j) == if j <= |content| then HumanMatchAt(content, j) else None
    ensures LastHumanMatch(r, |r|) == LastHumanMatch(content, |content|)
    ensures LastHumanMatch(content, |content|) >= 0 ==>
      HumanMatchAt(r, LastHumanMatch(content, |content|)) == HumanMatchAt(content, LastHumanMatch(content, |content|))
  {
    var m := LastHumanMatch(content, |content|);
    if m >= 0 {
      LastHumanMatchAt(r, m);
    }
  }

  /** Two documents whose last matches sit at the same place with the same
      digits and the same text read as the same last Human turn. */
  lemma {:induction false} SameTurnAt(content: string, r: string, m: nat, d: nat)
    requires LastHumanMatch(r, |r|) == m == LastHumanMatch(content, |content|)
    requires HumanMatchAt(r, m) == Some(d) == HumanMatchAt(content, m)
    requires r[m + 4..d] == content[m + 4..d]
    requires r[d + 7..SectionEnd(r, d + 7)] == content[d + 7..SectionEnd(content, d + 7)]
    ensures FindLastHumanTurn(r) == FindLastHumanTurn(content)
  {
    LastTurnAt(content, m, d);
    LastTurnAt(r, m, d);
  }

  /** A turn of the original reads the same once a heading is appended. */
  lemma {:induction false} TextAfterAppend(content: string, r: string, start: nat)
    requires IsPrefix(content, r) && OccursAt(r, NextHeading, |content|)
    requires start <= |content|
    ensures r[start..SectionEnd(r, start)] == content[start..SectionEnd(content, start)]
  {
    var x := r[|content|..];
    assert r == content + x;
    assert x[..5] == NextHeading;
    SectionEndAppend(content, x, start);
    PrefixSlice(content, r, start, SectionEnd(content, start));
  }

  lemma {:induction false} PrefixSlice(a: string, b: string, i: nat, j: nat)
    requires IsPrefix(a, b) && i <= j <= |a|
    ensures b[i..j] == a[i..j]
  {
    assert forall k :: 0 <= k < j - i ==> b[i..j][k] == b[..|a|][i + k] == a[i..j][k];
  }
}

=== FILE: selection.dfy ===
/** Which directory entries a directory expansion takes: subdirectories not
    excluded by name, and files that pass the exclusion rules and match an
    included extension or name pattern.  Go's `filepath.Match` is a
    parameter: `glob(pattern, name)` says whether the glob matches, a
    malformed pattern counting as no match. */
module Selection {
  import opened Text
  import opened Paths
  import opened Configuration

  type Matcher = (string, string) -> bool

  /** A subdirectory name listed among the excluded directories. */
  predicate ExcludedDirectory(dirName: string, ecfg: Expand) {
    dirName in ecfg.excludes.directories
  }

  /** isExcludedDirectory, as the loop over the excluded names. */
  method IsExcludedDirectory(dirName: string, ecfg: Expand) returns (r: bool)
    ensures r <==> ExcludedDirectory(dirName, ecfg)
  {
    var dirs := ecfg.excludes.directories;
    for i := 0 to |dirs|
      invariant dirName !in dirs[..i]
    {
      if dirName == dirs[i] {
        return true;
      }
    }
    assert dirs[..|dirs|] == dirs;
    return false;
  }

  /** Some '/'-separated element of the path is an excluded directory. */
  predicate InExcludedDirectory(filePath: string, ecfg: Expand) {
    exists p :: p in Split(filePath, '/') && p in ecfg.excludes.directories
  }

  /** Some exclude pattern matches the whole path or the base name. */
  predicate ExcludedByPattern(fileName: string, filePath: string, ecfg: Expand, glob: Matcher) {
    exists pat :: pat in ecfg.excludes.patterns && (glob(pat, filePath) || glob(pat, fileName))
  }

  /** The extension without its dot. */
  function ExtName(fileName: string): (e: string)
    ensures Ext(fileName) == "" ==> e == ""
    ensures Ext(fileName) != "" ==> Ext(fileName) == "." + e
  {
    var x := Ext(fileName);
    if x == "" then "" else x[1..]
  }

  /** A non-empty extension equal, ignoring ASCII case, to an included one. */
  predicate IncludedExtension(fileName: string, ecfg: Expand) {
    ExtName(fileName) != ""
    && exists x :: x in ecfg.includes.extensions && EqualFold(ExtName(fileName), x)
  }

  /** The base name matches an include pattern. */
  predicate IncludedByPattern(fileName: string, ecfg: Expand, glob: Matcher) {
    exists pat :: pat in ecfg.includes.patterns && glob(pat, fileName)
  }

  /** The file is taken: no excluded directory on its path, no exclude
      pattern matching, and an included extension or name pattern. */
  predicate IncludedFile(fileName: string, filePath: string, ecfg: Expand, glob: Matcher) {
    && !InExcludedDirectory(filePath, ecfg)
    && !ExcludedByPattern(fileName, filePath, ecfg, glob)
    && (IncludedExtension(fileName, ecfg) || IncludedByPattern(fileName, ecfg, glob))
  }

  /** The loop over excluded directories and path elements. */
  method AnyElementExcluded(parts: seq<string>, dirs: seq<string>) returns (r: bool)
    ensures r <==> exists p :: p in parts && p in dirs
  {
    for d := 0 to |dirs|
      invariant forall p :: p in parts ==> p !in dirs[..d]
    {
      for k := 0 to |parts|
        invariant dirs[d] !in parts[..k]
      {
        if parts[k] == dirs[d] {
          assert parts[k] in parts && parts[k] in dirs;
          return true;
        }
      }
      assert parts[..|parts|] == parts;
    }
    assert dirs[..|dirs|] == dirs;
    return false;
  }

  /** The loop over exclude patterns, tried on the path, then the name. */
  method AnyPatternExcludes(fileName: string, filePath: string, excl: seq<string>, glob: Matcher)
    returns (r: bool)
    ensures r <==> exists pat :: pat in excl && (glob(pat, filePath) || glob(pat, fileName))
  {
    for i := 0 to |excl|
      invariant forall pat :: pat in excl[..i] ==> !glob(pat, filePath) && !glob(pat, fileName)
    {
      if glob(excl[i], filePath) || glob(excl[i], fileName) {
        assert excl[i] in excl;
        return true;
      }
    }
    assert excl[..|excl|] == excl;
    return false;
  }

  /** The loop over included extensions. */
  method AnyExtensionMatches(ext: string, exts: seq<string>) returns (r: bool)
    ensures r <==> exists x :: x in exts && EqualFold(ext, x)
  {
    for i := 0 to |exts|
      invariant forall x :: x in exts[..i] ==> !EqualFold(ext, x)
    {
      if EqualFold(ext, exts[i]) {
        assert exts[i] in exts;
        return true;
      }
    }
    assert exts[..|exts|] == exts;
    return false;
  }

  /** The loop over include patterns, tried on the name. */
  method AnyPatternIncludes(fileName: string, pats: seq<string>, glob: Matcher) returns (r: bool)
    ensures r <==> exists pat :: pat in pats && glob(pat, fileName)
  {
    for i := 0 to |pats|
      invariant forall pat :: pat in pats[..i] ==> !glob(pat, fileName)
    {
      if glob(pats[i], fileName) {
        assert pats[i] in pats;
        return true;
      }
    }
    assert pats[..|pats|] == pats;
    return false;
  }

  /** shouldIncludeFile, as the program's four loops in order: excluded
      directories on the path, exclude patterns on the path and the base
      name, included extensions, include patterns. */
  method ShouldIncludeFile(fileName: string, filePath: string, ecfg: Expand, glob: Matcher)
    returns (r: bool)
    ensures r <==> IncludedFile(fileName, filePath, ecfg, glob)
  {
    var inExcluded := AnyElementExcluded(Split(filePath, '/'), ecfg.excludes.directories);
    if inExcluded {
      return false;
    }
    var excluded := AnyPatternExcludes(fileName, filePath, ecfg.excludes.patterns, glob);
    if excluded {
      return false;
    }
    var ext := ExtName(fileName);
    if ext != "" {
      var byExt := AnyExtensionMatches(ext, ecfg.includes.extensions);
      if byExt {
        return true;
      }
    }
    r := AnyPatternIncludes(fileName, ecfg.includes.patterns, glob);
  }

  /** A file under an excluded directory is never taken, whatever its
      extension. */
  lemma {:induction false} ExcludedDirectoryWins(fileName: string, filePath: string, ecfg: Expand, glob: Matcher, i: int)
    requires 0 <= i < |Split(filePath, '/')| && Split(filePath, '/')[i] in ecfg.excludes.directories
    ensures !IncludedFile(fileName, filePath, ecfg, glob)
  {
    assert Split(filePath, '/')[i] in Split(filePath, '/');
  }
}

=== FILE: session.dfy ===
/** The session document's text transforms: replacing the last Human turn
    with its expanded text, and appending an AI turn.  Turns are headed by
    lines `## [N] Human` and `## [N] AI`. */
module Session {
  import opened Text

  /** The text that starts every turn heading after the first line. */
  const NextHeading := "\n## ["

  /** The heading of Human turn `n`. */
  function HumanHeader(n: int): (h: string)
    ensures IsPrefix("## [", h) && '\n' !in h
  {
    IntToStringNoChar(n, '\n');
    "## [" + IntToString(n) + "] Human"
  }

  /** End of the turn whose text starts at `from`: the first "\n## [" at
      or after `from`, or the end of the document. */
  function SectionEnd(s: string, from: nat): (e: nat)
    requires from <= |s|
    ensures from <= e <= |s|
    ensures e < |s| ==> OccursAt(s, NextHeading, e)
    ensures forall k :: from <= k < e ==> !OccursAt(s, NextHeading, k)
  {
    var i := IndexFrom(s, NextHeading, from);
    if i < 0 then |s| else i
  }

  /** The turn end is the first heading start at or after `from`. */
  lemma {:induction false} SectionEndAt(s: string, from: nat, e: nat)
    requires from <= e <= |s|
    requires e < |s| ==> OccursAt(s, NextHeading, e)
    requires forall k :: from <= k < e ==> !OccursAt(s, NextHeading, k)
    ensures SectionEnd(s, from) == e
  {
  }

  /** strings.Index of "\n## [" in the text after `from`, as an index of
      the whole text. */
  lemma {:induction false} NextHeadingOfSuffix(s: string, from: nat, next: int)
    requires from <= |s| && next == IndexOf(s[from..], NextHeading)
    ensures next == -1 ==> SectionEnd(s, from) == |s|
    ensures next != -1 ==> SectionEnd(s, from) == from + next
  {
    IndexOfSuffix(s, NextHeading, from);
    var j := IndexFrom(s, NextHeading, from);
    SectionEndAt(s, from, if j == -1 then |s| else j);
  }

  /** The text a replaced turn consists of: its heading, then its body. */
  function ReplacedSpan(header: string, expanded: string): string {
    header + TurnBody(expanded)
  }

  /** The body of a replaced turn: a blank line, the trimmed expansion
      and a line end. */
  function TurnBody(expanded: string): string {
    Body(TrimSpace(expanded))
  }

  /** A blank line, the text `t` and a line end. */
  function Body(t: string): string {
    "\n\n" + t + "\n"
  }

  /** `content` with `content[p..e]` replaced by `span`. */
  function Splice(content: string, p: nat, span: string, e: nat): (r: string)
    requires p <= e <= |content|
    ensures IsPrefix(content[..p], r) && OccursAt(r, span, p) && IsSuffix(content[e..], r)
    ensures |r| == p + |span| + (|content| - e)
  {
    var r := content[..p] + span + content[e..];
    assert r[..p] == content[..p];
    assert r[p..p + |span|] == span;
    assert r[p + |span|..] == content[e..];
    r
  }

  /** ReplaceLastHumanTurn: without the heading of Human turn `turnNumber`
      the document is unchanged.  Otherwise, at its last occurrence, the
      heading and the turn's text up to the next heading are replaced by
      the heading, a blank line and the trimmed expansion; the text before
      the heading and from the next heading on are kept verbatim. */
  function ReplaceLastHumanTurn(content: string, turnNumber: int, expanded: string): (r: string)
    ensures !Contains(content, HumanHeader(turnNumber)) ==> r == content
    ensures Contains(content, HumanHeader(turnNumber)) ==> Contains(r, HumanHeader(turnNumber))
  {
    var h := HumanHeader(turnNumber);
    var p := LastIndexOf(content, h);
    if p == -1 then content
    else
      ContainsWitness(content, h, p);
      var r := Splice(content, p, ReplacedSpan(h, expanded), TurnEnd(content, p + |h|));
      SpanHeading(r, h, expanded, p);
      r
  }

  /** A replaced span in place puts its heading in place. */
  lemma {:induction false} SpanHeading(r: string, h: string, expanded: string, p: nat)
    requires OccursAt(r, ReplacedSpan(h, expanded), p)
    ensures Contains(r, h)
  {
    assert r[p..p + |h|] == ReplacedSpan(h, expanded)[..|h|] == h;
    ContainsWitness(r, h, p);
  }

  /** End of the turn whose text starts at `from`, as the Go code finds it:
      strings.Index of "\n## [" in the text after `from`, or the end. */
  function TurnEnd(content: string, from: nat): (e: nat)
    requires from <= |content|
    ensures e == SectionEnd(content, from)
  {
    var next := IndexOf(content[from..], NextHeading);
    NextHeadingOfSuffix(content, from, next);
    if next == -1 then |content| else from + next
  }

  /** The replaced document, assembled from its three parts: the text
      before the last heading `p`, the replaced span, and the text from the
      end `e` of the turn on. */
  lemma {:induction false} ReplacedShape(content: string, turnNumber: int, expanded: string, p: nat, e: nat)
    requires Contains(content, HumanHeader(turnNumber))
    requires p == LastIndexOf(content, HumanHeader(turnNumber))
    requires e == SectionEnd(content, p + |HumanHeader(turnNumber)|)
    ensures ReplaceLastHumanTurn(content, turnNumber, expanded)
      == content[..p] + ReplacedSpan(HumanHeader(turnNumber), expanded) + content[e..]
  {
    var span := ReplacedSpan(HumanHeader(turnNumber), expanded);
    var r := ReplaceLastHumanTurn(content, turnNumber, expanded);
    ReplaceIsSplice(content, turnNumber, expanded, p, e);
    Assemble(r, content[..p], span, content[e..]);
  }

  lemma {:induction false} ReplaceIsSplice(content: string, turnNumber: int, expanded: string, p: nat, e: nat)
    requires Contains(content, HumanHeader(turnNumber))
    requires p == LastIndexOf(content, HumanHeader(turnNumber))
    requires e == SectionEnd(content, p + |HumanHeader(turnNumber)|)
    ensures ReplaceLastHumanTurn(content, turnNumber, expanded)
      == Splice(content, p, ReplacedSpan(HumanHeader(turnNumber), expanded), e)
  {
    var h := HumanHeader(turnNumber);
    assert TurnEnd(content, p + |h|) == e;
    assert ReplaceLastHumanTurn(content, turnNumber, expanded)
      == Splice(content, p, ReplacedSpan(h, expanded), TurnEnd(content, p + |h|));
  }

  /** Without the heading of the turn the document is left as it is. */
  lemma {:induction false} ReplaceWithoutHeading(content: string, turnNumber: int, expanded: string)
    requires !Contains(content, HumanHeader(turnNumber))
    ensures ReplaceLastHumanTurn(content, turnNumber, expanded) == content
  {
    var p := LastIndexOf(content, HumanHeader(turnNumber));
    if p != -1 {
      ContainsWitness(content, HumanHeader(turnNumber), p);
    }
  }

  /** Replacing twice with the same arguments is replacing once, when no
      line of the trimmed expansion starts a heading and the expansion does
      not hold the heading itself. */
  lemma {:induction false} ReplaceIdempotent(content: string, turnNumber: int, expanded: string)
    requires !Contains("\n" + TrimSpace(expanded), NextHeading)
    requires !Contains(TrimSpace(expanded), HumanHeader(turnNumber))
    ensures ReplaceLastHumanTurn(ReplaceLastHumanTurn(content, turnNumber, expanded), turnNumber, expanded)
      == ReplaceLastHumanTurn(content, turnNumber, expanded)
  {
    var h := HumanHeader(turnNumber);
    if Contains(content, h) {
      var p := LastIndexOf(content, h);
      var e := SectionEnd(content, p + |h|);
      var r := ReplaceLastHumanTurn(content, turnNumber, expanded);
      ReplacedIsLayout(content, turnNumber, expanded, p, e);
      LayoutIsReplaced(content, h, expanded, p, e, r);
      ReplaceAgain(r, turnNumber, expanded, h, p);
    } else {
      ReplaceWithoutHeading(content, turnNumber, expanded);
    }
  }

  /** A laid-out document has the heading last at `p`, followed by the
      replaced text up to the next heading. */
  lemma {:induction false} LayoutIsReplaced(content: string, h: string, expanded: string, p: nat, e: nat, r: string)
    requires OccursAt(content, h, p) && forall j :: p < j ==> !OccursAt(content, h, j)
    requires '\n' !in h && |h| > 0 && p + |h| <= e
    requires e < |content| ==> OccursAt(content, NextHeading, e)
    requires Layout(r, content, h, TrimSpace(expanded), p, e)
    requires !Contains("\n" + TrimSpace(expanded), NextHeading)
    requires !Contains(TrimSpace(expanded), h)
    ensures p + |h| <= |r| && r[p..p + |h|] == h && LastIndexOf(r, h) == p
    ensures SectionEnd(r, p + |h|) == p + |ReplacedSpan(h, expanded)|
    ensures p + |ReplacedSpan(h, expanded)| <= |r|
    ensures r[p + |h|..p + |ReplacedSpan(h, expanded)|] == TurnBody(expanded)
  {
    ReplacedLast(content, h, TrimSpace(expanded), p, e, r);
    ReplacedNext(content, h, TrimSpace(expanded), p, e, r);
  }

  /** A document whose last heading of the turn is followed by the
      replaced text up to the next heading is its own replacement. */
  lemma {:induction false} ReplaceAgain(r: string, turnNumber: int, expanded: string, h: string, p: nat)
    requires h == HumanHeader(turnNumber)
    requires p + |h| <= |r| && r[p..p + |h|] == h && LastIndexOf(r, h) == p
    requires SectionEnd(r, p + |h|) == p + |ReplacedSpan(h, expanded)|
    requires p + |ReplacedSpan(h, expanded)| <= |r|
    requires r[p + |h|..p + |ReplacedSpan(h, expanded)|] == TurnBody(expanded)
    ensures ReplaceLastHumanTurn(r, turnNumber, expanded) == r
  {
    var e := p + |ReplacedSpan(h, expanded)|;
    SpanInPlace(r, h, expanded, p, e);
    ReplaceIsSplice(r, turnNumber, expanded, p, e);
  }

  /** The heading at `p` followed by the replaced text is a span of `r`
      that splicing back in changes nothing. */
  lemma {:induction false} SpanInPlace(r: string, h: string, expanded: string, p: nat, e: nat)
    requires e == p + |ReplacedSpan(h, expanded)| <= |r|
    requires r[p..p + |h|] == h && r[p + |h|..e] == TurnBody(expanded)
    ensures Contains(r, h) && Splice(r, p, ReplacedSpan(h, expanded), e) == r
  {
    SpliceItself(r, p, h, TurnBody(expanded), e);
    ContainsWitness(r, h, p);
  }

  /** Splicing a text's own slice back in leaves the text as it is. */
  lemma {:induction false} SpliceItself(r: string, p: nat, a: string, b: string, e: nat)
    requires p + |a| + |b| == e <= |r| && r[p..p + |a|] == a && r[p + |a|..e] == b
    ensures Splice(r, p, a + b, e) == r
  {
    OccursJoin(r, a, b, p);
    SpliceSelf(r, p, a + b, e);
  }

  /** The layout of a replaced document, character by character: the
      heading `h` at `p`, two line ends, the text `t`, a line end, and then
      the text of `content` from `e` on. */
  predicate Layout(r: string, content: string, h: string, t: string, p: nat, e: nat) {
    var end := p + |h| + |t| + 3;
    && e <= |content| && end + (|content| - e) == |r|
    && r[p..p + |h|] == h && r[p + |h|..end] == Body(t) && r[end..] == content[e..]
  }

  /** The characters of a laid-out document around the text `t`. */
  lemma {:induction false} LayoutChars(r: string, content: string, h: string, t: string, p: nat, e: nat)
    requires Layout(r, content, h, t, p, e)
    ensures var q := p + |h| + 2 + |t|;
      (r[p + |h|] == '\n' && r[p + |h| + 1] == '\n' && r[q] == '\n'
       && r[p + |h| + 1..q] == "\n" + t && r[p + |h| + 2..q] == t)
  {
    var q := p + |h| + 2 + |t|;
    var b := r[p + |h|..q + 1];
    assert b == "\n\n" + t + "\n";
    assert b[0] == '\n' && b[1] == '\n' && b[|t| + 2] == '\n';
    var c := "\n" + t;
    assert b == "\n" + c + "\n";
    assert b[1..|t| + 2] == c;
    assert b[1..|t| + 2][1..] == t;
    assert b[2..|t| + 2] == b[1..|t| + 2][1..];
    assert forall i :: 0 <= i < |b| ==> b[i] == r[p + |h| + i];
    assert r[p + |h| + 1..q] == b[1..|t| + 2];
    assert r[p + |h| + 2..q] == b[2..|t| + 2];
  }

  lemma {:induction false} ReplacedLayout(content: string, h: string, expanded: string, p: nat, e: nat, r: string)
    requires p <= e <= |content|
    requires r == content[..p] + ReplacedSpan(h, expanded) + content[e..]
    ensures Layout(r, content, h, TrimSpace(expanded), p, e)
  {
    var span := ReplacedSpan(h, expanded);
    assert r[p..p + |span|] == span;
    assert r[p..p + |h|] == span[..|h|] == h;
    assert r[p + |h|..p + |span|] == span[|h|..] == TurnBody(expanded);
    assert r[p + |span|..] == content[e..];
  }

  /** A replaced document is laid out as its kept prefix, the heading, the
      body and the kept rest. */
  lemma {:induction false} ReplacedIsLayout(content: string, turnNumber: int, expanded: string, p: nat, e: nat)
    requires Contains(content, HumanHeader(turnNumber))
    requires p == LastIndexOf(content, HumanHeader(turnNumber))
    requires e == SectionEnd(content, p + |HumanHeader(turnNumber)|)
    ensures Layout(ReplaceLastHumanTurn(content, turnNumber, expanded), content,
                   HumanHeader(turnNumber), TrimSpace(expanded), p, e)
  {
    ReplacedShape(content, turnNumber, expanded, p, e);
    ReplacedLayout(content, HumanHeader(turnNumber), expanded, p, e,
                   ReplaceLastHumanTurn(content, turnNumber, expanded));
  }

  /** In a replaced document the heading still occurs last at `p`. */
  lemma {:induction false} ReplacedLast(content: string, h: string, t: string, p: nat, e: nat, r: string)
    requires OccursAt(content, h, p) && forall j :: p < j ==> !OccursAt(content, h, j)
    requires '\n' !in h && |h| > 0 && p + |h| <= e
    requires Layout(r, content, h, t, p, e)
    requires !Contains(t, h)
    ensures LastIndexOf(r, h) == p
  {
    LayoutChars(r, content, h, t, p, e);
    var t0 := p + |h| + 2;
    var q := t0 + |t|;
    forall j | p < j
      ensures !OccursAt(r, h, j)
    {
      if j <= p + |h| + 1 {
        if OccursAt(r, h, j) {
          OccurrenceAvoids(r, h, j, if j <= p + |h| then p + |h| else j);
        }
      } else if j <= q {
        if OccursAt(r, h, j) {
          OccurrenceAvoids(r, h, j, q);
          OccursInSlice(r, h, j, t0, q);
          ContainsWitness(t, h, j - t0);
        }
      } else {
        OccursShift(r, content, q + 1, e, h, j);
      }
    }
    assert r[p..p + |h|] == h;
    LastIndexAt(r, h, p);
  }

  /** In a replaced document the turn still ends where the kept text
      begins. */
  lemma {:induction false} ReplacedNext(content: string, h: string, t: string, p: nat, e: nat, r: string)
    requires e < |content| ==> OccursAt(content, NextHeading, e)
    requires Layout(r, content, h, t, p, e)
    requires !Contains("\n" + t, NextHeading)
    ensures SectionEnd(r, p + |h|) == p + |h| + |t| + 3
  {
    LayoutChars(r, content, h, t, p, e);
    var q := p + |h| + 2 + |t|;
    if e < |content| {
      OccursShift(r, content, q + 1, e, NextHeading, q + 1);
    }
    forall k | p + |h| <= k <= q
      ensures !OccursAt(r, NextHeading, k)
    {
      NoHeadingBefore(content, h, t, p, e, r, k);
    }
    SectionEndAt(r, p + |h|, q + 1);
  }

  lemma {:induction false} NoHeadingBefore(content: string, h: string, t: string, p: nat, e: nat, r: string, k: nat)
    requires e < |content| ==> OccursAt(content, NextHeading, e)
    requires Layout(r, content, h, t, p, e)
    requires !Contains("\n" + t, NextHeading)
    requires p + |h| <= k <= p + |h| + 2 + |t|
    ensures !OccursAt(r, NextHeading, k)
  {
    LayoutChars(r, content, h, t, p, e);
    var q := p + |h| + 2 + |t|;
    if k == p + |h| {
      Mismatch(r, NextHeading, k, k + 1);
    } else if k < q && k + 5 > q {
      Mismatch(r, NextHeading, k, q);
    } else if k < q {
      OccursInSlice(r, NextHeading, k, p + |h| + 1, q);
      assert !OccursAt("\n" + t, NextHeading, k - (p + |h| + 1));
    } else if e < |content| {
      OccurrenceChar(content, NextHeading, e, e);
      assert r[k + 1] == r[q + 1..][0] == content[e];
      Mismatch(r, NextHeading, k, k + 1);
    }
  }

  /** The first line of an AI turn, after a line end. */
  function AIHeadingLine(turnNumber: int): string {
    NextHeading + IntToString(turnNumber) + "] AI\n"
  }

  /** The trimmed response in a four-backtick markdown fence, after a
      blank line. */
  function ResponseFence(response: string): string {
    "\n````markdown\n" + TrimSpace(response) + "\n````\n"
  }

  /** AppendAIResponse: the document is kept as a prefix and followed by
      the AI turn's heading and the trimmed response in a four-backtick
      markdown fence. */
  function AppendAIResponse(content: string, turnNumber: int, response: string): (r: string)
    ensures IsPrefix(content, r)
    ensures IsSuffix(ResponseFence(response), r)
    ensures OccursAt(r, AIHeadingLine(turnNumber), |content|)
    ensures |r| == |content| + |AIHeadingLine(turnNumber)| + |ResponseFence(response)|
  {
    var a := AIHeadingLine(turnNumber);
    var b := ResponseFence(response);
    Concat3(content, a, b);
    content + (a + b)
  }
}

=== FILE: stream.dfy ===
/** The stream writer that appends an AI response to the session document
    while it arrives.  The open file is the sequence `out` of characters the
    writer has appended; buffered writes and flushes are taken to succeed,
    and only the final flush and sync of Close may fail. */
module Stream {
  import opened Text
  import opened Wrappers

  /** StreamWriter: its three flags and what it has appended so far. */
  datatype Writer = Writer(turnNumber: int, headerWritten: bool, contentWritten: bool,
                           isInterrupted: bool, out: string)

  /** NewStreamWriter: nothing written yet. */
  function NewWriter(turnNumber: int): (w: Writer)
    ensures Valid(w) && w.out == ""
  {
    Writer(turnNumber, false, false, false, "")
  }

  /** The AI heading and the opening fence. */
  function AIHeader(turnNumber: int): string {
    "\n\n# [" + IntToString(turnNumber) + "] AI\n\n````markdown\n"
  }

  /** The closing fence. */
  const Fence: string := "\n````\n"

  /** The heading of the next Human turn. */
  function NextHumanHeading(turnNumber: int): string {
    "\n\n# [" + IntToString(turnNumber) + "] Human\n\n"
  }

  /** The interruption marker. */
  function Marker(tokenCount: int): string {
    "\n[Interrupted after " + IntToString(tokenCount) + " tokens]"
  }

  /** The flags agree with each other and with the text appended: content
      only after the header, the header first, an interruption only after
      content. */
  predicate Valid(w: Writer) {
    && (w.contentWritten ==> w.headerWritten)
    && (w.isInterrupted ==> w.contentWritten)
    && (!w.headerWritten ==> w.out == "")
    && (w.headerWritten ==> IsPrefix(AIHeader(w.turnNumber), w.out))
  }

  /** writeHeader: the header once; a second call writes nothing. */
  function WriteHeader(w: Writer): (r: Writer)
    ensures r.headerWritten && r.turnNumber == w.turnNumber
    ensures r.contentWritten == w.contentWritten && r.isInterrupted == w.isInterrupted
    ensures IsPrefix(w.out, r.out)
    ensures w.headerWritten ==> r == w
    ensures !w.headerWritten ==> IsSuffix(AIHeader(w.turnNumber), r.out)
  {
    if w.headerWritten then w
    else
      var r := w.(out := w.out + AIHeader(w.turnNumber), headerWritten := true);
      assert r.out[..|w.out|] == w.out;
      r
  }

  /** Writing the header twice is writing it once. */
  lemma {:induction false} WriteHeaderOnce(w: Writer)
    ensures WriteHeader(WriteHeader(w)) == WriteHeader(w)
  {
  }

  /** WriteChunk: nothing after an interruption or for an empty chunk;
      otherwise the header if it is still missing, then the chunk. */
  function WriteChunk(w: Writer, chunk: string): (r: Writer)
    ensures w.isInterrupted || chunk == "" ==> r == w
    ensures !w.isInterrupted && chunk != "" ==> r.headerWritten && r.contentWritten
    ensures r.turnNumber == w.turnNumber && r.isInterrupted == w.isInterrupted
  {
    if w.isInterrupted || chunk == "" then w
    else
      var h := WriteHeader(w);
      h.(out := h.out + chunk, contentWritten := true)
  }

  /** A chunk extends the text appended so far and, when written, ends
      it. */
  lemma {:induction false} WriteChunkExtends(w: Writer, chunk: string)
    ensures IsPrefix(w.out, WriteChunk(w, chunk).out)
    ensures !w.isInterrupted && chunk != "" ==> IsSuffix(chunk, WriteChunk(w, chunk).out)
  {
    if !w.isInterrupted && chunk != "" {
      var h := WriteHeader(w);
      assert WriteChunk(w, chunk).out == h.out + chunk;
      PrefixOfAppend(w.out, h.out, chunk);
    }
  }

  /** WriteChunk keeps the writer consistent. */
  lemma {:induction false} WriteChunkValid(w: Writer, chunk: string)
    requires Valid(w)
    ensures Valid(WriteChunk(w, chunk))
  {
    var r := WriteChunk(w, chunk);
    if r.headerWritten {
      WriteChunkExtends(w, chunk);
      if w.headerWritten {
        PrefixOfPrefix(AIHeader(w.turnNumber), w.out, r.out);
      } else {
        var h := WriteHeader(w);
        assert h.out == AIHeader(w.turnNumber);
        assert r.out == h.out + chunk;
        PrefixOfAppend(h.out, h.out, chunk);
      }
    }
  }

  /** The chunks one after the other. */
  function Concat(chunks: seq<string>): string {
    if |chunks| == 0 then "" else chunks[0] + Concat(chunks[1..])
  }

  /** The chunks a stream delivers, written in order. */
  function WriteAll(w: Writer, chunks: seq<string>): Writer
    decreases |chunks|
  {
    if |chunks| == 0 then w else WriteAll(WriteChunk(w, chunks[0]), chunks[1..])
  }

  /** Close: nothing without a header; otherwise the marker, once and only
      after content, when the stream was interrupted, then the closing
      fence and the next Human heading. */
  function Close(w: Writer, interrupted: bool, tokenCount: int): (r: Writer)
    ensures !w.headerWritten ==> r == w
    ensures r.turnNumber == w.turnNumber && r.headerWritten == w.headerWritten
    ensures r.contentWritten == w.contentWritten
    ensures r.isInterrupted <==> w.isInterrupted || (w.headerWritten && interrupted && w.contentWritten)
  {
    if !w.headerWritten then w
    else
      var mark := interrupted && !w.isInterrupted && w.contentWritten;
      var m := if mark then w.out + Marker(tokenCount) else w.out;
      w.(isInterrupted := w.isInterrupted || mark, out := m + (Fence + NextHumanHeading(w.turnNumber + 1)))
  }

  /** Close extends the text appended so far and, once a header was
      written, ends it with the closing fence and the next Human heading. */
  lemma {:induction false} CloseExtends(w: Writer, interrupted: bool, tokenCount: int)
    ensures IsPrefix(w.out, Close(w, interrupted, tokenCount).out)
    ensures w.headerWritten ==> IsSuffix(Fence + NextHumanHeading(w.turnNumber + 1), Close(w, interrupted, tokenCount).out)
  {
    if w.headerWritten {
      var r := Close(w, interrupted, tokenCount);
      var mark := interrupted && !w.isInterrupted && w.contentWritten;
      var m := if mark then w.out + Marker(tokenCount) else w.out;
      assert r.out == m + (Fence + NextHumanHeading(w.turnNumber + 1));
      PrefixOfAppend(w.out, m, Fence + NextHumanHeading(w.turnNumber + 1));
    }
  }

  /** A prefix of `m` is a prefix of `m + t`, and `t` ends it. */
  lemma {:induction false} PrefixOfAppend(p: string, m: string, t: string)
    requires IsPrefix(p, m)
    ensures IsPrefix(p, m + t) && IsSuffix(t, m + t)
  {
    assert (m + t)[..|p|] == m[..|p|];
    assert (m + t)[|m + t| - |t|..] == t;
  }

  /** Close keeps the writer consistent. */
  lemma {:induction false} CloseValid(w: Writer, interrupted: bool, tokenCount: int)
    requires Valid(w)
    ensures Valid(Close(w, interrupted, tokenCount))
  {
    if w.headerWritten {
      var r := Close(w, interrupted, tokenCount);
      CloseExtends(w, interrupted, tokenCount);
      PrefixOfPrefix(AIHeader(w.turnNumber), w.out, r.out);
    }
  }

  lemma {:induction false} PrefixOfPrefix(a: string, b: string, c: string)
    requires IsPrefix(a, b) && IsPrefix(b, c)
    ensures IsPrefix(a, c)
  {
    assert c[..|a|] == c[..|b|][..|a|];
  }

  /** Writing a stream's chunks sets the header and content flags exactly
      when some chunk is non-empty, and never the interruption flag. */
  lemma {:induction false} WriteAllFlags(w: Writer, chunks: seq<string>)
    requires !w.isInterrupted
    ensures WriteAll(w, chunks).turnNumber == w.turnNumber
    ensures !WriteAll(w, chunks).isInterrupted
    ensures WriteAll(w, chunks).headerWritten == (w.headerWritten || Concat(chunks) != "")
    ensures WriteAll(w, chunks).contentWritten == (w.contentWritten || Concat(chunks) != "")
    decreases |chunks|
  {
    if |chunks| > 0 {
      WriteAllFlags(WriteChunk(w, chunks[0]), chunks[1..]);
    }
  }

  /** The text a stream's chunks append: the header once, just before the
      first non-empty chunk, and the chunks verbatim. */
  lemma {:induction false} WriteAllOutput(w: Writer, chunks: seq<string>)
    requires !w.isInterrupted
    ensures WriteAll(w, chunks).out == w.out + HeaderIfFirst(w, chunks) + Concat(chunks)
    decreases |chunks|
  {
    if |chunks| > 0 {
      var c, rest := chunks[0], chunks[1..];
      var w1 := WriteChunk(w, c);
      WriteAllOutput(w1, rest);
      if c == "" {
        assert Concat(chunks) == Concat(rest);
      } else {
        var x := w.out + HeaderIfFirst(w, chunks);
        assert w1.out == x + c;
        assert HeaderIfFirst(w1, rest) == "";
        assert w1.out + "" == w1.out;
        AppendAssoc(x, c, Concat(rest));
      }
    }
  }

  /** The header, when `chunks` hold the first content `w` writes. */
  function HeaderIfFirst(w: Writer, chunks: seq<string>): string {
    if w.headerWritten || Concat(chunks) == "" then "" else AIHeader(w.turnNumber)
  }

  /** The whole text a response appends to the document. */
  function Transcript(turnNumber: int, chunks: seq<string>, interrupted: bool, tokenCount: int): string {
    Close(WriteAll(NewWriter(turnNumber), chunks), interrupted, tokenCount).out
  }

  /** A response with no content appends nothing; otherwise it appends the
      header, the chunks, the marker when it was interrupted, the closing
      fence and the next Human heading. */
  lemma {:induction false} TranscriptShape(turnNumber: int, chunks: seq<string>, interrupted: bool, tokenCount: int)
    ensures Transcript(turnNumber, chunks, interrupted, tokenCount)
      == if Concat(chunks) == "" then ""
         else AIHeader(turnNumber) + Concat(chunks) + (if interrupted then Marker(tokenCount) else "")
              + (Fence + NextHumanHeading(turnNumber + 1))
  {
    var w := WriteAll(NewWriter(turnNumber), chunks);
    WriteAllFlags(NewWriter(turnNumber), chunks);
    WriteAllOutput(NewWriter(turnNumber), chunks);
    if Concat(chunks) != "" {
      var body := AIHeader(turnNumber) + Concat(chunks);
      assert w.out == body by {
        assert "" + AIHeader(turnNumber) == AIHeader(turnNumber);
      }
      if !interrupted {
        assert body + "" == body;
      }
    }
  }

  /** Once the marker is written, no later chunk is written and no later
      Close writes it again. */
  lemma {:induction false} MarkerOnce(w: Writer, tokenCount: int, interrupted: bool, later: int, chunk: string)
    requires Valid(w) && w.contentWritten
    ensures Close(w, true, tokenCount).isInterrupted
    ensures WriteChunk(Close(w, true, tokenCount), chunk) == Close(w, true, tokenCount)
    ensures Close(Close(w, true, tokenCount), interrupted, later).out
      == Close(w, true, tokenCount).out + (Fence + NextHumanHeading(w.turnNumber + 1))
  {
  }

  /** The error of Close: none when nothing was written, since neither
      flush nor sync happen; otherwise that of the final flush, then that
      of the sync. */
  function CloseError(w: Writer, flushErr: Option<string>, syncErr: Option<string>): (e: Option<string>)
    ensures !w.headerWritten ==> e == None
    ensures w.headerWritten && flushErr.None? ==> e == syncErr
    ensures w.headerWritten && flushErr.Some? ==> e.Some? && IsSuffix(flushErr.value, e.value)
  {
    if !w.headerWritten then None
    else if flushErr.Some? then
      var m := "failed to flush final content: " + flushErr.value;
      assert m[|m| - |flushErr.value|..] == flushErr.value;
      Some(m)
    else syncErr
  }

  /** What the stream function reports: its token count and its error. */
  datatype StreamOutcome = StreamOutcome(tokenCount: int, err: Option<string>)

  /** The appended text and the error StreamResponse returns. */
  datatype Response = Response(out: string, err: Option<string>)

  /** A stream error counts as an interruption when it reports a
      cancelled context. */
  predicate Cancelled(err: Option<string>) {
    err.Some? && Contains(err.value, "context canceled")
  }

  /** StreamResponse: open the writer, run the stream, close with the
      interruption flag, then report the close error, else the stream error
      unless it was a cancellation.  `openErr` is the error NewStreamWriter
      returns, already wrapped as "failed to open session for writing: ...";
      `flushErr` and `syncErr` are the file's own errors, wrapped here. */
  function StreamResponse(turnNumber: int, openErr: Option<string>, chunks: seq<string>,
                          outcome: StreamOutcome, flushErr: Option<string>,
                          syncErr: Option<string>): (r: Response)
    ensures openErr.Some? ==> r == Response("", openErr)
    ensures r.err.None? <==>
      && openErr.None?
      && CloseError(WriteAll(NewWriter(turnNumber), chunks), flushErr, syncErr).None?
      && (outcome.err.None? || Cancelled(outcome.err))
  {
    if openErr.Some? then Response("", openErr)
    else
      var w := WriteAll(NewWriter(turnNumber), chunks);
      var interrupted := Cancelled(outcome.err);
      var c := Close(w, interrupted, outcome.tokenCount);
      var closeErr := CloseError(w, flushErr, syncErr);
      if closeErr.Some? then Response(c.out, Some("failed to close stream: " + closeErr.value))
      else if outcome.err.Some? && !interrupted then Response(c.out, outcome.err)
      else Response(c.out, None)
  }

  /** The error StreamResponse reports, in order of precedence: opening the
      file, closing it, then the stream's own error unless it reports a
      cancelled context; and a cancelled stream closes with the marker. */
  lemma {:induction false} ResponseOutcome(turnNumber: int, openErr: Option<string>, chunks: seq<string>,
                        outcome: StreamOutcome, flushErr: Option<string>, syncErr: Option<string>)
    ensures var r := StreamResponse(turnNumber, openErr, chunks, outcome, flushErr, syncErr);
      && (openErr.Some? ==> r == Response("", openErr))
      && (openErr.None? ==> r.out == Transcript(turnNumber, chunks, Cancelled(outcome.err), outcome.tokenCount))
      && (openErr.None? && Concat(chunks) == "" ==> r == Response("", if Cancelled(outcome.err) then None else outcome.err))
      && (openErr.None? && Concat(chunks) != "" && (flushErr.Some? || syncErr.Some?) ==>
            r.err.Some? && IsPrefix("failed to close stream: ", r.err.value))
      && (openErr.None? && flushErr.None? && syncErr.None? ==>
            r.err == if Cancelled(outcome.err) then None else outcome.err)
  {
    var w := WriteAll(NewWriter(turnNumber), chunks);
    WriteAllFlags(NewWriter(turnNumber), chunks);
    TranscriptShape(turnNumber, chunks, Cancelled(outcome.err), outcome.tokenCount);
    if openErr.None? && Concat(chunks) != "" && (flushErr.Some? || syncErr.Some?) {
      var e := CloseError(w, flushErr, syncErr);
      assert e.Some?;
      var m := "failed to close stream: " + e.value;
      assert m[..|"failed to close stream: "|] == "failed to close stream: ";
    }
  }
}

=== FILE: text.dfy ===
/** String primitives shared by the whole model: the pieces of Go's `strings`
    and `strconv` packages the program relies on.  A string is a sequence of
    characters, one per byte; case mapping and white space are ASCII only. */
module Text {

  // ---------------------------------------------------------------------
  // Prefixes, suffixes and occurrences
  // ---------------------------------------------------------------------

  predicate IsPrefix(p: string, s: string) {
    |p| <= |s| && s[..|p|] == p
  }

  predicate IsSuffix(p: string, s: string) {
    |p| <= |s| && s[|s| - |p|..] == p
  }

  /** `pat` occurs in `s` starting at index `i`. */
  predicate OccursAt(s: string, pat: string, i: int) {
    0 <= i && i + |pat| <= |s| && s[i..i + |pat|] == pat
  }

  /** strings.Contains */
  predicate Contains(s: string, pat: string) {
    exists i | 0 <= i <= |s| :: OccursAt(s, pat, i)
  }

  function IndexFrom(s: string, pat: string, i: nat): (r: int)
    requires i <= |s|
    decreases |s| - i
    ensures r == -1 || (i <= r && OccursAt(s, pat, r))
    ensures r == -1 ==> forall j :: i <= j ==> !OccursAt(s, pat, j)
    ensures r >= 0 ==> forall j :: i <= j < r ==> !OccursAt(s, pat, j)
  {
    if i + |pat| > |s| then -1
    else if s[i..i + |pat|] == pat then i
    else IndexFrom(s, pat, i + 1)
  }

  /** strings.Index: the first occurrence of `pat`, or -1. */
  function IndexOf(s: string, pat: string): (r: int)
    ensures r == -1 || OccursAt(s, pat, r)
    ensures forall j :: 0 <= j && (r == -1 || j < r) ==> !OccursAt(s, pat, j)
  {
    IndexFrom(s, pat, 0)
  }

  function LastIndexFrom(s: string, pat: string, i: int): (r: int)
    requires i <= |s| - |pat|
    decreases i + 1
    ensures r == -1 || (0 <= r <= i && OccursAt(s, pat, r))
    ensures forall j :: r < j <= i ==> !OccursAt(s, pat, j)
  {
    if i < 0 then -1
    else if s[i..i + |pat|] == pat then i
    else LastIndexFrom(s, pat, i - 1)
  }

  /** strings.LastIndex: the last occurrence of `pat`, or -1. */
  function LastIndexOf(s: string, pat: string): (r: int)
    ensures r == -1 || OccursAt(s, pat, r)
    ensures forall j :: r < j ==> !OccursAt(s, pat, j)
  {
    LastIndexFrom(s, pat, |s| - |pat|)
  }

  lemma {:induction false} OccursInRight(a: string, b: string, pat: string, i: int)
    requires 0 <= i
    ensures OccursAt(a + b, pat, |a| + i) <==> OccursAt(b, pat, i)
  {
    if i + |pat| <= |b| {
      assert (a + b)[|a| + i..|a| + i + |pat|] == b[i..i + |pat|];
    }
  }

  lemma {:induction false} OccursInLeft(a: string, b: string, pat: string, i: int)
    requires i + |pat| <= |a|
    ensures OccursAt(a + b, pat, i) <==> OccursAt(a, pat, i)
  {
    if 0 <= i {
      assert (a + b)[i..i + |pat|] == a[i..i + |pat|];
    }
  }

  /** One differing character rules an occurrence out. */
  lemma {:induction false} Mismatch(s: string, pat: string, i: int, k: int)
    requires 0 <= i <= k < i + |pat| && k < |s| && s[k] != pat[k - i]
    ensures !OccursAt(s, pat, i)
  {
    if i + |pat| <= |s| {
      assert s[i..i + |pat|][k - i] == s[k];
    }
  }

  /** An occurrence covers the characters it is made of: a position of `s`
      holding a character absent from `pat` cannot lie inside one. */
  lemma {:induction false} OccurrenceAvoids(s: string, pat: string, i: int, j: int)
    requires OccursAt(s, pat, i)
    requires 0 <= j < |s| && s[j] !in pat
    ensures j < i || i + |pat| <= j
  {
  }

  /** An occurrence of a two-character pattern, character by character. */
  lemma {:induction false} OccursAtPair(s: string, pat: string, i: int)
    requires |pat| == 2
    ensures OccursAt(s, pat, i) <==> 0 <= i && i + 2 <= |s| && s[i] == pat[0] && s[i + 1] == pat[1]
  {
    if 0 <= i && i + 2 <= |s| && s[i] == pat[0] && s[i + 1] == pat[1] {
      assert s[i..i + 2] == pat;
    }
  }

  /** An occurrence read through a slice that holds it. */
  lemma {:induction false} OccursInSlice(s: string, pat: string, j: int, lo: nat, hi: nat)
    requires lo <= j && j + |pat| <= hi <= |s|
    ensures OccursAt(s, pat, j) <==> OccursAt(s[lo..hi], pat, j - lo)
  {
    var u := s[lo..hi];
    assert forall x :: 0 <= x < |u| ==> u[x] == s[lo + x];
    assert u[j - lo..j - lo + |pat|] == s[j..j + |pat|];
  }

  /** Occurrences in equal suffixes of two strings correspond. */
  lemma {:induction false} OccursShift(s: string, t: string, k: nat, m: nat, pat: string, j: int)
    requires k <= |s| && m <= |t| && s[k..] == t[m..] && k <= j
    ensures OccursAt(s, pat, j) <==> OccursAt(t, pat, m + j - k)
  {
    var u := s[k..];
    assert |s| - k == |t| - m;
    assert forall x :: 0 <= x < |u| ==> s[k + x] == u[x] == t[m + x];
    if j + |pat| <= |s| {
      assert s[j..j + |pat|] == t[m + j - k..m + j - k + |pat|];
    }
  }

  /** An occurrence of a concatenation is an occurrence of each part. */
  lemma {:induction false} OccursSplit(s: string, a: string, b: string, i: int)
    requires OccursAt(s, a + b, i)
    ensures OccursAt(s, a, i) && OccursAt(s, b, i + |a|)
  {
    assert s[i..i + |a|] == (a + b)[..|a|] == a;
    assert s[i + |a|..i + |a| + |b|] == (a + b)[|a|..] == b;
  }

  /** A character inside an occurrence is the pattern's. */
  lemma {:induction false} OccurrenceChar(s: string, pat: string, j: int, q: int)
    requires OccursAt(s, pat, j) && j <= q < j + |pat|
    ensures s[q] == pat[q - j]
  {
    assert s[j..j + |pat|][q - j] == s[q];
  }

  /** strings.Index on a suffix is the first occurrence at or after its
      start. */
  lemma {:induction false} IndexOfSuffix(s: string, pat: string, from: nat)
    requires from <= |s|
    ensures var i := IndexOf(s[from..], pat);
      if i == -1 then IndexFrom(s, pat, from) == -1 else IndexFrom(s, pat, from) == from + i
  {
    var i := IndexOf(s[from..], pat);
    var j := IndexFrom(s, pat, from);
    assert s[..from] + s[from..] == s;
    if i >= 0 {
      OccursInRight(s[..from], s[from..], pat, i);
    }
    if j >= 0 {
      OccursInRight(s[..from], s[from..], pat, j - from);
    }
  }

  /** The last occurrence is the one with none after it. */
  lemma {:induction false} LastIndexAt(s: string, pat: string, p: int)
    requires OccursAt(s, pat, p)
    requires forall j :: p < j ==> !OccursAt(s, pat, j)
    ensures LastIndexOf(s, pat) == p
  {
  }

  /** A string is determined by a prefix, a span after it and a suffix
      whose lengths add up to its own. */
  lemma {:induction false} Assemble(r: string, a: string, m: string, b: string)
    requires IsPrefix(a, r) && OccursAt(r, m, |a|) && IsSuffix(b, r)
    requires |r| == |a| + |m| + |b|
    ensures r == a + m + b
  {
    assert r == r[..|a|] + r[|a|..|a| + |m|] + r[|a| + |m|..];
  }

  lemma {:induction false} AppendAssoc(a: string, b: string, c: string)
    ensures (a + b) + c == a + (b + c)
  {
  }

  /** The three parts of `a + (m + b)` sit where they were put. */
  lemma {:induction false} Concat3(a: string, m: string, b: string)
    ensures var r := a + (m + b);
      IsPrefix(a, r) && OccursAt(r, m, |a|) && IsSuffix(b, r)
  {
    var r := a + (m + b);
    assert r[..|a|] == a;
    assert r[|a|..|a| + |m|] == m;
    assert r[|r| - |b|..] == b;
  }

  /** A concatenation starts with its first part and ends with its second. */
  lemma {:induction false} AppendEnds(a: string, b: string)
    ensures IsPrefix(a, a + b) && IsSuffix(b, a + b)
  {
    assert (a + b)[..|a|] == a;
    assert (a + b)[|a|..] == b;
  }

  /** A string is its slice `r[p..e]` put back between the parts around it. */
  lemma {:induction false} SpliceSelf(r: string, p: nat, m: string, e: nat)
    requires p <= e <= |r| && r[p..e] == m
    ensures r == r[..p] + m + r[e..]
  {
    assert r == r[..p] + r[p..e] + r[e..];
  }

  /** Occurrences of `a` and of `b` right after it make one of `a + b`. */
  lemma {:induction false} OccursJoin(s: string, a: string, b: string, i: int)
    requires OccursAt(s, a, i) && OccursAt(s, b, i + |a|)
    ensures OccursAt(s, a + b, i)
  {
    assert s[i..i + |a| + |b|] == s[i..i + |a|] + s[i + |a|..i + |a| + |b|];
  }

  lemma {:induction false} ContainsWitness(s: string, pat: string, i: int)
    requires OccursAt(s, pat, i)
    ensures Contains(s, pat)
  {
  }

  // ---------------------------------------------------------------------
  // Case mapping and white space (ASCII)
  // ---------------------------------------------------------------------

  function LowerChar(c: char): char {
    if 'A' <= c <= 'Z' then (c as int + 32) as char else c
  }

  function UpperChar(c: char): char {
    if 'a' <= c <= 'z' then (c as int - 32) as char else c
  }

  /** strings.ToLower */
  function Lower(s: string): (r: string)
    ensures |r| == |s|
    ensures forall i :: 0 <= i < |s| ==> r[i] == LowerChar(s[i])
  {
    seq(|s|, i requires 0 <= i < |s| => LowerChar(s[i]))
  }

  /** strings.ToUpper */
  function Upper(s: string): (r: string)
    ensures |r| == |s|
    ensures forall i :: 0 <= i < |s| ==> r[i] == UpperChar(s[i])
  {
    seq(|s|, i requires 0 <= i < |s| => UpperChar(s[i]))
  }

  /** strings.EqualFold, restricted to ASCII. */
  predicate EqualFold(a: string, b: string) {
    Lower(a) == Lower(b)
  }

  predicate IsSpace(c: char) {
    c == ' ' || c == '\t' || c == '\n' || c == '\r' || c == '\U{000B}' || c == '\U{000C}'
  }

  predicate AllSpace(s: string) {
    forall i :: 0 <= i < |s| ==> IsSpace(s[i])
  }

  /** Neither end of `s` is white space. */
  predicate Trimmed(s: string) {
    |s| == 0 || (!IsSpace(s[0]) && !IsSpace(s[|s| - 1]))
  }

  /** Index of the first character at or after `i` that is not white space. */
  function SpaceSpanEnd(s: string, i: nat): (k: nat)
    requires i <= |s|
    decreases |s| - i
    ensures i <= k <= |s|
    ensures forall j :: i <= j < k ==> IsSpace(s[j])
    ensures k < |s| ==> !IsSpace(s[k])
  {
    if i < |s| && IsSpace(s[i]) then SpaceSpanEnd(s, i + 1) else i
  }

  /** Index just after the last character before `j`, and at or after `lo`,
      that is not white space. */
  function SpaceSpanStart(s: string, lo: nat, j: nat): (k: nat)
    requires lo <= j <= |s|
    decreases j
    ensures lo <= k <= j
    ensures forall m :: k <= m < j ==> IsSpace(s[m])
    ensures k > lo ==> !IsSpace(s[k - 1])
  {
    if j > lo && IsSpace(s[j - 1]) then SpaceSpanStart(s, lo, j - 1) else j
  }

  /** strings.TrimSpace: `s` with white space removed at both ends. */
  function TrimSpace(s: string): (r: string)
    ensures Trimmed(r)
  {
    var lo := SpaceSpanEnd(s, 0);
    s[lo..SpaceSpanStart(s, lo, |s|)]
  }

  /** The result of TrimSpace is a contiguous part of its input and
      everything cut off is white space. */
  lemma {:induction false} TrimSpaceSlice(s: string)
    ensures var r := TrimSpace(s);
      exists a :: 0 <= a && a + |r| <= |s| && r == s[a..a + |r|] && AllSpace(s[..a]) && AllSpace(s[a + |r|..])
  {
    var lo := SpaceSpanEnd(s, 0);
    var hi := SpaceSpanStart(s, lo, |s|);
    assert AllSpace(s[..lo]);
    assert AllSpace(s[hi..]);
  }

  lemma {:induction false} SpanEndAt(s: string, i: nat, k: nat)
    requires i <= k <= |s|
    requires forall j :: i <= j < k ==> IsSpace(s[j])
    requires k < |s| ==> !IsSpace(s[k])
    ensures SpaceSpanEnd(s, i) == k
    decreases k - i
  {
    if i < k {
      SpanEndAt(s, i + 1, k);
    }
  }

  lemma {:induction false} SpanStartAt(s: string, lo: nat, j: nat, k: nat)
    requires lo <= k <= j <= |s|
    requires forall m :: k <= m < j ==> IsSpace(s[m])
    requires k > lo ==> !IsSpace(s[k - 1])
    ensures SpaceSpanStart(s, lo, j) == k
    decreases j - k
  {
    if k < j {
      SpanStartAt(s, lo, j - 1, k);
    }
  }

  /** Trimming discards white-space padding and nothing else. */
  lemma {:induction false} TrimSpacePadded(a: string, b: string, c: string)
    requires AllSpace(a) && AllSpace(c) && Trimmed(b)
    ensures TrimSpace(a + b + c) == b
  {
    var s := a + b + c;
    if |b| == 0 {
      SpanEndAt(s, 0, |s|);
      SpanStartAt(s, |s|, |s|, |s|);
    } else {
      assert s[|a|] == b[0];
      SpanEndAt(s, 0, |a|);
      assert s[|a| + |b| - 1] == b[|b| - 1];
      SpanStartAt(s, |a|, |s|, |a| + |b|);
      assert s[|a|..|a| + |b|] == b;
    }
  }

  lemma {:induction false} TrimSpaceTrimmed(s: string)
    requires Trimmed(s)
    ensures TrimSpace(s) == s
  {
    assert s == "" + s + "";
    TrimSpacePadded("", s, "");
  }

  /** Trimming cannot create an occurrence. */
  lemma {:induction false} TrimSpaceKeepsAbsent(s: string, pat: string)
    requires !Contains(s, pat)
    ensures !Contains(TrimSpace(s), pat)
  {
    var lo := SpaceSpanEnd(s, 0);
    var hi := SpaceSpanStart(s, lo, |s|);
    var t := TrimSpace(s);
    assert t == s[lo..hi];
    forall i | 0 <= i <= |t|
      ensures !OccursAt(t, pat, i)
    {
      if i + |pat| <= |t| {
        OccursInSlice(s, pat, lo + i, lo, hi);
      }
    }
  }

  // ---------------------------------------------------------------------
  // Splitting and joining
  // ---------------------------------------------------------------------

  /** strings.Join */
  function Join(parts: seq<string>, sep: string): string {
    if |parts| == 0 then ""
    else if |parts| == 1 then parts[0]
    else parts[0] + sep + Join(parts[1..], sep)
  }

  lemma {:induction false} JoinAppend(xs: seq<string>, ys: seq<string>, sep: string)
    requires |xs| > 0 && |ys| > 0
    ensures Join(xs + ys, sep) == Join(xs, sep) + sep + Join(ys, sep)
    decreases |xs|
  {
    if |xs| == 1 {
      assert xs + ys == [xs[0]] + ys;
      JoinCons(xs[0], ys, sep);
    } else {
      var t := xs[1..];
      assert xs + ys == [xs[0]] + (t + ys);
      JoinCons(xs[0], t + ys, sep);
      JoinAppend(t, ys, sep);
      assert xs == [xs[0]] + t;
      JoinCons(xs[0], t, sep);
    }
  }

  /** Joining a list with a first element puts the separator after it. */
  lemma {:induction false} JoinCons(x: string, rest: seq<string>, sep: string)
    requires |rest| > 0
    ensures Join([x] + rest, sep) == x + sep + Join(rest, sep)
  {
    assert ([x] + rest)[1..] == rest;
  }

  /** A slice of a slice is a slice of the whole. */
  lemma {:induction false} SliceOfSlice<T>(s: seq<T>, a: int, b: int, c: int, d: int)
    requires 0 <= a <= b <= |s| && 0 <= c <= d <= b - a
    ensures s[a..b][c..d] == s[a + c..a + d]
  {
    assert forall m :: 0 <= m < d - c ==> s[a..b][c..d][m] == s[a..b][c + m] == s[a + c + m];
  }

  /** strings.Split with a one-character separator: always at least one
      field, joining the fields gives back the input, and no field holds the
      separator. */
  function Split(s: string, sep: char): (r: seq<string>)
    ensures |r| >= 1
    ensures Join(r, [sep]) == s
    ensures forall i :: 0 <= i < |r| ==> sep !in r[i]
  {
    if |s| == 0 then [""]
    else if s[0] == sep then
      var rest := Split(s[1..], sep);
      assert [""] + rest == [""] + rest;
      assert ([""] + rest)[1..] == rest;
      [""] + rest
    else
      var rest := Split(s[1..], sep);
      var r := [[s[0]] + rest[0]] + rest[1..];
      assert r[1..] == rest[1..];
      assert Join(r, [sep]) == [s[0]] + Join(rest, [sep]);
      r
  }

  /** Split undoes Join when no part holds the separator. */
  lemma {:induction false} SplitJoin(parts: seq<string>, sep: char)
    requires |parts| >= 1
    requires forall i :: 0 <= i < |parts| ==> sep !in parts[i]
    ensures Split(Join(parts, [sep]), sep) == parts
    decreases |parts|, |parts[0]|
  {
    var s := Join(parts, [sep]);
    if |parts[0]| == 0 {
      if |parts| == 1 {
      } else {
        assert s == [sep] + Join(parts[1..], [sep]);
        assert s[1..] == Join(parts[1..], [sep]);
        SplitJoin(parts[1..], sep);
        assert parts == [""] + parts[1..];
      }
    } else {
      var c := parts[0][0];
      var parts' := [parts[0][1..]] + parts[1..];
      assert forall i :: 0 <= i < |parts'| ==> sep !in parts'[i];
      JoinFirstChar(parts, [sep]);
      assert s[0] == c && c != sep;
      assert s[1..] == Join(parts', [sep]);
      SplitJoin(parts', sep);
      FirstCharBack(parts);
    }
  }

  /** Join of parts whose first part starts with `c`: `c`, then the join of
      the parts with that character dropped. */
  lemma {:induction false} JoinFirstChar(parts: seq<string>, sep: string)
    requires |parts| >= 1 && |parts[0]| > 0
    ensures Join(parts, sep) == [parts[0][0]] + Join([parts[0][1..]] + parts[1..], sep)
  {
    var parts' := [parts[0][1..]] + parts[1..];
    assert parts'[1..] == parts[1..];
    assert parts[0] == [parts[0][0]] + parts[0][1..];
  }

  lemma {:induction false} FirstCharBack(parts: seq<string>)
    requires |parts| >= 1 && |parts[0]| > 0
    ensures [[parts[0][0]] + ([parts[0][1..]] + parts[1..])[0]] + ([parts[0][1..]] + parts[1..])[1..] == parts
  {
    assert [parts[0][0]] + parts[0][1..] == parts[0];
    assert ([parts[0][1..]] + parts[1..])[1..] == parts[1..];
  }

  // ---------------------------------------------------------------------
  // Replacement
  // ---------------------------------------------------------------------

  /** strings.Replace(s, old, new, 1): the first occurrence of `old` is
      replaced; an empty `old` matches at the start. */
  function ReplaceFirst(s: string, target: string, rep: string): (r: string)
    ensures !Contains(s, target) ==> r == s
    ensures Contains(s, target) ==>
      exists i :: OccursAt(s, target, i) && (forall j :: 0 <= j < i ==> !OccursAt(s, target, j))
        && r == s[..i] + rep + s[i + |target|..]
  {
    var i := IndexOf(s, target);
    if i < 0 then s else s[..i] + rep + s[i + |target|..]
  }

  /** strings.ReplaceAll for a one-character pattern. */
  function ReplaceChar(s: string, c: char, rep: string): (r: string)
    ensures c !in rep ==> c !in r
    ensures forall x :: x in r ==> x in s || x in rep
  {
    if |s| == 0 then ""
    else (if s[0] == c then rep else [s[0]]) + ReplaceChar(s[1..], c, rep)
  }

  // ---------------------------------------------------------------------
  // Decimal numbers
  // ---------------------------------------------------------------------

  predicate IsDigit(c: char) {
    '0' <= c <= '9'
  }

  predicate AllDigits(s: string) {
    forall i :: 0 <= i < |s| ==> IsDigit(s[i])
  }

  function DigitChar(d: nat): char
    requires d < 10
  {
    ('0' as int + d) as char
  }

  /** Numeric value of a string of decimal digits. */
  function DigitsValue(s: string): nat
    requires AllDigits(s)
  {
    if |s| == 0 then 0
    else 10 * DigitsValue(s[..|s| - 1]) + (s[|s| - 1] as int - '0' as int)
  }

  /** fmt's %d for a natural number: canonical digits that read back as `n`. */
  function NatToString(n: nat): (r: string)
    ensures |r| >= 1 && AllDigits(r)
    ensures r[0] == '0' ==> n == 0
    ensures DigitsValue(r) == n
  {
    if n < 10 then [DigitChar(n)]
    else
      var h := NatToString(n / 10);
      var r := h + [DigitChar(n % 10)];
      assert r[..|r| - 1] == h;
      r
  }

  /** fmt's %d for an integer. */
  function IntToString(n: int): (r: string)
    ensures n >= 0 ==> r == NatToString(n)
    ensures n < 0 ==> r == "-" + NatToString(-n)
  {
    if n < 0 then "-" + NatToString(-n) else NatToString(n)
  }

  lemma {:induction false} IntToStringNoChar(n: int, c: char)
    requires c != '-' && !IsDigit(c)
    ensures c !in IntToString(n)
  {
  }

  // ---------------------------------------------------------------------
  // Byte-wise ordering (Go's < on strings)
  // ---------------------------------------------------------------------

  predicate Less(a: string, b: string) {
    if |a| == 0 then |b| > 0
    else if |b| == 0 then false
    else if a[0] != b[0] then a[0] < b[0]
    else Less(a[1..], b[1..])
  }

  lemma {:induction false} LessIrreflexive(a: string)
    ensures !Less(a, a)
  {
    if |a| > 0 {
      LessIrreflexive(a[1..]);
    }
  }

  lemma {:induction false} LessTransitive(a: string, b: string, c: string)
    requires Less(a, b) && Less(b, c)
    ensures Less(a, c)
  {
    if |a| > 0 && |b| > 0 && |c| > 0 && a[0] == b[0] && b[0] == c[0] {
      LessTransitive(a[1..], b[1..], c[1..]);
    }
  }

  lemma {:induction false} LessTotal(a: string, b: string)
    ensures a == b || Less(a, b) || Less(b, a)
  {
    if |a| > 0 && |b| > 0 && a[0] == b[0] {
      LessTotal(a[1..], b[1..]);
      if a[1..] == b[1..] {
        assert a == [a[0]] + a[1..] && b == [b[0]] + b[1..];
      }
    }
  }

  lemma {:induction false} LessAsymmetric(a: string, b: string)
    requires Less(a, b)
    ensures !Less(b, a)
  {
    if Less(b, a) {
      LessTransitive(a, b, a);
      LessIrreflexive(a);
    }
  }
}

=== FILE: walker.dfy ===
/** Expanding one file reference and walking one directory reference
    (expandFile and expandDirectoryWithOptions).

    The walk is written over two functions: a lister, which stats and lists
    a directory and gives back the files and subdirectories the walk takes,
    sorted by full path, or the error; and a reader, which gives a file's
    filtered text, or nothing for a file that cannot be read or is binary.
    `ExpandDirectory` runs the walk with the lister and reader of a file
    tree.  `Collect` is an independent description of which files a walk
    takes and in what order, and `WalkRendersCollect` proves the walk's text
    and statistics are the consecutively numbered rendering of that list. */
module Walker {
  import opened Text
  import opened Wrappers
  import opened FileTree
  import opened Selection
  import opened Configuration
  import opened Rendering
  import Filter
  import Languages
  import Paths

  /** The section for one file: a `## [turn.n] path` heading and the
      filtered text in a fence tagged with the language hint. */
  function Section(turnNumber: int, n: int, path: string, text: string): string {
    "## [" + IntToString(turnNumber) + "." + IntToString(n) + "] " + path + "\n```"
      + Languages.GetLanguageHint(path) + "\n" + text + "\n```"
  }

  /** The text that goes into a section: the file's bytes as text, filtered. */
  function Filtered(content: seq<byte>, path: string, fcfg: Filter.FilterConfig): string {
    Filter.FilterContent(ToText(content), path, fcfg)
  }

  /** The sections of a turn. */
  function SectionOf(turnNumber: int): Renderer {
    (n: int, f: Included) => Section(turnNumber, n, f.path, f.text)
  }

  /** A section is never empty: it starts with its heading. */
  lemma {:induction false} SectionNonEmpty(turnNumber: int, n: int, path: string, text: string)
    ensures IsPrefix("## [", Section(turnNumber, n, path, text))
  {
  }

  // ---------------------------------------------------------------------
  // expandFile
  // ---------------------------------------------------------------------

  /** What expandFile returns on success: the section (empty for a binary
      file) and its statistics. */
  datatype FileSection = FileSection(text: string, stat: FileStat)

  /** expandFile: a missing file names the turn that referenced it; another
      read failure is wrapped; a binary file gives empty text and no error;
      otherwise the file's section. */
  function ExpandFile(root: Node, fileName: string, turnNumber: int, sectionNumber: int,
                      fcfg: Filter.FilterConfig): (r: Result<FileSection, string>)
    ensures ReadFile(root, fileName) == Err(NotExist) ==>
      r == Err("cannot find '" + fileName + "' referenced in turn " + IntToString(turnNumber))
    ensures ReadFile(root, fileName).Err? && ReadFile(root, fileName) != Err(NotExist) ==>
      r.Err? && IsPrefix("failed to read '" + fileName + "': ", r.error)
    ensures ReadFile(root, fileName).Ok? && IsBinary(ReadFile(root, fileName).value) ==>
      r.Ok? && r.value.text == ""
    ensures ReadFile(root, fileName).Ok? && !IsBinary(ReadFile(root, fileName).value) ==>
      var f := Filtered(ReadFile(root, fileName).value, fileName, fcfg);
      r == Ok(FileSection(Section(turnNumber, sectionNumber, fileName, f), StatOf(fileName, f)))
  {
    match ReadFile(root, fileName)
    case Err(NotExist) =>
      Err("cannot find '" + fileName + "' referenced in turn " + IntToString(turnNumber))
    case Err(Failed(message)) =>
      Err("failed to read '" + fileName + "': " + message)
    case Ok(content) =>
      if IsBinary(content) then Ok(FileSection("", FileStat("", 0)))
      else
        var f := Filtered(content, fileName, fcfg);
        Ok(FileSection(Section(turnNumber, sectionNumber, fileName, f), StatOf(fileName, f)))
  }

  // ---------------------------------------------------------------------
  // Listing a directory and reading its files
  // ---------------------------------------------------------------------

  /** What the walk takes from one directory: included files and kept
      subdirectories, each as a full path, each sorted. */
  datatype Listing = Listing(files: seq<string>, subdirs: seq<string>)

  /** Lists a directory for the walk, or says why it cannot. */
  type Lister = string -> Result<Listing, string>

  /** A file's filtered text, or nothing when it is skipped. */
  type Reader = string -> Option<string>

  /** The entries `keep` accepts, in listing order. */
  function Select(es: seq<Entry>, keep: Entry -> bool): (r: seq<Entry>)
    ensures forall e :: e in r <==> e in es && keep(e)
  {
    if |es| == 0 then []
    else
      var rest := Select(es[1..], keep);
      assert es == [es[0]] + es[1..];
      if keep(es[0]) then [es[0]] + rest else rest
  }

  /** The listing's files that the rules take, in listing order. */
  function IncludedEntries(path: string, es: seq<Entry>, ecfg: Expand, glob: Matcher): (r: seq<Entry>)
    ensures forall e :: e in r <==>
      e in es && !IsDirNode(e.node) && IncludedFile(e.name, Paths.JoinPath(path, e.name), ecfg, glob)
  {
    Select(es, (e: Entry) => !IsDirNode(e.node) && IncludedFile(e.name, Paths.JoinPath(path, e.name), ecfg, glob))
  }

  /** The listing's subdirectories not excluded by name, in listing order. */
  function KeptSubdirs(es: seq<Entry>, ecfg: Expand): (r: seq<Entry>)
    ensures forall e :: e in r <==> e in es && IsDirNode(e.node) && !ExcludedDirectory(e.name, ecfg)
  {
    Select(es, (e: Entry) => IsDirNode(e.node) && !ExcludedDirectory(e.name, ecfg))
  }

  /** The entries renamed to their full paths under `path`. */
  function UnderPath(path: string, es: seq<Entry>): (r: seq<Entry>)
    ensures |r| == |es|
    ensures forall i :: 0 <= i < |es| ==> r[i] == Entry(Paths.JoinPath(path, es[i].name), es[i].node)
  {
    seq(|es|, i requires 0 <= i < |es| => Entry(Paths.JoinPath(path, es[i].name), es[i].node))
  }

  /** The names of the entries, in order. */
  function Names(es: seq<Entry>): (r: seq<string>)
    ensures |r| == |es|
    ensures forall i :: 0 <= i < |es| ==> r[i] == es[i].name
  {
    seq(|es|, i requires 0 <= i < |es| => es[i].name)
  }

  /** The full paths of the entries, sorted as strings. */
  function SortedPaths(path: string, es: seq<Entry>): seq<string> {
    Names(SortByName(UnderPath(path, es)))
  }

  /** The stat and listing part of expandDirectoryWithOptions: the path must
      exist and be a listable directory; its files pass the selection
      rules, its subdirectories are not excluded by name. */
  function ListDirectory(root: Node, ecfg: Expand, glob: Matcher, path: string): Result<Listing, string> {
    match Lookup(root, path)
    case Absent => Err("directory '" + path + "' not found")
    case Inaccessible(reason) => Err("failed to stat '" + path + "': stat " + path + ": " + reason)
    case Present(Dir(entries)) =>
      Ok(Listing(SortedPaths(path, IncludedEntries(path, entries, ecfg, glob)),
                 SortedPaths(path, KeptSubdirs(entries, ecfg))))
    case Present(UnlistableDir) =>
      Err("failed to read directory '" + path + "': open " + path + ": permission denied")
    case Present(_) => Err("'" + path + "' is not a directory")
  }

  /** The read, binary check and filter of one file of the walk. */
  function ReadFiltered(root: Node, fcfg: Filter.FilterConfig, p: string): (r: Option<string>)
    ensures r.None? <==> ReadFile(root, p).Err? || IsBinary(ReadFile(root, p).value)
    ensures r.Some? ==> r.value == Filtered(ReadFile(root, p).value, p, fcfg)
  {
    var read := ReadFile(root, p);
    if read.Err? || IsBinary(read.value) then None else Some(Filtered(read.value, p, fcfg))
  }

  /** The lister of a file tree under the expansion rules. */
  function TreeLister(root: Node, ecfg: Expand, glob: Matcher): Lister {
    (p: string) => ListDirectory(root, ecfg, glob, p)
  }

  /** The reader of a file tree under the filter settings. */
  function TreeReader(root: Node, fcfg: Filter.FilterConfig): Reader {
    (p: string) => ReadFiltered(root, fcfg, p)
  }

  /** A directory listing takes exactly the included files of the
      directory, by full path, in ascending order; and exactly its
      subdirectories not excluded by name. */
  lemma {:induction false} ListingSelects(root: Node, ecfg: Expand, glob: Matcher, path: string, entries: seq<Entry>)
    requires Lookup(root, path) == Present(Dir(entries))
    ensures ListDirectory(root, ecfg, glob, path).Ok?
    ensures var l := ListDirectory(root, ecfg, glob, path).value;
      && (forall i, j :: 0 <= i < j < |l.files| ==> !Less(l.files[j], l.files[i]))
      && (forall i, j :: 0 <= i < j < |l.subdirs| ==> !Less(l.subdirs[j], l.subdirs[i]))
      && (forall e :: e in entries && !IsDirNode(e.node)
                        && IncludedFile(e.name, Paths.JoinPath(path, e.name), ecfg, glob)
                      ==> Paths.JoinPath(path, e.name) in l.files)
      && (forall p :: p in l.files ==>
            exists e :: e in entries && p == Paths.JoinPath(path, e.name) && !IsDirNode(e.node)
                        && IncludedFile(e.name, p, ecfg, glob))
      && (forall e :: e in entries && IsDirNode(e.node) && !ExcludedDirectory(e.name, ecfg)
                      ==> Paths.JoinPath(path, e.name) in l.subdirs)
      && (forall p :: p in l.subdirs ==>
            exists e :: e in entries && p == Paths.JoinPath(path, e.name) && IsDirNode(e.node)
                        && !ExcludedDirectory(e.name, ecfg))
  {
    var l := ListDirectory(root, ecfg, glob, path).value;
    var inc := IncludedEntries(path, entries, ecfg, glob);
    var kept := KeptSubdirs(entries, ecfg);
    SortedPathsOf(path, inc);
    SortedPathsOf(path, kept);
    forall p | p in l.files
      ensures exists e :: e in entries && p == Paths.JoinPath(path, e.name) && !IsDirNode(e.node)
                          && IncludedFile(e.name, p, ecfg, glob)
    {
      var e :| e in inc && p == Paths.JoinPath(path, e.name);
      assert e in entries;
    }
    forall p | p in l.subdirs
      ensures exists e :: e in entries && p == Paths.JoinPath(path, e.name) && IsDirNode(e.node)
                          && !ExcludedDirectory(e.name, ecfg)
    {
      var e :| e in kept && p == Paths.JoinPath(path, e.name);
      assert e in entries;
    }
  }

  /** The sorted full paths are the entries' full paths, ascending. */
  lemma {:induction false} SortedPathsOf(path: string, es: seq<Entry>)
    ensures forall i, j :: 0 <= i < j < |SortedPaths(path, es)| ==>
      !Less(SortedPaths(path, es)[j], SortedPaths(path, es)[i])
    ensures forall p :: p in SortedPaths(path, es) <==> exists e :: e in es && p == Paths.JoinPath(path, e.name)
  {
    var u := UnderPath(path, es);
    var s := SortByName(u);
    forall p | p in SortedPaths(path, es)
      ensures exists e :: e in es && p == Paths.JoinPath(path, e.name)
    {
      var i :| 0 <= i < |s| && Names(s)[i] == p;
      assert s[i] in multiset(u);
      var k :| 0 <= k < |u| && u[k] == s[i];
      assert es[k] in es;
    }
    forall e | e in es
      ensures Paths.JoinPath(path, e.name) in SortedPaths(path, es)
    {
      var k :| 0 <= k < |es| && es[k] == e;
      assert u[k] in multiset(s);
      var i :| 0 <= i < |s| && s[i] == u[k];
      assert Names(s)[i] == Paths.JoinPath(path, e.name);
    }
  }

  // ---------------------------------------------------------------------
  // expandDirectoryWithOptions
  // ---------------------------------------------------------------------

  /** The file loop: each file the reader gives text for, in order, gets
      the next section number; the others are skipped. */
  function FileSections(read: Reader, render: Renderer, files: seq<string>, n: int): Parts {
    if |files| == 0 then Parts([], [])
    else
      match read(files[0])
      case None => FileSections(read, render, files[1..], n)
      case Some(text) =>
        var rest := FileSections(read, render, files[1..], n + 1);
        Parts([render(n, Included(files[0], text))] + rest.sections, [StatOf(files[0], text)] + rest.stats)
  }

  /** expandDirectoryWithOptions: nothing at or beyond the depth limit;
      otherwise the lister's error, or what the directory's level gathers
      joined by blank lines.  A directory with nothing to show fails only
      at depth 0. */
  function Walk(list: Lister, read: Reader, render: Renderer, path: string, start: int, maxDepth: int,
                recursive: bool, depth: int): (r: Result<Expanded, string>)
    decreases maxDepth - depth, 2
    ensures depth >= maxDepth ==> r == Ok(NoExpansion)
    ensures depth < maxDepth && list(path).Err? ==> r == Err(list(path).error)
    ensures r.Err? && list(path).Ok? ==> depth == 0 && r == Err("no matching files in directory '" + path + "'")
  {
    if depth >= maxDepth then Ok(NoExpansion)
    else
      match list(path)
      case Err(e) => Err(e)
      case Ok(listing) =>
        var p := LevelParts(list, read, render, listing, start, maxDepth, recursive, depth);
        if |p.sections| == 0 && depth == 0 then Err("no matching files in directory '" + path + "'")
        else Ok(Expanded(Join(p.sections, "\n\n"), p.stats))
  }

  /** One directory's sections: the listed files first, numbered from
      `start`, then, when recursing, the sections of the listed
      subdirectories, each walked one level deeper with the numbers
      continuing. */
  function LevelParts(list: Lister, read: Reader, render: Renderer, listing: Listing, start: int, maxDepth: int,
                      recursive: bool, depth: int): Parts
    requires depth < maxDepth
    decreases maxDepth - depth, 1
  {
    var fs := FileSections(read, render, listing.files, start);
    var ss := if recursive
      then SubdirSections(list, read, render, listing.subdirs, start + |fs.stats|, maxDepth, recursive, depth)
      else Parts([], []);
    Parts(fs.sections + ss.sections, fs.stats + ss.stats)
  }

  /** What the subdirectory loop keeps of a walk: its text and statistics
      when it succeeded with text, otherwise nothing. */
  function Kept(sub: Result<Expanded, string>): Expanded {
    if sub.Ok? && sub.value.text != "" then sub.value else NoExpansion
  }

  /** The sections a kept walk adds: one, unless its text is empty. */
  function Lead(e: Expanded): seq<string> {
    if e.text == "" then [] else [e.text]
  }

  /** The subdirectory loop: each subdirectory is walked one level deeper
      from the current section number; a failed or empty walk is skipped,
      and a walk with text adds its text as one section and its statistics. */
  function SubdirSections(list: Lister, read: Reader, render: Renderer, subdirs: seq<string>, n: int,
                          maxDepth: int, recursive: bool, depth: int): Parts
    requires depth < maxDepth
    decreases maxDepth - depth, 0, |subdirs|
  {
    if |subdirs| == 0 then Parts([], [])
    else
      var kept := Kept(Walk(list, read, render, subdirs[0], n, maxDepth, recursive, depth + 1));
      var rest := SubdirSections(list, read, render, subdirs[1..], n + |kept.stats|, maxDepth, recursive, depth);
      Parts(Lead(kept) + rest.sections, kept.stats + rest.stats)
  }

  /** expandDirectoryWithOptions on a file tree. */
  function ExpandDirectory(root: Node, dirPath: string, turnNumber: int, start: int, ecfg: Expand, recursive: bool,
                           depth: int, fcfg: Filter.FilterConfig, glob: Matcher): (r: Result<Expanded, string>)
    ensures depth >= ecfg.maxDepth ==> r == Ok(NoExpansion)
    ensures depth < ecfg.maxDepth && Lookup(root, dirPath).Absent? ==>
      r == Err("directory '" + dirPath + "' not found")
    ensures depth < ecfg.maxDepth && Lookup(root, dirPath).Present? && Lookup(root, dirPath).node.File? ==>
      r == Err("'" + dirPath + "' is not a directory")
    ensures r.Err? && Lookup(root, dirPath).Present? && Lookup(root, dirPath).node.Dir? ==>
      depth == 0 && r == Err("no matching files in directory '" + dirPath + "'")
  {
    Walk(TreeLister(root, ecfg, glob), TreeReader(root, fcfg), SectionOf(turnNumber), dirPath, start, ecfg.maxDepth,
         recursive, depth)
  }

  // ---------------------------------------------------------------------
  // The files a walk takes
  // ---------------------------------------------------------------------

  /** The files among `files` the reader gives text for, in order. */
  function CollectFiles(read: Reader, files: seq<string>): seq<Included> {
    if |files| == 0 then []
    else
      var rest := CollectFiles(read, files[1..]);
      match read(files[0])
      case None => rest
      case Some(text) => [Included(files[0], text)] + rest
  }

  /** The files a walk of `path` at `depth` takes, in the order the walk
      shows them: none at the depth limit or where the path cannot be
      listed; otherwise the listed directory's files. */
  function Collect(list: Lister, read: Reader, path: string, maxDepth: int, recursive: bool, depth: int)
    : seq<Included>
    decreases maxDepth - depth, 2
  {
    if depth >= maxDepth || list(path).Err? then []
    else CollectLevel(list, read, list(path).value, maxDepth, recursive, depth)
  }

  /** A listed directory's files: its own files, then, when recursing,
      each listed subdirectory's files in turn. */
  function CollectLevel(list: Lister, read: Reader, listing: Listing, maxDepth: int, recursive: bool, depth: int)
    : seq<Included>
    requires depth < maxDepth
    decreases maxDepth - depth, 1
  {
    CollectFiles(read, listing.files)
    + (if recursive then CollectSubdirs(list, read, listing.subdirs, maxDepth, recursive, depth) else [])
  }

  function CollectSubdirs(list: Lister, read: Reader, subdirs: seq<string>, maxDepth: int, recursive: bool,
                          depth: int): seq<Included>
    requires depth < maxDepth
    decreases maxDepth - depth, 0, |subdirs|
  {
    if |subdirs| == 0 then []
    else
      Collect(list, read, subdirs[0], maxDepth, recursive, depth + 1)
      + CollectSubdirs(list, read, subdirs[1..], maxDepth, recursive, depth)
  }

  // ---------------------------------------------------------------------
  // The walk shows the collected files
  // ---------------------------------------------------------------------

  /** A turn's sections start with their heading, so none is empty. */
  lemma {:induction false} SectionOfNonEmpty(turnNumber: int)
    ensures NonEmptySections(SectionOf(turnNumber))
  {
    forall n: int, f: Included
      ensures SectionOf(turnNumber)(n, f) != ""
    {
      SectionNonEmpty(turnNumber, n, f.path, f.text);
    }
  }

  /** The file loop shows exactly the collected files. */
  lemma {:induction false} FileSectionsRender(read: Reader, render: Renderer, files: seq<string>, n: int)
    ensures FileSections(read, render, files, n).sections == Sections(render, n, CollectFiles(read, files))
    ensures FileSections(read, render, files, n).stats == Stats(CollectFiles(read, files))
  {
    if |files| > 0 {
      var rest := CollectFiles(read, files[1..]);
      match read(files[0])
      case None =>
        FileSectionsRender(read, render, files[1..], n);
      case Some(text) =>
        FileSectionsRender(read, render, files[1..], n + 1);
        SectionsCons(render, n, Included(files[0], text), rest);
    }
  }

  /** A walk that succeeds shows exactly the collected files, numbered from
      `start`; a walk that fails collects nothing. */
  lemma {:induction false} WalkRendersCollect(list: Lister, read: Reader, render: Renderer, path: string, start: int,
                                              maxDepth: int, recursive: bool, depth: int)
    requires NonEmptySections(render)
    decreases maxDepth - depth, 2
    ensures Walk(list, read, render, path, start, maxDepth, recursive, depth).Ok? ==>
      Walk(list, read, render, path, start, maxDepth, recursive, depth).value
        == Rendered(render, start, Collect(list, read, path, maxDepth, recursive, depth))
    ensures Walk(list, read, render, path, start, maxDepth, recursive, depth).Err? ==>
      Collect(list, read, path, maxDepth, recursive, depth) == []
  {
    if depth < maxDepth && list(path).Ok? {
      LevelRender(list, read, render, list(path).value, start, maxDepth, recursive, depth);
    }
  }

  /** A directory's level shows exactly the files it collects. */
  lemma {:induction false} LevelRender(list: Lister, read: Reader, render: Renderer, listing: Listing, start: int,
                                       maxDepth: int, recursive: bool, depth: int)
    requires NonEmptySections(render) && depth < maxDepth
    decreases maxDepth - depth, 1
    ensures Renders(LevelParts(list, read, render, listing, start, maxDepth, recursive, depth), render, start,
                    CollectLevel(list, read, listing, maxDepth, recursive, depth))
  {
    var fs := FileSections(read, render, listing.files, start);
    var cf := CollectFiles(read, listing.files);
    FileSectionsRender(read, render, listing.files, start);
    if recursive {
      var ss := SubdirSections(list, read, render, listing.subdirs, start + |fs.stats|, maxDepth, recursive, depth);
      var cs := CollectSubdirs(list, read, listing.subdirs, maxDepth, recursive, depth);
      SubdirSectionsRender(list, read, render, listing.subdirs, start + |fs.stats|, maxDepth, recursive, depth);
      RendersAfter(fs, ss, render, start, cf, cs);
      assert LevelParts(list, read, render, listing, start, maxDepth, recursive, depth)
        == Parts(fs.sections + ss.sections, fs.stats + ss.stats);
      assert CollectLevel(list, read, listing, maxDepth, recursive, depth) == cf + cs;
    } else {
      RendersSections(fs, render, start, cf);
      assert LevelParts(list, read, render, listing, start, maxDepth, recursive, depth) == fs;
      assert CollectLevel(list, read, listing, maxDepth, recursive, depth) == cf;
    }
  }

  /** The subdirectory loop shows exactly the files the subdirectories
      collect, numbered on from `n`. */
  lemma {:induction false} SubdirSectionsRender(list: Lister, read: Reader, render: Renderer, subdirs: seq<string>,
                                                n: int, maxDepth: int, recursive: bool, depth: int)
    requires NonEmptySections(render) && depth < maxDepth
    decreases maxDepth - depth, 0, |subdirs|
    ensures Renders(SubdirSections(list, read, render, subdirs, n, maxDepth, recursive, depth),
                    render, n, CollectSubdirs(list, read, subdirs, maxDepth, recursive, depth))
  {
    if |subdirs| > 0 {
      var sub := Walk(list, read, render, subdirs[0], n, maxDepth, recursive, depth + 1);
      var kept := Kept(sub);
      var rest := SubdirSections(list, read, render, subdirs[1..], n + |kept.stats|, maxDepth, recursive, depth);
      var c := Collect(list, read, subdirs[0], maxDepth, recursive, depth + 1);
      var cr := CollectSubdirs(list, read, subdirs[1..], maxDepth, recursive, depth);
      WalkRendersCollect(list, read, render, subdirs[0], n, maxDepth, recursive, depth + 1);
      SubdirSectionsRender(list, read, render, subdirs[1..], n + |kept.stats|, maxDepth, recursive, depth);
      KeptRenders(sub, render, n, c, rest, cr);
      assert SubdirSections(list, read, render, subdirs, n, maxDepth, recursive, depth)
        == Parts(Lead(kept) + rest.sections, kept.stats + rest.stats);
      assert CollectSubdirs(list, read, subdirs, maxDepth, recursive, depth) == c + cr;
    }
  }

  /** A subdirectory's walk that shows its files when it succeeds, and
      collects none when it fails, followed by parts showing the remaining
      files, shows all of them. */
  lemma {:induction false} KeptRenders(sub: Result<Expanded, string>, render: Renderer, n: int, c: seq<Included>, rest: Parts,
                    cr: seq<Included>)
    requires NonEmptySections(render)
    requires sub.Ok? ==> sub.value == Rendered(render, n, c)
    requires sub.Err? ==> c == []
    requires Renders(rest, render, n + |Kept(sub).stats|, cr)
    ensures Renders(Parts(Lead(Kept(sub)) + rest.sections, Kept(sub).stats + rest.stats), render, n, c + cr)
  {
    RenderedEmpty(render, n, c);
    var kept := Kept(sub);
    assert Renders(Parts(Lead(kept), kept.stats), render, n, c);
    RendersAppend(Parts(Lead(kept), kept.stats), rest, render, n, c, cr);
  }

  /** The files a walk of the tree collects from `dirPath`. */
  function CollectTree(root: Node, dirPath: string, ecfg: Expand, fcfg: Filter.FilterConfig, glob: Matcher,
                       recursive: bool, depth: int): seq<Included>
  {
    Collect(TreeLister(root, ecfg, glob), TreeReader(root, fcfg), dirPath, ecfg.maxDepth, recursive, depth)
  }

  /** Expanding a directory of a file tree shows exactly the files the
      tree's walk collects, numbered from `start`, and fails only when it
      collects none. */
  lemma {:induction false} ExpandDirectoryRenders(root: Node, dirPath: string, turnNumber: int, start: int, ecfg: Expand,
                               recursive: bool, depth: int, fcfg: Filter.FilterConfig, glob: Matcher)
    ensures var c := CollectTree(root, dirPath, ecfg, fcfg, glob, recursive, depth);
      && (ExpandDirectory(root, dirPath, turnNumber, start, ecfg, recursive, depth, fcfg, glob).Ok? ==>
            ExpandDirectory(root, dirPath, turnNumber, start, ecfg, recursive, depth, fcfg, glob).value
              == Rendered(SectionOf(turnNumber), start, c))
      && (ExpandDirectory(root, dirPath, turnNumber, start, ecfg, recursive, depth, fcfg, glob).Err? ==> c == [])
  {
    SectionOfNonEmpty(turnNumber);
    WalkRendersCollect(TreeLister(root, ecfg, glob), TreeReader(root, fcfg), SectionOf(turnNumber), dirPath, start,
                       ecfg.maxDepth, recursive, depth);
  }
}

=== FILE: wrappers.dfy ===
/** Optional values and results with an error value, used for the Go idioms
    `(value, ok)` and `(value, err)`. */
module Wrappers {

  datatype Option<+T> = None | Some(value: T)

  datatype Result<+R, +E> = Ok(value: R) | Err(error: E)
}
